=== FILE: README.md ===
# Kaiser Safety: a Dafny model of the safety-compliance app's logic

Kaiser Safety is a React application for construction-site safety
compliance. Employees fill in safety documents, run equipment pre-use
inspections (the swing-stage checklist and the generic equipment checklist),
sign toolbox talks that a presenter sends to a team, and keep training
certifications. Managers see dashboards, team figures and submission lists.

Underneath the rendering, the components hold small, sequential pieces of
logic written as `map`/`filter`/`reduce` over immutable arrays and records.
This project models that logic as Dafny datatypes and pure functions and
proves what each piece guarantees:

- the inspection checklist session: the tri-state item toggle, status and
  notes updates, completion statistics, the first-failure validator, submit
  and reset (`Checklist`, `EquipmentChecklist`, `SwingStage`);
- the toolbox-talk lifecycle: send, sign, submit, the signature view's
  predicates and gates, and the generator's selection and send checks
  (`ToolboxTalk`, `ToolboxSignature`, `ToolboxGenerator`, `Toggles`), plus
  a checked version of the lifecycle (`ToolboxWorkflow`);
- the shell's own logic: per-category counts, marking a notification read,
  and the rows the two submit handlers insert (`AppLayout`);
- search, filter, sort and statistics over submissions, documents and
  employees (`MySubmissions`, `DocumentLibrary`, `TeamManagement`,
  `Dashboard`);
- the generic required-field form (`DocumentForm`), the certification store
  (`TrainingRecords`) and the renewal-period and field-type labels
  (`DocumentLabels`).

Shared pieces: `Wrappers` (`Option`, `Result`), `Seqs` (filter, count,
distinct, the insertion sort used for every `Array.prototype.sort`, take),
`Text` (ASCII lower-casing, trimming, `includes`, integer formatting) and
`Safety` (the data records, day arithmetic and the seven-day expiry window).

Conventions:

- Dates are integer milliseconds and "now" is a parameter. A day is
  86 400 000 ms, and `Math.ceil` of a day count is written out exactly.
- Strings are `seq<char>`. `toLowerCase` is ASCII lower-casing, `trim`
  strips ASCII whitespace, and an optional string is `""` when missing.
- Form values are a `FieldValue` datatype with JavaScript truthiness.
- `localeCompare` is a comparator parameter. For those sorts, only the
  permutation is proved. Sorts by a numeric key are also proved ordered by
  that key.
- The database, `localStorage` and callbacks are not modelled. A handler's
  result is the row or record it would hand on, or the state it would set.

Where the written behaviour and the code differ, the model follows the code:

- The checklist percentage has no guard against zero items. It is
  `None` (JavaScript's `NaN`) when there are no items.
- The sign handler checks neither assignment, nor duplicate signers, nor a
  submitted talk.
- The send handler does not remove duplicate ids.
- The checked lifecycle with those refusals exists only as
  `ToolboxWorkflow`, the corrected half of the findings below.

## Model

| member | source | states |
|---|---|---|
| Checklist.InitializeSections | src/components/safety/EquipmentChecklist.tsx:73-82 | one item state per definition item, in definition order, each unanswered with empty notes |
| Checklist.ToggleTwice | src/components/safety/EquipmentChecklist.tsx:97 | pressing the same status twice restores the item exactly when it started unanswered or at that status |
| Checklist.ToggleOther | src/components/safety/SwingStageChecklist.tsx:201 | pressing two different statuses in a row leaves the second selected |
| Checklist.SetStatus | src/components/safety/EquipmentChecklist.tsx:90-105 | the section and item ids and their order are kept; matching items are toggled and every other item is unchanged |
| Checklist.SetNotes | src/components/safety/EquipmentChecklist.tsx:107-122 | the section and item ids and their order are kept; matching items get the new notes and every other item is unchanged |
| Checklist.FirstIndex | src/components/safety/EquipmentChecklist.tsx:176-179 | the lookup by id stops at the first section or item with that id, and reports nothing only when no entry has it |
| Checklist.GetItemStatus | src/components/safety/EquipmentChecklist.tsx:176-179 | the first item with the item id in the first section with the section id: present exactly when that section holds such an item, and nothing when no section has the id |
| Checklist.SetStatusChangesOneItem | src/components/safety/SwingStageChecklist.tsx:194-209 | with unique ids, a press changes exactly the pressed item and nothing else |
| Checklist.SetStatusSeenByLookup | src/components/safety/EquipmentChecklist.tsx:90-105 | after a press, the item the view looks up shows the toggled status and unchanged notes |
| Checklist.UniqueIdsShape | src/components/safety/SwingStageChecklist.tsx:194-226 | the reducers keep section and item ids unique |
| Checklist.FlattenMembers | src/components/safety/EquipmentChecklist.tsx:134-135 | an item is tallied exactly when it is an item of some section |
| Checklist.FlattenLength | src/components/safety/EquipmentChecklist.tsx:134-136 | the item total is the sum of the section sizes |
| Checklist.Percentage | src/components/safety/EquipmentChecklist.tsx:145 | the nearest whole percentage, with halves rounded up; undefined with no items; between 0 and 100 when completed ≤ total |
| Checklist.Stats | src/components/safety/EquipmentChecklist.tsx:128-146 | passed + failed ≤ completed ≤ total, and the percentage is defined exactly when there are items |
| Checklist.CompleteIffAllAnswered | src/components/safety/EquipmentChecklist.tsx:194-196 | completed equals total exactly when every item has a status |
| Checklist.GetCompletionStats | src/components/safety/EquipmentChecklist.tsx:128-146 | the nested tally loop computes the reference statistics |
| Checklist.TallyItems | src/components/safety/EquipmentChecklist.tsx:135-141 | one section's tally counts its items, the answered ones, the passes and the fails |
| Checklist.TotalDependsOnShape | src/components/safety/SwingStageChecklist.tsx:232-249 | status and notes changes never change the item total |
| Checklist.BlankProjectInfo | src/components/safety/EquipmentChecklist.tsx:151-168 | the reset project information: today's date and time, and every other field empty |
| Checklist.ResetSession | src/components/safety/EquipmentChecklist.tsx:150-174 | reset restores the initial sections, clears the approval and deficiency fields and empties the notes |
| EquipmentChecklist.InitialSections | src/components/safety/EquipmentChecklist.tsx:73-82 | one state per section of the equipment's definition with the section's id, and one blank state per item with the item's id, in order |
| EquipmentChecklist.InitialForm | src/components/safety/EquipmentChecklist.tsx:54-88 | the form opens with no success flag, no approval, no deficiency and nothing answered |
| EquipmentChecklist.Reset | src/components/safety/EquipmentChecklist.tsx:150-174 | whatever the form held, it returns to its opening state |
| EquipmentChecklist.ValidateForm | src/components/safety/EquipmentChecklist.tsx:181-198 | the first failing check in the source's order: blank project name, blank address, blank inspector, no approval choice, unanswered items (reporting the completed and total counts of the checklist); none exactly when all pass |
| EquipmentChecklist.HandleSubmit | src/components/safety/EquipmentChecklist.tsx:200-230 | an invalid form sends nothing, keeps the form and reports the first failing check; a valid one sends exactly the record copying the form when there is a callback, and success is set unless the callback throws |
| EquipmentChecklist.Deliver | src/components/safety/EquipmentChecklist.tsx:220-229 | the record reaches the callback when there is one; success is shown and no error raised unless the callback throws |
| EquipmentChecklist.SubmittedRecordsComplete | src/components/safety/EquipmentChecklist.tsx:181-218 | every record that reaches the callback has a named project and inspector, an approval choice and every item answered |
| EquipmentChecklist.ResetFormIsInvalid | src/components/safety/EquipmentChecklist.tsx:150-186 | a fresh or reset form fails validation on the project name first |
| SwingStage.LayoutShape | src/components/safety/SwingStageChecklist.tsx:38-186 | ten sections with 8, 10, 7, 8, 9, 7, 8, 6, 7 and 7 items |
| SwingStage.LayoutSectionIdsDistinct | src/components/safety/SwingStageChecklist.tsx:38-186 | the section ids are pairwise different |
| SwingStage.LayoutItemIdsDistinct | src/components/safety/SwingStageChecklist.tsx:38-186 | within each section the item ids are pairwise different |
| SwingStage.LayoutTagged | src/components/safety/SwingStageChecklist.tsx:38-186 | every item id starts with its section's two-letter tag, and the ten tags differ |
| SwingStage.LayoutItemIdsUnique | src/components/safety/SwingStageChecklist.tsx:38-186 | no two of the 77 items, in the same or in different sections, share an id |
| SwingStage.PreUseLabelled | src/components/safety/SwingStageChecklist.tsx:38-186 | every item of the section has exactly one text |
| SwingStage.RiggingLabelled | src/components/safety/SwingStageChecklist.tsx:38-186 | every item of the section has exactly one text |
| SwingStage.PlatformLabelled | src/components/safety/SwingStageChecklist.tsx:38-186 | every item of the section has exactly one text |
| SwingStage.GuardrailsLabelled | src/components/safety/SwingStageChecklist.tsx:38-186 | every item of the section has exactly one text |
| SwingStage.HoistingLabelled | src/components/safety/SwingStageChecklist.tsx:38-186 | every item of the section has exactly one text |
| SwingStage.ElectricalLabelled | src/components/safety/SwingStageChecklist.tsx:38-186 | every item of the section has exactly one text |
| SwingStage.PpeLabelled | src/components/safety/SwingStageChecklist.tsx:38-186 | every item of the section has exactly one text |
| SwingStage.WeatherLabelled | src/components/safety/SwingStageChecklist.tsx:38-186 | every item of the section has exactly one text |
| SwingStage.SiteLabelled | src/components/safety/SwingStageChecklist.tsx:38-186 | every item of the section has exactly one text |
| SwingStage.OperationalLabelled | src/components/safety/SwingStageChecklist.tsx:38-186 | every item of the section has exactly one text |
| SwingStage.InitialSections | src/components/safety/SwingStageChecklist.tsx:38-186 | one section per defined section and one item per defined item, in order, every item unanswered and without notes, ids unique |
| SwingStage.InitialItemCount | src/components/safety/SwingStageChecklist.tsx:38-186 | the definition lists 77 items in all |
| SwingStage.InitialTotal | src/components/safety/SwingStageChecklist.tsx:232-249 | the initial checklist has 77 items |
| SwingStage.Apply | src/components/safety/SwingStageChecklist.tsx:194-277 | a status press or notes edit keeps the section and item structure, and a reset returns to the initial sections and blank fields |
| SwingStage.RunKeepsShape | src/components/safety/SwingStageChecklist.tsx:194-226 | no sequence of actions changes the section and item structure |
| SwingStage.ProgressAlwaysDefined | src/components/safety/SwingStageChecklist.tsx:241-249 | after any actions the total is 77, "remaining" is never negative and the percentage is defined and between 0 and 100 |
| SwingStage.ResetRestoresOpened | src/components/safety/SwingStageChecklist.tsx:254-277 | a reset returns to the state the form opened with, whatever came before |
| SwingStage.RunConcat | src/components/safety/SwingStageChecklist.tsx:194-277 | running two action sequences in turn equals running them joined |
| Toggles.FlipKey | src/components/safety/ToolboxTalkSignature.tsx:53-58 | only the named key flips, and a missing key becomes true |
| Toggles.FlipKeyTwice | src/components/safety/ToolboxTalkGenerator.tsx:147-152 | flipping a present key twice restores the map |
| Toggles.InitialExpanded | src/components/safety/ToolboxTalkSignature.tsx:35-45 | the nine talk sections all start expanded |
| Toggles.ToggleOption | src/components/safety/DocumentLibrary.tsx:272 | a filter button, like a checklist status button, clears its selection exactly when that option was active, and otherwise selects it |
| Toggles.ToggleOptionTwice | src/components/safety/DocumentLibrary.tsx:282 | pressing an option twice from no filter returns to no filter; pressing another option selects it |
| ToolboxTalk.StatusNameInjective | src/components/AppLayout.tsx:317 | the four statuses are stored under four different names |
| ToolboxTalk.ActingId | src/components/AppLayout.tsx:314 | the creator is the selected employee's id, or empty without one |
| ToolboxTalk.Send | src/components/AppLayout.tsx:304-325 | a new pending record with the generated ids, no signatures, exactly the given assignees and the send time as conducted and created time goes first, and the old list follows unchanged |
| ToolboxTalk.ReplaceById | src/components/AppLayout.tsx:373-375 | the list keeps its length; records with the id are replaced and every other record is unchanged |
| ToolboxTalk.ReplaceByIdIds | src/components/AppLayout.tsx:392-394 | replacing an id no record has changes nothing, and replacing with a record of the same id keeps the list's ids |
| ToolboxTalk.StatusAfterSign | src/components/AppLayout.tsx:367-369 | "completed" exactly when the new signature count reaches at least the number assigned; otherwise "in progress" |
| ToolboxTalk.Sign | src/components/AppLayout.tsx:354-378 | nothing without a selected record or employee; otherwise one signature by the current employee is appended, the status is recomputed from the counts alone, and only that record is replaced |
| ToolboxTalk.Submit | src/components/AppLayout.tsx:382-397 | nothing without a selection; otherwise the status becomes "submitted" with the submit and update times, and no other field of the talk changes |
| ToolboxTalk.HandlersKeepInSync | src/components/AppLayout.tsx:373-378 | signing and submitting keep the stored list and the open record in agreement |
| ToolboxTalk.SignOnlyGrows | src/components/AppLayout.tsx:357-366 | signing keeps earlier signatures in order and appends exactly one |
| ToolboxTalk.EmployeeTalks | src/components/AppLayout.tsx:418-423 | empty without an employee; otherwise the order-preserving list of records the employee is assigned to or created |
| ToolboxSignature.HasCurrentUserSigned | src/components/safety/ToolboxTalkSignature.tsx:60-62 | false without a current employee; otherwise true exactly when some signature carries that employee's id |
| ToolboxSignature.EmptyAssignmentNeverAllSigned | src/components/safety/ToolboxTalkSignature.tsx:69-71 | a talk assigned to nobody is never "all signed" |
| ToolboxSignature.BannerFor | src/components/safety/ToolboxTalkSignature.tsx:219-262 | submitted comes before all signed, which comes before awaiting; the awaiting count is assigned minus signed |
| ToolboxSignature.FindSignature | src/components/safety/ToolboxTalkSignature.tsx:497 | finds a signature with that id exactly when one exists, and it is the first such signature |
| ToolboxSignature.Rows | src/components/safety/ToolboxTalkSignature.tsx:496-500 | one row per assignee in assignment order; a row is signed exactly when a signature with that id exists; "Sign Now" only for the assigned current user without a signature |
| ToolboxSignature.SignNowImpliesHeaderButton | src/components/safety/ToolboxTalkSignature.tsx:537 | a row's "Sign Now" appears only for an assignee who also sees the header button |
| ToolboxSignature.HandleSignSubmit | src/components/safety/ToolboxTalkSignature.tsx:136-145 | signs at most once, and only with a canvas and a printed name that is not blank; a refusal leaves the modal as it was |
| ToolboxSignature.ConfirmMatchesHandler | src/components/safety/ToolboxTalkSignature.tsx:628 | the confirm button is enabled exactly when the handler would sign, which is when the name is not all whitespace |
| ToolboxSignature.GatedSign | src/components/safety/ToolboxTalkSignature.tsx:190 | the sign handler runs exactly when the header button is shown |
| ToolboxSignature.GatedSubmit | src/components/safety/ToolboxTalkSignature.tsx:199 | the submit handler runs exactly when the submit button is shown |
| ToolboxSignature.GatedSignKeepsSignersDistinct | src/components/safety/ToolboxTalkSignature.tsx:190 | behind the button, nobody signs the open record twice |
| ToolboxSignature.GatedSubmitNeedsAllSigned | src/components/safety/ToolboxTalkSignature.tsx:199 | behind the button, a talk is submitted only with as many signatures as assignees, and the signatures are kept |
| ToolboxSignature.UnassignedCreatorCompletesTalk | src/components/AppLayout.tsx:367 | the creator of a talk, who is not assigned, is shown the talk and the sign button; signing marks it "completed" and offers submit while the only assignee's row shows no signature |
| ToolboxSignature.CompletedButNotSubmittable | src/components/safety/ToolboxTalkSignature.tsx:71 | after the assignee also signs, the talk is "completed" with more signatures than assignees and has no submit button |
| ToolboxSignature.OverSignedStaysUnsubmittable | src/components/safety/ToolboxTalkSignature.tsx:199 | once a record has more signatures than assignees, no sign or submit makes it submittable |
| ToolboxSignature.SignReopensSubmitted | src/components/AppLayout.tsx:367-369 | a submitted talk still offers the sign button to an employee who has not signed, and signing overwrites the "submitted" status |
| ToolboxWorkflow.SendEstablishesValid | src/components/AppLayout.tsx:304-325 | a freshly sent talk satisfies the lifecycle invariant |
| ToolboxWorkflow.SignChecked | src/components/AppLayout.tsx:354-378 | checked signing succeeds exactly for an assigned employee who has not yet signed an unsubmitted talk, and names each refusal; an accepted sign appends the signature, sets the update time, changes no other field and marks the talk completed exactly when every assignee has signed |
| ToolboxWorkflow.SignCheckedIsHandlerUpToStatus | src/components/AppLayout.tsx:354-378 | an accepted checked sign stores the handler's record except for the status, which comes from every assignee having signed rather than from the counts (the two differ when an id is assigned twice) |
| ToolboxWorkflow.SubmitChecked | src/components/AppLayout.tsx:382-397 | checked submitting succeeds exactly for a completed talk, and is then exactly the handler's |
| ToolboxWorkflow.SignCheckedKeepsValid | src/components/AppLayout.tsx:357-369 | checked signing keeps signers distinct and assigned, with "completed" exactly when everyone has signed |
| ToolboxWorkflow.SubmitCheckedKeepsValid | src/components/AppLayout.tsx:382-390 | checked submitting keeps the invariant |
| ToolboxWorkflow.CompletedIsSubmittableSubmittedIsSealed | src/components/AppLayout.tsx:367-390 | under the invariant a completed talk can be submitted, and a submitted talk cannot be signed |
| ToolboxWorkflow.CompletedShowsEveryRowSigned | src/components/safety/ToolboxTalkSignature.tsx:496-500 | under the invariant a completed talk shows a signature on every row |
| ToolboxWorkflow.CheckedRefusesUnassignedCreator | src/components/safety/ToolboxTalkSignature.tsx:190 | the unassigned creator is refused |
| ToolboxGenerator.HandleSendToTeam | src/components/safety/ToolboxTalkGenerator.tsx:214-225 | ignored without a talk or callback; an empty selection is reported before a blank presenter; otherwise the talk is sent with the selection, site and presenter |
| ToolboxGenerator.SendButtonMatchesHandler | src/components/safety/ToolboxTalkGenerator.tsx:884 | with a talk and a callback, the button is enabled exactly when the handler would send |
| ToolboxGenerator.AfterSendTimer | src/components/safety/ToolboxTalkGenerator.tsx:227-232 | after the timer the dialog is closed and the selection and site are cleared, while the presenter is kept |
| ToolboxGenerator.ToggleEmployee | src/components/safety/ToolboxTalkGenerator.tsx:235-241 | an unselected id is appended at the end; a selected one is removed with the others kept in order; a selection without duplicates stays without |
| ToolboxGenerator.ToggleEmployeeTwice | src/components/safety/ToolboxTalkGenerator.tsx:235-241 | toggling an id twice restores the set of selected ids |
| ToolboxGenerator.SelectAll | src/components/safety/ToolboxTalkGenerator.tsx:243-249 | clears the selection when its length equals the employee count; otherwise selects every employee id in order |
| ToolboxGenerator.SelectAllTwice | src/components/safety/ToolboxTalkGenerator.tsx:243-249 | pressing twice from a partial selection ends with nothing selected |
| ToolboxGenerator.SelectAllLabel | src/components/safety/ToolboxTalkGenerator.tsx:840 | the label says "Deselect All" exactly when the lengths are equal |
| ToolboxGenerator.SaveHistory | src/components/safety/ToolboxTalkGenerator.tsx:130 | the new talk first, then the previous history, at most 50 entries |
| ToolboxGenerator.SaveHistoryDropsOldest | src/components/safety/ToolboxTalkGenerator.tsx:130 | saving into a full history drops exactly its oldest talk |
| ToolboxGenerator.UpdateTopics | src/components/safety/ToolboxTalkGenerator.tsx:135 | at most the last 30 topics, ending with the new title |
| AppLayout.MarkRead | src/components/AppLayout.tsx:268-270 | only the notifications with that id become read; nothing else changes |
| AppLayout.MarkReadIdempotent | src/components/AppLayout.tsx:268-270 | marking twice equals marking once, and the unread count never grows |
| AppLayout.CountByCategory | src/components/AppLayout.tsx:132-138 | an entry for exactly the categories that occur, holding their document count |
| AppLayout.DocumentCounts | src/components/AppLayout.tsx:132-139 | the per-category counts, with the equipment checklists added to an "Equipment" entry that is always present |
| AppLayout.CountsCoverEveryDocument | src/components/AppLayout.tsx:132-138 | every document's category has an entry of at least one |
| AppLayout.VirtualDocId | src/components/AppLayout.tsx:180 | the id is the equipment-checklist prefix followed by the equipment id |
| AppLayout.EquipmentSubmitRow | src/components/AppLayout.tsx:172-199 | nothing without an employee; otherwise a submitted row under the virtual id, signed with the inspector's name, expiring one day later, with the approval note |
| AppLayout.FormExpiry | src/components/AppLayout.tsx:217-220 | no expiry for a missing or zero renewal period; otherwise now plus that many days |
| AppLayout.FormExpiryDays | src/components/AppLayout.tsx:217-220 | a positive period puts the expiry exactly that many whole days in the future |
| AppLayout.SiteOf | src/components/AppLayout.tsx:232 | the form's site when it is a non-empty string, otherwise none |
| AppLayout.FormSubmitRow | src/components/AppLayout.tsx:213-235 | nothing without a document and an employee; otherwise a submitted row with the form data, signature, submission time, renewal-based expiry and site |
| AppLayout.EquipmentRowExpiresTomorrow | src/components/AppLayout.tsx:191 | an equipment row expires in exactly one day, so it counts as expiring soon |
| Safety.CountExpiring | src/components/safety/MySubmissions.tsx:204-210 | counts the submissions whose rounded-up days to expiry are between 1 and 7; one without an expiry never counts |
| Safety.ExpiringSoonWindow | src/components/safety/Dashboard.tsx:40-46 | expiring soon means the expiry is after now and at most seven days away |
| MySubmissions.VirtualDocument | src/components/safety/MySubmissions.tsx:50-61 | an equipment type is listed as a required daily "Equipment" document under its virtual id |
| MySubmissions.AllDocuments | src/components/safety/MySubmissions.tsx:63 | the stored documents followed by one virtual document per equipment type |
| MySubmissions.FindDocument | src/components/safety/MySubmissions.tsx:70-72 | the first document with the submission's document id, or none exactly when no document has it |
| MySubmissions.FilterSubmissions | src/components/safety/MySubmissions.tsx:78-101 | the three successive filters keep exactly the submissions that pass all three tests, in order |
| MySubmissions.StatusRank | src/components/safety/MySubmissions.tsx:109-110 | draft ranks 1, expired 2, and everything else 3, including submitted |
| MySubmissions.SortSubmissions | src/components/safety/MySubmissions.tsx:103-119 | a permutation; by date it is newest first, by status it is ordered by rank |
| MySubmissions.FilteredSubmissions | src/components/safety/MySubmissions.tsx:78-122 | exactly the matching submissions, each as often as in the input, with the sort's order |
| MySubmissions.NoFiltersKeepAll | src/components/safety/MySubmissions.tsx:81 | an empty query and no filters keep every submission |
| MySubmissions.FilteredTalks | src/components/safety/MySubmissions.tsx:124-145 | exactly the matching toolbox talks, each as often as in the input, newest first |
| MySubmissions.NoTalkFiltersKeepAll | src/components/safety/MySubmissions.tsx:127-139 | an empty query and no status filter keep every talk |
| MySubmissions.Stats | src/components/safety/MySubmissions.tsx:200-213 | the total, submitted, draft and expiring counts, with submitted + drafts ≤ total |
| MySubmissions.TalkStats | src/components/safety/MySubmissions.tsx:215-222 | the talk counts, where "pending" counts both open statuses |
| MySubmissions.TalkStatsAddUp | src/components/safety/MySubmissions.tsx:215-222 | submitted + pending + completed equals the total |
| MySubmissions.TalkAction | src/components/safety/MySubmissions.tsx:715 | "Sign" exactly for open talks, "View" exactly for the others |
| MySubmissions.VirtualIdsAreEquipment | src/components/safety/MySubmissions.tsx:74-76 | every virtual id the shell builds is recognised as an equipment checklist |
| MySubmissions.EquipmentIdsAreVirtual | src/components/safety/MySubmissions.tsx:74-76 | every recognised id is the virtual id of the equipment id after the prefix |
| MySubmissions.EquipmentRowsRecognised | src/components/AppLayout.tsx:180 | every equipment row the shell inserts is recognised as one |
| MySubmissions.EveryEquipmentRowShowsApproved | src/components/safety/MySubmissions.tsx:589 | every equipment row's note passes the "APPROVED" test, whatever the decision |
| MySubmissions.RejectedInspectionShownApproved | src/components/safety/MySubmissions.tsx:589 | a rejected scissor-lift inspection is labelled approved |
| MySubmissions.IntendedLabelMatchesApproval | src/components/AppLayout.tsx:193 | testing the note's ending reads back exactly the inspector's decision |
| MySubmissions.SubmittedSortsLast | src/components/safety/MySubmissions.tsx:109-110 | in the status sort as written, a submitted entry never comes before a draft or an expired one |
| MySubmissions.IntendedStatusRank | src/components/safety/MySubmissions.tsx:109 | the intended order: submitted 0, draft 1, expired 2, anything else 3 |
| MySubmissions.IntendedSortPutsSubmittedFirst | src/components/safety/MySubmissions.tsx:109 | with the intended order, every submitted entry comes before every draft |
| DocumentForm.HandleInputChange | src/components/safety/DocumentForm.tsx:49-58 | sets only the named field and removes only that field's error; other fields and errors stay |
| DocumentForm.HandleChecklistChange | src/components/safety/DocumentForm.tsx:60-67 | checking appends the item; unchecking removes every occurrence; other fields are untouched |
| DocumentForm.CheckThenUncheck | src/components/safety/DocumentForm.tsx:60-67 | checking a new item and unchecking it restores the list |
| DocumentForm.FieldErrors | src/components/safety/DocumentForm.tsx:115-126 | an error for exactly the failing required fields; each holds the message for the last failing field of that name (checklist or required) |
| DocumentForm.ValidationErrors | src/components/safety/DocumentForm.tsx:115-131 | the error keys are the failing fields plus "signature" exactly when there is no signature |
| DocumentForm.ValidateForm | src/components/safety/DocumentForm.tsx:112-134 | stores the errors and reports true exactly when there are none |
| DocumentForm.ValidIff | src/components/safety/DocumentForm.tsx:112-134 | valid exactly when there is a signature and no required field fails |
| DocumentForm.HandleSubmit | src/components/safety/DocumentForm.tsx:136-141 | submits only after validation succeeds, with the form data and the entered site under "project_site" |
| DocumentForm.ClearSignature | src/components/safety/DocumentForm.tsx:103-110 | with a canvas the signature is emptied; otherwise nothing changes |
| DocumentForm.ClearedSignatureFailsValidation | src/components/safety/DocumentForm.tsx:128-130 | after clearing, validation fails and reports the signature |
| DocumentForm.ChecklistFieldNeedsAnItem | src/components/safety/DocumentForm.tsx:118-121 | a required checklist fails when empty and passes with one item |
| DocumentLibrary.Categories | src/components/safety/DocumentLibrary.tsx:34-37 | the distinct non-empty categories that occur |
| DocumentLibrary.ListedCategoriesAreNonEmpty | src/components/safety/DocumentLibrary.tsx:344 | every listed category has at least one document |
| DocumentLibrary.BucketsDisjoint | src/components/safety/DocumentLibrary.tsx:66-83 | the renewal buckets are pairwise disjoint, and periods 2 to 6, 32 to 364 and negative ones fall in none |
| DocumentLibrary.BucketsCoverTheRest | src/components/safety/DocumentLibrary.tsx:66-83 | every other period is in some bucket |
| DocumentLibrary.SortDocuments | src/components/safety/DocumentLibrary.tsx:87-101 | a permutation; the required sort is ordered by required first |
| DocumentLibrary.FilterDocuments | src/components/safety/DocumentLibrary.tsx:42-84 | the four successive filters keep exactly the documents passing all four tests, in order |
| DocumentLibrary.FilteredDocuments | src/components/safety/DocumentLibrary.tsx:42-104 | exactly the matching documents, each as often as in the input, with the sort's order |
| DocumentLibrary.RequiredSortPutsRequiredFirst | src/components/safety/DocumentLibrary.tsx:98-100 | the required sort lists every required document before every optional one |
| DocumentLibrary.NoFiltersKeepAll | src/components/safety/DocumentLibrary.tsx:42-84 | no category, query or filter keeps every document |
| DocumentLibrary.PressRequired | src/components/safety/DocumentLibrary.tsx:272 | the required button clears its filter when active and otherwise sets it; the renewal filter is kept |
| DocumentLibrary.PressRenewal | src/components/safety/DocumentLibrary.tsx:309 | the renewal button clears its filter when active and otherwise sets it; the required filter is kept |
| DocumentLibrary.RenewalOptionRoundTrip | src/components/safety/DocumentLibrary.tsx:309 | pressing a renewal option twice restores the filters |
| DocumentLibrary.ClearFilters | src/components/safety/DocumentLibrary.tsx:117-123 | afterwards no filter is active |
| DocumentLibrary.ClearFiltersShowsAll | src/components/safety/DocumentLibrary.tsx:117-123 | after clearing, with no category, every document is listed |
| DocumentLibrary.FilteredEquipment | src/components/safety/DocumentLibrary.tsx:107-115 | everything for an empty query; otherwise exactly the name, description or standard matches, in order |
| DocumentLibrary.EquipmentCategoryShowsSection | src/components/safety/DocumentLibrary.tsx:126 | the equipment section shows for the "Equipment" category and not for another |
| DocumentLibrary.Groups | src/components/safety/DocumentLibrary.tsx:368-491 | the swing-stage group, the scissor and boom lift group, and the rest |
| DocumentLibrary.GroupsPartition | src/components/safety/DocumentLibrary.tsx:368-478 | each listed item is in exactly one group, and the group sizes add up to the list |
| TrainingRecords.Classify | src/components/safety/TrainingRecords.tsx:105-114 | expired before now, expiring soon within thirty days, valid otherwise; exactly one holds |
| TrainingRecords.ClassifyMonotone | src/components/safety/TrainingRecords.tsx:105-114 | a later expiry never gets a worse status |
| TrainingRecords.EmployeeCertifications | src/components/safety/TrainingRecords.tsx:99-102 | the first matching record's list, or empty |
| TrainingRecords.AddCertification | src/components/safety/TrainingRecords.tsx:156-192 | refused without an employee, name, issue date or expiry; otherwise appends to the employee's record, or appends a new record; other records are unchanged |
| TrainingRecords.NewCertification | src/components/safety/TrainingRecords.tsx:162-170 | the certification copies the entered fields, with the status computed from the expiry at add time |
| TrainingRecords.AddKeepsOnePerEmployee | src/components/safety/TrainingRecords.tsx:172-186 | adding keeps at most one record per employee, and the employee's list gains the certification |
| TrainingRecords.StatusFixedAtAdd | src/components/safety/TrainingRecords.tsx:168 | the stored status is not recomputed: a certification valid when added stays "valid" after it has expired |
| TrainingRecords.Without | src/components/safety/TrainingRecords.tsx:198-201 | only the named employee's record loses the certifications with that id |
| TrainingRecords.PrunedFacts | src/components/safety/TrainingRecords.tsx:195-205 | after a confirmed delete the records are exactly the non-empty ones with the certification taken out: the employee keeps every other certification, no record is empty, and every other employee's record is kept |
| TrainingRecords.DeleteCertification | src/components/safety/TrainingRecords.tsx:195-205 | unconfirmed, nothing changes; otherwise exactly the non-empty records with the certification taken out remain, so the employee keeps every other certification |
| TrainingRecords.DeleteKeepsOnePerEmployee | src/components/safety/TrainingRecords.tsx:198-202 | deleting keeps at most one record per employee |
| TrainingRecords.CountStatuses | src/components/safety/TrainingRecords.tsx:272-274 | the valid, expiring and expired counts add up to the number of certifications |
| TrainingRecords.StatusLabelInjective | src/components/safety/TrainingRecords.tsx:230-237 | the three statuses get three different labels |
| TrainingRecords.FilteredEmployees | src/components/safety/TrainingRecords.tsx:214-217 | the order-preserving list of employees whose name or role mentions the query; all for an empty query |
| TeamManagement.Roles | src/components/safety/TeamManagement.tsx:36-39 | the distinct non-empty roles that occur |
| TeamManagement.Departments | src/components/safety/TeamManagement.tsx:41-44 | the distinct non-empty departments that occur |
| TeamManagement.FilteredEmployees | src/components/safety/TeamManagement.tsx:47-69 | the order-preserving list of employees matching the search and the role and department filters |
| TeamManagement.NoFiltersKeepAll | src/components/safety/TeamManagement.tsx:50-66 | an empty query and no filters keep every employee |
| TeamManagement.Stats | src/components/safety/TeamManagement.tsx:71-84 | completed counts the employee's submitted submissions; pending is the uncovered required documents, never below zero; expiring counts the employee's submissions due within a week |
| TeamManagement.RepeatsClearPending | src/components/safety/TeamManagement.tsx:73-74 | pending counts submissions, not documents: one required document submitted repeatedly clears it |
| Dashboard.DashboardFigures | src/components/safety/Dashboard.tsx:34-46 | the document total, the required documents less all submitted submissions (never below zero), and the expiring count |
| Dashboard.InCategory | src/components/safety/Dashboard.tsx:49-55 | the documents of one category, in order |
| Dashboard.DocumentsByCategory | src/components/safety/Dashboard.tsx:49-55 | an entry for exactly the categories that occur, holding that category's documents in order |
| Dashboard.GroupsPartition | src/components/safety/Dashboard.tsx:49-55 | each document is in its own category's group and in no other |
| Dashboard.RecentSubmissions | src/components/safety/Dashboard.tsx:58-60 | at most five, newest first, drawn from the submissions |
| Dashboard.RecentStartsWithNewest | src/components/safety/Dashboard.tsx:58-60 | the first one shown is the newest submission of all |
| Dashboard.RecentAreNewest | src/components/safety/Dashboard.tsx:58-60 | every submission left out of the list (or shown fewer times than it occurs) was created no later than the last one shown, so the list holds the five newest |
| Seqs.PrefixHoldsLowestRanks | src/components/safety/Dashboard.tsx:58-60 | in a list sorted by rank, anything left out of a prefix ranks no lower than the prefix's last element |
| DocumentLabels.PeriodOf | src/components/safety/DocumentDetails.tsx:38-46 | which period a renewal value stands for; missing or zero means none |
| DocumentLabels.CardRenewalText | src/components/safety/DocumentCard.tsx:52-69 | no text for a missing or zero period; "Every n days" for any period other than the six named ones |
| DocumentLabels.DetailsRenewalText | src/components/safety/DocumentDetails.tsx:37-47 | "One-time completion" exactly for a missing or zero period; "Renewal every n days" for any other unnamed period |
| DocumentLabels.CardTextOfPeriod | src/components/safety/DocumentCard.tsx:55-68 | the card text depends on the renewal value only through the period it stands for |
| DocumentLabels.CardTextInjective | src/components/safety/DocumentCard.tsx:55-68 | different periods get different card texts |
| DocumentLabels.CardTextIdentifiesPeriod | src/components/safety/DocumentCard.tsx:55-68 | two periods get the same card text exactly when they are the same period |
| DocumentLabels.DetailsTextOfPeriod | src/components/safety/DocumentDetails.tsx:37-47 | the details text depends on the renewal value only through the period it stands for |
| DocumentLabels.DetailsTextInjective | src/components/safety/DocumentDetails.tsx:37-47 | different periods get different details texts |
| DocumentLabels.DetailsTextIdentifiesPeriod | src/components/safety/DocumentDetails.tsx:40-46 | two periods get the same details text exactly when they are the same period |
| DocumentLabels.CardAndDetailsAgree | src/components/safety/DocumentDetails.tsx:40-45 | the card and the details page tell the same periods apart |
| DocumentLabels.StatusBadge | src/components/safety/DocumentCard.tsx:23-50 | no badge without a known status; otherwise the status with a capital first letter |
| DocumentLabels.FieldTypeLabel | src/components/safety/DocumentDetails.tsx:49-60 | each of the seven known types gets its own capitalised label; any other type is shown as it is |
| DocumentLabels.FieldTypeLabelRoundTrip | src/components/safety/DocumentDetails.tsx:49-60 | each known type can be read back from its label |
| DocumentLabels.FieldTypeLabelsDistinct | src/components/safety/DocumentDetails.tsx:49-60 | the known types get different labels |

## Left out

- AppLayout.SiteOf: keeps the site only when it is a non-empty string, whereas `|| null` keeps any truthy value. The row's site is text, so a truthy number, flag or list in `project_site` is read as no site here; the form component stores text fields as strings.
- Supabase queries and inserts, and the talk-generation edge function: these are network calls. A handler's result is the row it would insert.
- `localStorage` loading and saving, and its JSON round trip: browser persistence. The model keeps the lists in memory.
- The notifications the send handler creates for each recipient: an asynchronous, fire-and-forget fan-out.
- Canvas drawing, `window.print`, `alert`, `confirm` and `setTimeout`: the signature is an opaque string, confirmation is a boolean, and the timer's effect is a function (`ToolboxGenerator.AfterSendTimer`).
- PDF generation and the PDF viewer: HTML templating and a print window. Presentation-only files (header, sidebar, employee selector, settings) and all markup and styling are left out too.
- `toLocaleDateString`, `toISOString` and `toDateString` formatting, `localeCompare` collation and Unicode case mapping: dates are integers, text is ASCII, and collation order is a comparator parameter.
- `uuid` and `Date.now` identifiers: new ids and the current time are parameters.
- The dashboard's "completed today" figure: it compares `toDateString` renderings, which depend on the local calendar.
- Floating point: day counts and percentages are exact integer arithmetic. Very large millisecond values, where doubles lose precision, are not modelled.
- Daylight-saving shifts in the thirty-day window of the certification status: a day is always 86 400 000 ms.
- The in-flight flags (`isSubmitting`, `loading`) and the success flags that only drive rendering.
- Sort stability and the exact order `localeCompare` produces: sorts are a stable insertion sort, and the proofs cover the permutation and the key order only.
- The equipment catalogue's contents (`getEquipmentList` and its data): they are not part of this model. Equipment types are parameters.
- MySubmissions' status badges and display titles: rendering only.
- Image upload through `FileReader` in the training records: the image is an optional opaque string.
- TrainingRecords.NewCertification: the name fallback to the type's label is not modelled. The add guard already demands a name, so the fallback never runs.
- DocumentForm.HandleChecklistChange: a checklist field holding a value that is not a list reads as no items. In the app only the checklist handler writes such a field.

## Findings

| source | as written | input that shows it | evidently intended | confidence | as-written member | corrected member |
|---|---|---|---|---|---|---|
| src/components/AppLayout.tsx:367 | signing sets "completed" once signatures ≥ assignees, and the header sign button (src/components/safety/ToolboxTalkSignature.tsx:190) checks neither assignment nor status | the unassigned creator signs a talk with one assignee; it becomes "completed" at 1 of 1 without the assignee; after the assignee signs, 2 signatures on 1 assignee leave it "completed" but never submittable | only assigned employees sign, once each, so "completed" means every assignee signed | not executed | ToolboxSignature.UnassignedCreatorCompletesTalk, ToolboxSignature.CompletedButNotSubmittable | ToolboxWorkflow.SignChecked, ToolboxWorkflow.SignCheckedKeepsValid |
| src/components/AppLayout.tsx:367-369 | signing recomputes the status from the counts, whatever it was before | a submitted talk, and an employee who has not signed it, signs | a submitted talk is sealed | not executed | ToolboxSignature.SignReopensSubmitted | ToolboxWorkflow.CompletedIsSubmittableSubmittedIsSealed |
| src/components/safety/MySubmissions.tsx:109-110 | the rank is `statusOrder[s] \|\| 3`, and the rank 0 of "submitted" is falsy | sorting one submitted and one draft submission by status puts the draft first | `?? 3`: submitted first, then drafts, then expired | not executed | MySubmissions.SubmittedSortsLast | MySubmissions.IntendedSortPutsSubmittedFirst |
| src/components/safety/MySubmissions.tsx:589 | an equipment row is labelled "Approved" when its note includes "APPROVED" | the note "Scissor Lift Pre-Use Inspection - NOT APPROVED" from src/components/AppLayout.tsx:193 | approved exactly when the note ends with " - APPROVED" | not executed | MySubmissions.RejectedInspectionShownApproved, MySubmissions.EveryEquipmentRowShowsApproved | MySubmissions.IntendedLabelMatchesApproval |

=== FILE: app_layout.dfy ===
/**
 * The application shell's own logic: the per-category document counts in
 * the sidebar, marking a notification read, and the rows the two submit
 * handlers insert (with their expiry times). The database is not modelled:
 * a handler's result is the row it would insert, or `None` when it returns
 * early.
 */
module AppLayout {
  import opened Wrappers
  import opened Safety
  import EquipmentChecklist
  import Seqs

  datatype Notification = Notification(id: string, employeeId: string, title: string, message: string,
                                       isRead: bool)

  /** `handleNotificationRead`'s local update: only the notification with
      that id becomes read; nothing else changes. */
  function MarkRead(ns: seq<Notification>, id: string): (r: seq<Notification>)
    ensures |r| == |ns|
    ensures forall i :: 0 <= i < |r| ==>
      if ns[i].id == id then r[i] == ns[i].(isRead := true) else r[i] == ns[i]
  {
    seq(|ns|, i requires 0 <= i < |ns| => if ns[i].id == id then ns[i].(isRead := true) else ns[i])
  }

  /** Marking read is idempotent, and the unread count never grows. */
  lemma MarkReadIdempotent(ns: seq<Notification>, id: string)
    ensures MarkRead(MarkRead(ns, id), id) == MarkRead(ns, id)
    ensures Seqs.Count(MarkRead(ns, id), (n: Notification) => !n.isRead) <=
            Seqs.Count(ns, (n: Notification) => !n.isRead)
  {
    UnreadCountShrinks(ns, id);
  }

  lemma {:induction false} UnreadCountShrinks(ns: seq<Notification>, id: string)
    ensures Seqs.Count(MarkRead(ns, id), (n: Notification) => !n.isRead) <=
            Seqs.Count(ns, (n: Notification) => !n.isRead)
  {
    if ns != [] {
      UnreadCountShrinks(ns[1..], id);
      assert MarkRead(ns, id)[1..] == MarkRead(ns[1..], id);
    }
  }

  /** The category used for equipment checklists. */
  const EquipmentCategory: string := "Equipment"

  /** The number of documents in a category. */
  function CategoryCount(documents: seq<SafetyDocument>, category: string): (n: nat)
    ensures n <= |documents|
  {
    if documents == [] then 0
    else (if documents[0].category == category then 1 else 0) + CategoryCount(documents[1..], category)
  }

  /** Some document has that category. */
  predicate HasCategory(documents: seq<SafetyDocument>, c: string) {
    exists i :: 0 <= i < |documents| && documents[i].category == c
  }

  /** The `reduce` that counts documents per category: an entry for exactly
      the categories that occur, holding their number of documents. */
  function CountByCategory(documents: seq<SafetyDocument>): (r: map<string, nat>)
    ensures forall c :: c in r <==> HasCategory(documents, c)
    ensures forall c :: c in r ==> r[c] == CategoryCount(documents, c)
    ensures forall c :: c !in r ==> CategoryCount(documents, c) == 0
  {
    if documents == [] then map[]
    else
      var m := CountByCategory(documents[1..]);
      HasCategoryCons(documents);
      var c := documents[0].category;
      m[c := (if c in m then m[c] else 0) + 1]
  }

  /** Peeling off the first document. */
  lemma HasCategoryCons(documents: seq<SafetyDocument>)
    requires documents != []
    ensures forall c :: HasCategory(documents, c) <==>
      documents[0].category == c || HasCategory(documents[1..], c)
  {
    forall c | HasCategory(documents, c) && documents[0].category != c
      ensures HasCategory(documents[1..], c)
    {
      var i :| 0 <= i < |documents| && documents[i].category == c;
      assert documents[1..][i - 1] == documents[i];
    }
    forall c | HasCategory(documents[1..], c)
      ensures HasCategory(documents, c)
    {
      var i :| 0 <= i < |documents[1..]| && documents[1..][i].category == c;
      assert documents[i + 1] == documents[1..][i];
    }
  }

  /** `documentCounts`: per category, the number of documents, with the
      equipment checklists added to the "Equipment" entry, which is always
      present. */
  function DocumentCounts(documents: seq<SafetyDocument>, equipmentCount: nat): (r: map<string, nat>)
    ensures EquipmentCategory in r
    ensures forall c :: c in r <==>
      c == EquipmentCategory || HasCategory(documents, c)
    ensures forall c :: c in r ==>
      r[c] == CategoryCount(documents, c) + (if c == EquipmentCategory then equipmentCount else 0)
  {
    var m := CountByCategory(documents);
    m[EquipmentCategory := (if EquipmentCategory in m then m[EquipmentCategory] else 0) + equipmentCount]
  }

  /** Every document is counted: its category has an entry of at least
      one. */
  lemma {:induction false} CountsCoverEveryDocument(documents: seq<SafetyDocument>, d: nat)
    requires d < |documents|
    ensures documents[d].category in DocumentCounts(documents, 0)
    ensures DocumentCounts(documents, 0)[documents[d].category] >= 1
  {
    if d > 0 {
      CountsCoverEveryDocument(documents[1..], d - 1);
    }
  }

  /** What a submit handler hands to the database as form data. */
  datatype FormPayload =
    | FieldData(fields: map<string, FieldValue>)
    | ChecklistData(record: EquipmentChecklist.Submission)

  /** A row inserted into the submissions table. */
  datatype InsertRow = InsertRow(
    documentId: string, employeeId: string, formData: FormPayload, signature: string,
    status: string, submittedAt: int, expiresAt: Option<int>, projectSite: Option<string>,
    notes: Option<string>)

  /** The prefix of the document ids given to equipment checklists. */
  const EquipmentPrefix: string := "equipment-checklist-"

  /** The virtual document id of an equipment type's checklist. */
  function VirtualDocId(equipmentId: string): (r: string)
    ensures |r| == |EquipmentPrefix| + |equipmentId|
    ensures r[..|EquipmentPrefix|] == EquipmentPrefix && r[|EquipmentPrefix|..] == equipmentId
  {
    EquipmentPrefix + equipmentId
  }

  /** The note stored with an equipment checklist. */
  function ApprovalNote(equipmentName: string, approvedForUse: Option<bool>): string {
    equipmentName + " Pre-Use Inspection - " +
      (if approvedForUse == Some(true) then "APPROVED" else "NOT APPROVED")
  }

  /** `handleEquipmentChecklistSubmit`: nothing without an employee;
      otherwise a submitted row under the checklist's virtual document id,
      signed with the inspector's name, expiring one day after `now`, with
      the project name as site and the approval in the note. */
  function EquipmentSubmitRow(employee: Option<Employee>, data: EquipmentChecklist.Submission, now: int): (r: Option<InsertRow>)
    ensures employee.None? <==> r.None?
    ensures r.Some? ==>
      && r.value.documentId == VirtualDocId(data.equipmentType)
      && r.value.employeeId == employee.value.id
      && r.value.formData == ChecklistData(data)
      && r.value.signature == data.projectInfo.inspectorName
      && r.value.status == "submitted"
      && r.value.submittedAt == now
      && r.value.expiresAt == Some(now + DayMs)
      && r.value.projectSite == Some(data.projectInfo.projectName)
      && r.value.notes == Some(ApprovalNote(data.equipmentName, data.approvedForUse))
  {
    if employee.None? then None
    else Some(InsertRow(VirtualDocId(data.equipmentType), employee.value.id, ChecklistData(data),
                        data.projectInfo.inspectorName, "submitted", now, Some(now + DayMs),
                        Some(data.projectInfo.projectName),
                        Some(ApprovalNote(data.equipmentName, data.approvedForUse))))
  }

  /** The expiry of a filled-in document: a renewal period that is present
      and non-zero adds that many days to `now`; otherwise none. */
  function FormExpiry(renewalDays: Option<int>, now: int): (r: Option<int>)
    ensures r.None? <==> renewalDays.None? || renewalDays.value == 0
    ensures r.Some? ==> r.value == now + renewalDays.value * DayMs
  {
    if renewalDays.Some? && renewalDays.value != 0 then Some(now + renewalDays.value * DayMs) else None
  }

  /** A positive renewal period puts the expiry in the future, exactly that
      many whole days away. */
  lemma FormExpiryDays(renewalDays: int, now: int)
    requires renewalDays > 0
    ensures FormExpiry(Some(renewalDays), now).value > now
    ensures CeilDays(FormExpiry(Some(renewalDays), now).value - now) == renewalDays
  {
    var ms := renewalDays * DayMs;
    assert FormExpiry(Some(renewalDays), now).value - now == ms;
    assert (-ms) / DayMs == -renewalDays;
  }

  /** `formData.project_site || null`. */
  function SiteOf(formData: map<string, FieldValue>): (r: Option<string>)
    ensures r.Some? ==> r.value != ""
    ensures r.None? <==> !("project_site" in formData && formData["project_site"].Str? &&
                           formData["project_site"].s != "")
  {
    if "project_site" in formData && formData["project_site"].Str? && formData["project_site"].s != ""
    then Some(formData["project_site"].s) else None
  }

  /** `handleFormSubmit`: nothing without a document and an employee;
      otherwise a submitted row for the document with the form data and
      signature as given and the renewal-based expiry. */
  function FormSubmitRow(document: Option<SafetyDocument>, employee: Option<Employee>,
                         formData: map<string, FieldValue>, signature: string, now: int): (r: Option<InsertRow>)
    ensures r.None? <==> document.None? || employee.None?
    ensures r.Some? ==>
      && r.value.documentId == document.value.id
      && r.value.employeeId == employee.value.id
      && r.value.formData == FieldData(formData)
      && r.value.signature == signature
      && r.value.status == "submitted"
      && r.value.submittedAt == now
      && r.value.expiresAt == FormExpiry(document.value.renewalDays, now)
      && r.value.projectSite == SiteOf(formData)
      && r.value.notes == None
  {
    if document.None? || employee.None? then None
    else Some(InsertRow(document.value.id, employee.value.id, FieldData(formData), signature,
                        "submitted", now, FormExpiry(document.value.renewalDays, now),
                        SiteOf(formData), None))
  }

  /** A daily equipment checklist submitted now is expiring soon: it falls in
      the one-to-seven-day window of the lists. */
  lemma EquipmentRowExpiresTomorrow(employee: Employee, data: EquipmentChecklist.Submission, now: int)
    ensures var row := EquipmentSubmitRow(Some(employee), data, now).value;
      CeilDays(row.expiresAt.value - now) == 1
  {
  }
}

=== FILE: checklist.dfy ===
/**
 * The checklist session shared by the equipment pre-use inspection and the
 * swing-stage inspection: per-item tri-state status with press-again-to-clear,
 * per-item notes, completion statistics and the blank session a reset
 * restores. Both components implement these reducers identically; they are
 * defined once here.
 */
module Checklist {
  import opened Wrappers
  import Seqs
  import Toggles

  datatype Status = Pass | Fail | Na

  /** One item's state; `status == None` is the source's `null`. */
  datatype ItemState = ItemState(id: string, status: Option<Status>, notes: string)

  datatype SectionState = SectionState(id: string, items: seq<ItemState>)

  /** The fixed definition a session is built from. */
  datatype ItemDef = ItemDef(id: string, text: string)

  datatype SectionDef = SectionDef(id: string, title: string, items: seq<ItemDef>)

  /** Builds one blank item state per definition item, in definition order. */
  function InitializeSections(defs: seq<SectionDef>): (r: seq<SectionState>)
    ensures |r| == |defs|
    ensures forall i :: 0 <= i < |defs| ==>
      r[i].id == defs[i].id && |r[i].items| == |defs[i].items|
    ensures forall i, j :: 0 <= i < |defs| && 0 <= j < |defs[i].items| ==>
      r[i].items[j] == ItemState(defs[i].items[j].id, None, "")
  {
    seq(|defs|, i requires 0 <= i < |defs| =>
      SectionState(defs[i].id, seq(|defs[i].items|, j requires 0 <= j < |defs[i].items| =>
        ItemState(defs[i].items[j].id, None, ""))))
  }

  /** A status button works like a filter button (`ToggleOption`): pressing
      the same button twice restores the status exactly when the status was
      unset or already the pressed one. */
  lemma ToggleTwice(current: Option<Status>, pressed: Status)
    ensures Toggles.ToggleOption(Toggles.ToggleOption(current, pressed), pressed) == current <==>
      current == None || current == Some(pressed)
  {
  }

  /** Pressing different buttons in succession leaves the last one selected. */
  lemma ToggleOther(current: Option<Status>, first: Status, second: Status)
    requires first != second
    ensures Toggles.ToggleOption(Toggles.ToggleOption(current, first), second) == Some(second)
  {
  }

  /** Section and item ids, in order: the part of a session no reducer changes. */
  predicate SameShape(a: seq<SectionState>, b: seq<SectionState>) {
    && |a| == |b|
    && (forall i :: 0 <= i < |a| ==> a[i].id == b[i].id && |a[i].items| == |b[i].items|)
    && (forall i, j :: 0 <= i < |a| && 0 <= j < |a[i].items| ==>
          a[i].items[j].id == b[i].items[j].id)
  }

  /** Replaces, inside every section with id `sectionId`, every item with id
      `itemId` by `change` of it: the nested `prev.map(...)` of both reducers. */
  function UpdateItem(sections: seq<SectionState>, sectionId: string, itemId: string,
                      change: ItemState -> ItemState): (r: seq<SectionState>)
    requires forall it: ItemState :: change(it).id == it.id
    ensures SameShape(r, sections)
    ensures forall i, j :: 0 <= i < |r| && 0 <= j < |r[i].items| ==>
      r[i].items[j] == (if sections[i].id == sectionId && sections[i].items[j].id == itemId
                        then change(sections[i].items[j]) else sections[i].items[j])
  {
    seq(|sections|, i requires 0 <= i < |sections| =>
      if sections[i].id == sectionId then
        SectionState(sections[i].id, seq(|sections[i].items|, j requires 0 <= j < |sections[i].items| =>
          if sections[i].items[j].id == itemId then change(sections[i].items[j])
          else sections[i].items[j]))
      else sections[i])
  }

  /** `handleStatusChange`: toggles the status of the matching items only. */
  function SetStatus(sections: seq<SectionState>, sectionId: string, itemId: string,
                     pressed: Status): (r: seq<SectionState>)
    ensures SameShape(r, sections)
    ensures forall i, j :: 0 <= i < |r| && 0 <= j < |r[i].items| ==>
      var old_ := sections[i].items[j];
      if sections[i].id == sectionId && old_.id == itemId
      then r[i].items[j] == old_.(status := Toggles.ToggleOption(old_.status, pressed))
      else r[i].items[j] == old_
  {
    UpdateItem(sections, sectionId, itemId, (it: ItemState) => it.(status := Toggles.ToggleOption(it.status, pressed)))
  }

  /** `handleNotesChange`: replaces the notes of the matching items only. */
  function SetNotes(sections: seq<SectionState>, sectionId: string, itemId: string,
                    notes: string): (r: seq<SectionState>)
    ensures SameShape(r, sections)
    ensures forall i, j :: 0 <= i < |r| && 0 <= j < |r[i].items| ==>
      var old_ := sections[i].items[j];
      if sections[i].id == sectionId && old_.id == itemId
      then r[i].items[j] == old_.(notes := notes)
      else r[i].items[j] == old_
  {
    UpdateItem(sections, sectionId, itemId, (it: ItemState) => it.(notes := notes))
  }

  /** Index of the first entry equal to `id`: the position
      `Array.prototype.find` stops at when it looks a section or an item up
      by id. */
  function FirstIndex(ids: seq<string>, id: string): (r: Option<nat>)
    ensures r.Some? ==> r.value < |ids| && ids[r.value] == id
    ensures r.Some? ==> forall k :: 0 <= k < r.value ==> ids[k] != id
    ensures r.None? ==> forall k :: 0 <= k < |ids| ==> ids[k] != id
  {
    if ids == [] then None
    else if ids[0] == id then Some(0)
    else match FirstIndex(ids[1..], id)
      case None => None
      case Some(k) => Some(k + 1)
  }

  function SectionIds(sections: seq<SectionState>): (r: seq<string>)
    ensures |r| == |sections| && forall i :: 0 <= i < |r| ==> r[i] == sections[i].id
  {
    seq(|sections|, i requires 0 <= i < |sections| => sections[i].id)
  }

  function ItemIds(items: seq<ItemState>): (r: seq<string>)
    ensures |r| == |items| && forall j :: 0 <= j < |r| ==> r[j] == items[j].id
  {
    seq(|items|, j requires 0 <= j < |items| => items[j].id)
  }

  /** Position `i` holds the first section with that id. */
  predicate FirstSection(sections: seq<SectionState>, sectionId: string, i: int) {
    0 <= i < |sections| && sections[i].id == sectionId && forall k :: 0 <= k < i ==> sections[k].id != sectionId
  }

  /** Position `j` holds the first item with that id. */
  predicate FirstItem(items: seq<ItemState>, itemId: string, j: int) {
    0 <= j < |items| && items[j].id == itemId && forall k :: 0 <= k < j ==> items[k].id != itemId
  }

  /** `getItemStatus`: the first item with the item id in the first section
      with the section id; nothing when there is no such section, or when
      that section has no such item. */
  function GetItemStatus(sections: seq<SectionState>, sectionId: string, itemId: string): (r: Option<ItemState>)
    ensures r.Some? ==> r.value.id == itemId
    ensures (forall i :: 0 <= i < |sections| ==> sections[i].id != sectionId) ==> r.None?
    ensures forall i :: FirstSection(sections, sectionId, i) ==>
      && (r.Some? <==> exists j :: 0 <= j < |sections[i].items| && sections[i].items[j].id == itemId)
      && (r.Some? ==> exists j :: FirstItem(sections[i].items, itemId, j) && sections[i].items[j] == r.value)
  {
    match FirstIndex(SectionIds(sections), sectionId)
    case None => None
    case Some(i) =>
      FirstSectionUnique(sections, sectionId, i);
      match FirstIndex(ItemIds(sections[i].items), itemId)
      case None => None
      case Some(j) =>
        assert FirstItem(sections[i].items, itemId, j);
        Some(sections[i].items[j])
  }

  /** Only one position holds the first section with a given id. */
  lemma FirstSectionUnique(sections: seq<SectionState>, sectionId: string, i: int)
    requires FirstSection(sections, sectionId, i)
    ensures forall k :: FirstSection(sections, sectionId, k) ==> k == i
  {
  }

  /** Section ids are distinct, and item ids are distinct within a section. */
  predicate UniqueIds(sections: seq<SectionState>) {
    && (forall i, k :: 0 <= i < k < |sections| ==> sections[i].id != sections[k].id)
    && (forall i, j, l :: 0 <= i < |sections| && 0 <= j < l < |sections[i].items| ==>
          sections[i].items[j].id != sections[i].items[l].id)
  }

  /** With unique ids, a status press on an existing item toggles that item
      and leaves every other item as it was. */
  lemma SetStatusChangesOneItem(sections: seq<SectionState>, i: nat, j: nat, pressed: Status)
    requires UniqueIds(sections)
    requires i < |sections| && j < |sections[i].items|
    ensures var r := SetStatus(sections, sections[i].id, sections[i].items[j].id, pressed);
      && r[i].items[j].status == Toggles.ToggleOption(sections[i].items[j].status, pressed)
      && r[i].items[j].notes == sections[i].items[j].notes
      && forall i', j' :: 0 <= i' < |r| && 0 <= j' < |r[i'].items| && (i', j') != (i, j) ==>
           r[i'].items[j'] == sections[i'].items[j']
  {
    var r := SetStatus(sections, sections[i].id, sections[i].items[j].id, pressed);
    forall i', j' | 0 <= i' < |r| && 0 <= j' < |r[i'].items| && (i', j') != (i, j)
      ensures r[i'].items[j'] == sections[i'].items[j']
    {
      if i' != i {
        assert sections[i'].id != sections[i].id by {
          if i' < i {} else {}
        }
      } else {
        assert sections[i].items[j'].id != sections[i].items[j].id by {
          if j' < j {} else {}
        }
      }
    }
  }

  /** Ids are part of the shape, so reducers keep them unique. */
  lemma UniqueIdsShape(a: seq<SectionState>, b: seq<SectionState>)
    requires SameShape(a, b) && UniqueIds(b)
    ensures UniqueIds(a)
  {
  }

  /** After a status press, the item the view looks up shows the toggled
      status, and notes are untouched. */
  lemma SetStatusSeenByLookup(sections: seq<SectionState>, sectionId: string, itemId: string, pressed: Status)
    requires GetItemStatus(sections, sectionId, itemId).Some?
    ensures var before := GetItemStatus(sections, sectionId, itemId).value;
      GetItemStatus(SetStatus(sections, sectionId, itemId, pressed), sectionId, itemId)
        == Some(before.(status := Toggles.ToggleOption(before.status, pressed)))
  {
    var after := SetStatus(sections, sectionId, itemId, pressed);
    assert SectionIds(after) == SectionIds(sections);
    var i := FirstIndex(SectionIds(sections), sectionId).value;
    assert ItemIds(after[i].items) == ItemIds(sections[i].items);
  }

  /** All item states of all sections, section by section. */
  function Flatten(sections: seq<SectionState>): (r: seq<ItemState>)
  {
    if sections == [] then [] else sections[0].items + Flatten(sections[1..])
  }

  /** The sum of the section sizes. */
  function SizeSum(sizes: seq<nat>): nat {
    if sizes == [] then 0 else sizes[0] + SizeSum(sizes[1..])
  }

  /** The flattened list has as many items as the section sizes add up to. */
  lemma {:induction false} FlattenLength(sections: seq<SectionState>, sizes: seq<nat>)
    requires |sizes| == |sections|
    requires forall i :: 0 <= i < |sections| ==> |sections[i].items| == sizes[i]
    ensures |Flatten(sections)| == SizeSum(sizes)
  {
    if sections != [] {
      FlattenLength(sections[1..], sizes[1..]);
    }
  }

  /** Every item in the flattened list is an item of some section, and back. */
  lemma {:induction false} FlattenMembers(sections: seq<SectionState>, it: ItemState)
    ensures it in Flatten(sections) <==>
      exists i, j :: 0 <= i < |sections| && 0 <= j < |sections[i].items| && sections[i].items[j] == it
  {
    if sections != [] {
      FlattenMembers(sections[1..], it);
      if it in sections[0].items {
        var j :| 0 <= j < |sections[0].items| && sections[0].items[j] == it;
        assert sections[0].items[j] == it;
      }
      if exists i, j :: 0 <= i < |sections[1..]| && 0 <= j < |sections[1..][i].items| && sections[1..][i].items[j] == it {
        var i, j :| 0 <= i < |sections[1..]| && 0 <= j < |sections[1..][i].items| && sections[1..][i].items[j] == it;
        assert sections[i + 1].items[j] == it;
      }
      if exists i, j :: 0 <= i < |sections| && 0 <= j < |sections[i].items| && sections[i].items[j] == it {
        var i, j :| 0 <= i < |sections| && 0 <= j < |sections[i].items| && sections[i].items[j] == it;
        if i > 0 {
          assert sections[1..][i - 1].items[j] == it;
        } else {
          assert it in sections[0].items;
        }
      }
    }
  }

  /** The number of items depends only on the shape. */
  lemma {:induction false} FlattenLengthShape(a: seq<SectionState>, b: seq<SectionState>)
    requires SameShape(a, b)
    ensures |Flatten(a)| == |Flatten(b)|
  {
    if a != [] {
      assert SameShape(a[1..], b[1..]);
      FlattenLengthShape(a[1..], b[1..]);
    }
  }

  predicate IsAnswered(it: ItemState) { it.status.Some? }
  predicate IsPassed(it: ItemState) { it.status == Some(Pass) }
  predicate IsFailed(it: ItemState) { it.status == Some(Fail) }

  /** Completion statistics; `percentage == None` stands for JavaScript's
      `NaN`, which the source produces for a checklist with no items. */
  datatype CompletionStats = CompletionStats(total: nat, completed: nat, passed: nat, failed: nat,
                                             percentage: Option<int>)

  /** `Math.round(completed / total * 100)`: the nearest whole percentage,
      halves rounded up; undefined (NaN) when there are no items. */
  function Percentage(completed: nat, total: nat): (r: Option<int>)
    ensures total == 0 <==> r.None?
    ensures r.Some? ==> 2 * total * r.value <= 200 * completed + total < 2 * total * (r.value + 1)
    ensures r.Some? && completed <= total ==> 0 <= r.value <= 100
    ensures r.Some? && completed == total ==> r.value == 100
    ensures r.Some? && completed == 0 ==> r.value == 0
  {
    if total == 0 then None
    else
      PercentageRounds(completed, total);
      Some((200 * completed + total) / (2 * total))
  }

  /** A positive factor can be cancelled from both sides of `<`. */
  lemma CancelLess(d: int, x: int, y: int)
    requires d > 0 && d * x < d * y
    ensures x < y
  {
    assert d * (y - x) == d * y - d * x;
  }

  /** The rounding facts behind `Percentage`, with `q` the rounded value. */
  lemma PercentageRounds(completed: nat, total: nat)
    requires total > 0
    ensures var q := (200 * completed + total) / (2 * total);
      && 2 * total * q <= 200 * completed + total < 2 * total * (q + 1)
      && (completed <= total ==> 0 <= q <= 100)
      && (completed == total ==> q == 100)
      && (completed == 0 ==> q == 0)
  {
    var n, d := 200 * completed + total, 2 * total;
    var q := n / d;
    assert n == d * q + n % d && 0 <= n % d < d;
    assert d * q <= n < d * (q + 1) by {
      assert d * (q + 1) == d * q + d;
    }
    if q < 0 {
      CancelLess(d, q, 0);
      assert false;
    }
    if completed <= total {
      assert n < d * 101;
      CancelLess(d, q, 101);
    }
    if completed == total {
      assert d * 100 < d * (q + 1);
      CancelLess(d, 100, q + 1);
    }
    if completed == 0 {
      assert d * q < d * 1;
      CancelLess(d, q, 1);
    }
  }

  /** Reference statistics, stated over the flattened item list. */
  function Stats(sections: seq<SectionState>): (r: CompletionStats)
    ensures r.passed + r.failed <= r.completed <= r.total
    ensures r.total == 0 <==> r.percentage.None?
    ensures r.percentage.Some? ==> 0 <= r.percentage.value <= 100
  {
    var items := Flatten(sections);
    var completed := Seqs.Count(items, IsAnswered);
    var passed := Seqs.Count(items, IsPassed);
    var failed := Seqs.Count(items, IsFailed);
    Seqs.CountDisjoint(items, IsPassed, IsFailed, (it: ItemState) => IsPassed(it) || IsFailed(it));
    CountMono(items, (it: ItemState) => IsPassed(it) || IsFailed(it), IsAnswered);
    CompletionStats(|items|, completed, passed, failed, Percentage(completed, |items|))
  }

  lemma {:induction false} CountMono<T>(s: seq<T>, p: T -> bool, q: T -> bool)
    requires forall x :: p(x) ==> q(x)
    ensures Seqs.Count(s, p) <= Seqs.Count(s, q)
  {
    if s != [] {
      CountMono(s[1..], p, q);
    }
  }

  /** Every item has an explicit status. */
  predicate AllAnswered(sections: seq<SectionState>) {
    forall i, j :: 0 <= i < |sections| && 0 <= j < |sections[i].items| ==>
      sections[i].items[j].status.Some?
  }

  lemma {:induction false} CountAllIff<T>(s: seq<T>, p: T -> bool)
    ensures Seqs.Count(s, p) == |s| <==> forall k :: 0 <= k < |s| ==> p(s[k])
  {
    if s != [] {
      CountAllIff(s[1..], p);
      if forall k :: 0 <= k < |s| ==> p(s[k]) {
        assert forall k :: 0 <= k < |s[1..]| ==> p(s[1..][k]);
      }
      if Seqs.Count(s, p) == |s| && p(s[0]) {
        forall k | 0 <= k < |s|
          ensures p(s[k])
        {
          if k > 0 {
            assert s[k] == s[1..][k - 1];
          }
        }
      }
    }
  }

  /** The checklist is complete (`completed == total`) exactly when every
      item of every section has a status. */
  lemma CompleteIffAllAnswered(sections: seq<SectionState>)
    ensures Stats(sections).completed == Stats(sections).total <==> AllAnswered(sections)
  {
    var items := Flatten(sections);
    CountAllIff(items, IsAnswered);
    if AllAnswered(sections) {
      forall k | 0 <= k < |items|
        ensures IsAnswered(items[k])
      {
        FlattenMembers(sections, items[k]);
      }
    }
    if forall k :: 0 <= k < |items| ==> IsAnswered(items[k]) {
      forall i, j | 0 <= i < |sections| && 0 <= j < |sections[i].items|
        ensures sections[i].items[j].status.Some?
      {
        FlattenMembers(sections, sections[i].items[j]);
      }
    }
  }

  /** One more item adds one to the count of each predicate it meets. */
  lemma TallyStep(items: seq<ItemState>, k: nat)
    requires k < |items|
    ensures Seqs.Count(items[..k + 1], IsAnswered) == Seqs.Count(items[..k], IsAnswered) + (if IsAnswered(items[k]) then 1 else 0)
    ensures Seqs.Count(items[..k + 1], IsPassed) == Seqs.Count(items[..k], IsPassed) + (if IsPassed(items[k]) then 1 else 0)
    ensures Seqs.Count(items[..k + 1], IsFailed) == Seqs.Count(items[..k], IsFailed) + (if IsFailed(items[k]) then 1 else 0)
  {
    assert items[..k + 1] == items[..k] + [items[k]];
    Seqs.CountConcat(items[..k], [items[k]], IsAnswered);
    Seqs.CountConcat(items[..k], [items[k]], IsPassed);
    Seqs.CountConcat(items[..k], [items[k]], IsFailed);
  }

  /** The inner `forEach` of `getCompletionStats`: tallies one section. */
  method TallyItems(items: seq<ItemState>) returns (total: nat, completed: nat, passed: nat, failed: nat)
    ensures total == |items|
    ensures completed == Seqs.Count(items, IsAnswered)
    ensures passed == Seqs.Count(items, IsPassed)
    ensures failed == Seqs.Count(items, IsFailed)
  {
    total, completed, passed, failed := 0, 0, 0, 0;
    var k := 0;
    while k < |items|
      invariant 0 <= k <= |items|
      invariant total == k
      invariant completed == Seqs.Count(items[..k], IsAnswered)
      invariant passed == Seqs.Count(items[..k], IsPassed)
      invariant failed == Seqs.Count(items[..k], IsFailed)
    {
      var it := items[k];
      TallyStep(items, k);
      total := total + 1;
      if IsAnswered(it) {
        completed := completed + 1;
        if IsPassed(it) { passed := passed + 1; }
        if IsFailed(it) { failed := failed + 1; }
      }
      k := k + 1;
    }
    assert items[..k] == items;
  }

  /** `getCompletionStats`: the nested `forEach` tally of the source agrees
      with the reference statistics. */
  method GetCompletionStats(sections: seq<SectionState>) returns (r: CompletionStats)
    ensures r == Stats(sections)
  {
    var total, completed, passed, failed := 0, 0, 0, 0;
    var s := 0;
    while s < |sections|
      invariant 0 <= s <= |sections|
      invariant total == |Flatten(sections[..s])|
      invariant completed == Seqs.Count(Flatten(sections[..s]), IsAnswered)
      invariant passed == Seqs.Count(Flatten(sections[..s]), IsPassed)
      invariant failed == Seqs.Count(Flatten(sections[..s]), IsFailed)
    {
      var t, c, p, f := TallyItems(sections[s].items);
      FlattenSnoc(sections, s);
      Seqs.CountConcat(Flatten(sections[..s]), sections[s].items, IsAnswered);
      Seqs.CountConcat(Flatten(sections[..s]), sections[s].items, IsPassed);
      Seqs.CountConcat(Flatten(sections[..s]), sections[s].items, IsFailed);
      total, completed, passed, failed := total + t, completed + c, passed + p, failed + f;
      s := s + 1;
    }
    assert sections[..s] == sections;
    r := CompletionStats(total, completed, passed, failed, Percentage(completed, total));
  }

  lemma {:induction false} FlattenConcat(a: seq<SectionState>, b: seq<SectionState>)
    ensures Flatten(a + b) == Flatten(a) + Flatten(b)
  {
    if a == [] {
      assert a + b == b;
    } else {
      assert (a + b)[1..] == a[1..] + b;
      FlattenConcat(a[1..], b);
    }
  }

  lemma FlattenSnoc(sections: seq<SectionState>, s: nat)
    requires s < |sections|
    ensures Flatten(sections[..s + 1]) == Flatten(sections[..s]) + sections[s].items
  {
    assert sections[..s + 1] == sections[..s] + [sections[s]];
    FlattenConcat(sections[..s], [sections[s]]);
    assert Flatten([sections[s]]) == sections[s].items + Flatten([]);
  }

  /** Status and notes changes never change the number of items. */
  lemma TotalDependsOnShape(a: seq<SectionState>, b: seq<SectionState>)
    requires SameShape(a, b)
    ensures Stats(a).total == Stats(b).total
  {
    FlattenLengthShape(a, b);
  }

  /** Free-text project information. `details` holds the equipment-specific
      fields (identifier, manufacturer, model, ...), which differ between the
      equipment checklist and the swing-stage checklist. */
  datatype ProjectInfo = ProjectInfo(
    projectName: string, projectAddress: string, date: string, time: string,
    inspectorName: string, inspectorCertification: string, supervisorName: string,
    weatherConditions: string, temperature: string, windSpeed: string,
    details: map<string, string>)

  /** The project information a fresh or reset form shows: every field
      empty except the date and time, which default to the current ones. */
  function BlankProjectInfo(today: string, nowTime: string, detailKeys: set<string>): (r: ProjectInfo)
    ensures r.date == today && r.time == nowTime
    ensures r.projectName == "" && r.projectAddress == "" && r.inspectorName == ""
    ensures r.details.Keys == detailKeys
    ensures forall k :: k in r.details ==> r.details[k] == ""
  {
    ProjectInfo("", "", today, nowTime, "", "", "", "", "", "", map k | k in detailKeys :: "")
  }

  /** Everything an inspection form holds. */
  datatype Session = Session(
    info: ProjectInfo, sections: seq<SectionState>, additionalNotes: string,
    deficienciesFound: bool, correctionRequired: string, approvedForUse: Option<bool>)

  /** `resetChecklist`: the given initial sections, blank project information
      and cleared approval and deficiency fields. */
  function ResetSession(initial: seq<SectionState>, today: string, nowTime: string,
                        detailKeys: set<string>): (r: Session)
    ensures r.sections == initial
    ensures r.approvedForUse == None && !r.deficienciesFound
    ensures r.correctionRequired == "" && r.additionalNotes == ""
    ensures r.info == BlankProjectInfo(today, nowTime, detailKeys)
  {
    Session(BlankProjectInfo(today, nowTime, detailKeys), initial, "", false, "", None)
  }
}

=== FILE: dashboard.dfy ===
/**
 * The dashboard's figures: document total, pending required documents,
 * submissions expiring within a week, documents grouped by category, and
 * the five most recent submissions.
 */
module Dashboard {
  import opened Wrappers
  import opened Safety
  import Seqs
  import AppLayout

  datatype Figures = Figures(totalDocuments: nat, pendingRequired: nat, expiring: nat)

  /** The number of submitted submissions. */
  function SubmittedCount(submissions: seq<DocumentSubmission>): (n: nat)
    ensures n <= |submissions|
  {
    Seqs.Count(submissions, (s: DocumentSubmission) => s.status == "submitted")
  }

  /** The figures as shown: "Pending Required" is the required documents
      less every submitted submission of every employee, never below zero. */
  function DashboardFigures(documents: seq<SafetyDocument>, submissions: seq<DocumentSubmission>,
                            now: int): (r: Figures)
    ensures r.totalDocuments == |documents|
    ensures r.pendingRequired == 0 <==> RequiredCount(documents) <= SubmittedCount(submissions)
    ensures r.pendingRequired > 0 ==>
      r.pendingRequired + SubmittedCount(submissions) == RequiredCount(documents)
    ensures r.pendingRequired <= RequiredCount(documents)
    ensures r.expiring == CountExpiring(submissions, now)
  {
    var pending := RequiredCount(documents) - SubmittedCount(submissions);
    Figures(|documents|, if pending > 0 then pending else 0, CountExpiring(submissions, now))
  }

  /** The documents of one category, in list order. */
  function InCategory(documents: seq<SafetyDocument>, c: string): (r: seq<SafetyDocument>)
    ensures Seqs.IsSubsequence(r, documents)
    ensures forall d :: d in r <==> d in documents && d.category == c
  {
    var inC := (d: SafetyDocument) => d.category == c;
    Seqs.FilterSubsequence(documents, inC);
    Seqs.FilterMembers(documents, inC);
    Seqs.Filter(documents, inC)
  }

  /** `documentsByCategory`: one entry per category that occurs, holding
      that category's documents in list order. */
  function DocumentsByCategory(documents: seq<SafetyDocument>): (r: map<string, seq<SafetyDocument>>)
    ensures forall c :: c in r <==> AppLayout.HasCategory(documents, c)
    ensures forall c :: c in r ==> r[c] == InCategory(documents, c)
    ensures forall c :: c !in r ==> InCategory(documents, c) == []
  {
    if documents == [] then map[]
    else
      var m := DocumentsByCategory(documents[1..]);
      var c := documents[0].category;
      GroupsStep(documents, m);
      m[c := [documents[0]] + (if c in m then m[c] else [])]
  }

  /** The groups of a list with the groups of its tail in hand. */
  ghost predicate IsGrouping(documents: seq<SafetyDocument>, m: map<string, seq<SafetyDocument>>) {
    && (forall c :: c in m <==> AppLayout.HasCategory(documents, c))
    && (forall c :: c in m ==> m[c] == InCategory(documents, c))
    && (forall c :: c !in m ==> InCategory(documents, c) == [])
  }

  lemma InCategoryCons(documents: seq<SafetyDocument>, c: string)
    requires documents != []
    ensures InCategory(documents, c) ==
      (if documents[0].category == c then [documents[0]] else []) + InCategory(documents[1..], c)
  {
  }

  lemma GroupsStep(documents: seq<SafetyDocument>, m: map<string, seq<SafetyDocument>>)
    requires documents != [] && IsGrouping(documents[1..], m)
    ensures var c := documents[0].category;
      IsGrouping(documents, m[c := [documents[0]] + (if c in m then m[c] else [])])
  {
    var c0 := documents[0].category;
    var next := m[c0 := [documents[0]] + (if c0 in m then m[c0] else [])];
    forall c
      ensures c in next <==> AppLayout.HasCategory(documents, c)
      ensures c in next ==> next[c] == InCategory(documents, c)
      ensures c !in next ==> InCategory(documents, c) == []
    {
      GroupsStepAt(documents, m, c);
    }
  }

  /** `GroupsStep` for one category. */
  lemma GroupsStepAt(documents: seq<SafetyDocument>, m: map<string, seq<SafetyDocument>>, c: string)
    requires documents != [] && IsGrouping(documents[1..], m)
    ensures var c0 := documents[0].category;
      var next := m[c0 := [documents[0]] + (if c0 in m then m[c0] else [])];
      && (c in next <==> AppLayout.HasCategory(documents, c))
      && (c in next ==> next[c] == InCategory(documents, c))
      && (c !in next ==> InCategory(documents, c) == [])
  {
    AppLayout.HasCategoryCons(documents);
    InCategoryCons(documents, c);
  }

  /** Every document is in the group of its own category and in no other. */
  lemma GroupsPartition(documents: seq<SafetyDocument>, i: nat, c: string)
    requires i < |documents|
    ensures documents[i].category in DocumentsByCategory(documents)
    ensures documents[i] in DocumentsByCategory(documents)[documents[i].category]
    ensures c in DocumentsByCategory(documents) && c != documents[i].category ==>
      documents[i] !in DocumentsByCategory(documents)[c]
  {
    assert AppLayout.HasCategory(documents, documents[i].category);
  }

  function NewestFirst(a: DocumentSubmission, b: DocumentSubmission): int {
    b.createdAt - a.createdAt
  }

  /** The number of recent submissions shown. */
  const RecentLimit: nat := 5

  /** `recentSubmissions`: at most five, newest first, drawn from the
      submissions. */
  function RecentSubmissions(submissions: seq<DocumentSubmission>): (r: seq<DocumentSubmission>)
    ensures |r| == if |submissions| < RecentLimit then |submissions| else RecentLimit
    ensures multiset(r) <= multiset(submissions)
    ensures Seqs.SortedByRank(r, (s: DocumentSubmission) => -s.createdAt)
  {
    var sorted := Seqs.SortBy(submissions, NewestFirst);
    Seqs.SortByRankSorted(submissions, NewestFirst, (s: DocumentSubmission) => -s.createdAt);
    var r := Seqs.Take(sorted, RecentLimit);
    assert sorted == r + sorted[|r|..];
    r
  }

  /** The list really holds the most recent ones: a submission that is
      left out (or kept fewer times than it occurs) is no newer than the
      last one shown. */
  lemma RecentAreNewest(submissions: seq<DocumentSubmission>, s: DocumentSubmission)
    requires multiset(RecentSubmissions(submissions))[s] < multiset(submissions)[s]
    ensures var r := RecentSubmissions(submissions);
      r != [] && s.createdAt <= r[|r| - 1].createdAt
  {
    var r := RecentSubmissions(submissions);
    var sorted := Seqs.SortBy(submissions, NewestFirst);
    Seqs.SortByRankSorted(submissions, NewestFirst, (x: DocumentSubmission) => -x.createdAt);
    assert r == sorted[..|r|];
    assert |submissions| > 0 by {
      assert s in multiset(submissions);
    }
    Seqs.PrefixHoldsLowestRanks(sorted, (x: DocumentSubmission) => -x.createdAt, |r|, s);
  }

  /** The first one shown is the newest of all submissions. */
  lemma RecentStartsWithNewest(submissions: seq<DocumentSubmission>, s: DocumentSubmission)
    requires s in submissions
    ensures RecentSubmissions(submissions) != []
    ensures s.createdAt <= RecentSubmissions(submissions)[0].createdAt
  {
    var sorted := Seqs.SortBy(submissions, NewestFirst);
    Seqs.SortByRankSorted(submissions, NewestFirst, (s: DocumentSubmission) => -s.createdAt);
    assert s in multiset(sorted);
    var j :| 0 <= j < |sorted| && sorted[j] == s;
    assert RecentSubmissions(submissions)[0] == sorted[0];
  }
}

=== FILE: document_form.dfy ===
/**
 * The generic document form: field edits, checklist edits, the required-field
 * validator and the submit that hands the data on. The signature is the
 * canvas's data URL, an opaque string; `""` means no signature.
 */
module DocumentForm {
  import opened Wrappers
  import opened Safety
  import Seqs

  /** The form's state. */
  datatype FormState = FormState(formData: map<string, FieldValue>, errors: map<string, string>,
                                 signature: string, projectSite: string)

  /** `handleInputChange`: sets the field and drops that field's error, if
      any; every other field and error stays. */
  function HandleInputChange(st: FormState, name: string, value: FieldValue): (r: FormState)
    ensures r.formData == st.formData[name := value]
    ensures name !in r.errors || r.errors[name] == ""
    ensures forall k :: k != name ==> (k in r.errors <==> k in st.errors)
    ensures forall k :: k != name && k in r.errors ==> r.errors[k] == st.errors[k]
    ensures r.signature == st.signature && r.projectSite == st.projectSite
  {
    var errors := if name in st.errors && st.errors[name] != "" then st.errors - {name} else st.errors;
    FormState(st.formData[name := value], errors, st.signature, st.projectSite)
  }

  /** `formData[name] || []` for a checklist field. A non-list value cannot
      be stored in a checklist field and reads as no items. */
  function CurrentItems(formData: map<string, FieldValue>, name: string): (r: seq<string>)
    ensures name in formData && formData[name].List? ==> r == formData[name].items
    ensures !(name in formData && formData[name].List?) ==> r == []
  {
    if name in formData && formData[name].List? then formData[name].items else []
  }

  /** `handleChecklistChange`: checking appends the item, unchecking removes
      every occurrence; nothing else in the form data changes. */
  function HandleChecklistChange(st: FormState, name: string, item: string, checked: bool): (r: FormState)
    ensures name in r.formData && r.formData[name].List?
    ensures forall k :: k != name ==> (k in r.formData <==> k in st.formData)
    ensures forall k :: k != name && k in r.formData ==> r.formData[k] == st.formData[k]
    ensures checked ==> r.formData[name].items == CurrentItems(st.formData, name) + [item]
    ensures !checked ==> item !in r.formData[name].items
    ensures !checked ==> forall x :: x != item ==>
      (x in r.formData[name].items <==> x in CurrentItems(st.formData, name))
  {
    var current := CurrentItems(st.formData, name);
    if checked then HandleInputChange(st, name, List(current + [item]))
    else
      var kept := Seqs.Filter(current, (i: string) => i != item);
      assert forall x :: x != item && x in current ==> x in kept by {
        forall x | x != item && x in current
          ensures x in kept
        {
          var i :| 0 <= i < |current| && current[i] == x;
        }
      }
      HandleInputChange(st, name, List(kept))
  }

  /** Checking a new item and unchecking it again restores the item list. */
  lemma CheckThenUncheck(st: FormState, name: string, item: string)
    requires item !in CurrentItems(st.formData, name)
    ensures var after := HandleChecklistChange(HandleChecklistChange(st, name, item, true), name, item, false);
      after.formData[name].items == CurrentItems(st.formData, name)
  {
    var current := CurrentItems(st.formData, name);
    Seqs.FilterConcat(current, [item], (i: string) => i != item);
    Seqs.FilterAll(current, (i: string) => i != item);
  }

  const ChecklistMessage: string := "Please select at least one item"
  const RequiredMessage: string := "This field is required"
  const SignatureMessage: string := "Signature is required"

  /** The length of a value, where JavaScript has one. */
  function LengthOf(v: FieldValue): Option<nat> {
    match v
    case Str(s) => Some(|s|)
    case List(items) => Some(|items|)
    case _ => None
  }

  /** A required field's test: a checklist fails when absent or empty, any
      other field when falsy (which includes `''`). Optional fields never
      fail. */
  predicate FieldFails(f: FormField, formData: map<string, FieldValue>) {
    var v := if f.name in formData then formData[f.name] else Absent;
    f.required &&
      if f.fieldType == "checklist" then !Truthy(v) || LengthOf(v) == Some(0)
      else !Truthy(v)
  }

  function MessageFor(f: FormField): string {
    if f.fieldType == "checklist" then ChecklistMessage else RequiredMessage
  }

  /** The field at position `i` fails. */
  predicate FailsAt(fields: seq<FormField>, formData: map<string, FieldValue>, i: int) {
    0 <= i < |fields| && FieldFails(fields[i], formData)
  }

  /** Some failing field has the name `k`. */
  ghost predicate FailingName(fields: seq<FormField>, formData: map<string, FieldValue>, k: string) {
    exists i :: FailsAt(fields, formData, i) && fields[i].name == k
  }

  /** Position `i` holds the last failing field named `k`. */
  predicate LastFailing(fields: seq<FormField>, formData: map<string, FieldValue>, k: string, i: int) {
    FailsAt(fields, formData, i) && fields[i].name == k &&
      forall j :: i < j < |fields| ==> !(FailsAt(fields, formData, j) && fields[j].name == k)
  }

  /** The errors the `forEach` over the fields collects: one entry per
      failing field name, holding the message of the last failing field of
      that name, since a later write replaces an earlier one. */
  function FieldErrors(fields: seq<FormField>, formData: map<string, FieldValue>): (r: map<string, string>)
    ensures forall k :: k in r <==> FailingName(fields, formData, k)
    ensures forall k :: k in r ==> exists i :: LastFailing(fields, formData, k, i) && r[k] == MessageFor(fields[i])
    ensures forall k :: k in r ==> r[k] == ChecklistMessage || r[k] == RequiredMessage
  {
    if fields == [] then map[]
    else
      var m := FieldErrors(fields[1..], formData);
      FailingNameCons(fields, formData);
      LastFailingCons(fields, formData, m);
      var f := fields[0];
      if FieldFails(f, formData) && f.name !in m then m[f.name := MessageFor(f)] else m
  }

  /** The last failing field of a name in the tail is the last one in the
      whole list; a failing head is the last of its name when no tail field
      of that name fails. */
  lemma LastFailingCons(fields: seq<FormField>, formData: map<string, FieldValue>, m: map<string, string>)
    requires fields != []
    requires forall k :: k in m <==> FailingName(fields[1..], formData, k)
    requires forall k :: k in m ==> exists i :: LastFailing(fields[1..], formData, k, i) && m[k] == MessageFor(fields[1..][i])
    ensures forall k :: k in m ==> exists i :: LastFailing(fields, formData, k, i) && m[k] == MessageFor(fields[i])
    ensures FieldFails(fields[0], formData) && fields[0].name !in m ==> LastFailing(fields, formData, fields[0].name, 0)
  {
    var tail := fields[1..];
    forall k | k in m
      ensures exists i :: LastFailing(fields, formData, k, i) && m[k] == MessageFor(fields[i])
    {
      var i :| LastFailing(tail, formData, k, i) && m[k] == MessageFor(tail[i]);
      forall j | i + 1 < j < |fields|
        ensures !(FailsAt(fields, formData, j) && fields[j].name == k)
      {
        assert fields[j] == tail[j - 1];
        assert !(FailsAt(tail, formData, j - 1) && tail[j - 1].name == k);
      }
      assert FailsAt(fields, formData, i + 1);
      assert LastFailing(fields, formData, k, i + 1);
    }
    var k := fields[0].name;
    if FieldFails(fields[0], formData) && k !in m {
      forall j | 0 < j < |fields|
        ensures !(FailsAt(fields, formData, j) && fields[j].name == k)
      {
        assert fields[j] == tail[j - 1];
        assert FailsAt(fields, formData, j) ==> FailsAt(tail, formData, j - 1);
      }
    }
  }

  lemma FailingNameCons(fields: seq<FormField>, formData: map<string, FieldValue>)
    requires fields != []
    ensures forall k :: FailingName(fields, formData, k) <==>
      (FieldFails(fields[0], formData) && fields[0].name == k) || FailingName(fields[1..], formData, k)
  {
    forall k
      ensures FailingName(fields, formData, k) <==>
        (FieldFails(fields[0], formData) && fields[0].name == k) || FailingName(fields[1..], formData, k)
    {
      if FailingName(fields, formData, k) {
        var i :| FailsAt(fields, formData, i) && fields[i].name == k;
        if i > 0 {
          assert FailsAt(fields[1..], formData, i - 1);
        }
      }
      if FailingName(fields[1..], formData, k) {
        var i :| FailsAt(fields[1..], formData, i) && fields[1..][i].name == k;
        assert FailsAt(fields, formData, i + 1);
      }
    }
  }

  /** `validateForm`'s error map: the failing fields plus `signature` when
      there is no signature. */
  function ValidationErrors(fields: seq<FormField>, formData: map<string, FieldValue>, signature: string): (r: map<string, string>)
    ensures forall k :: k in r <==>
      FailingName(fields, formData, k) || (k == "signature" && signature == "")
    ensures signature == "" ==> r["signature"] == SignatureMessage
  {
    var m := FieldErrors(fields, formData);
    if signature == "" then m["signature" := SignatureMessage] else m
  }

  /** `validateForm`: stores the errors and reports whether there are none. */
  function ValidateForm(st: FormState, fields: seq<FormField>): (r: (bool, FormState))
    ensures r.1 == st.(errors := ValidationErrors(fields, st.formData, st.signature))
    ensures r.0 <==> r.1.errors == map[]
  {
    var errors := ValidationErrors(fields, st.formData, st.signature);
    (errors == map[], st.(errors := errors))
  }

  /** The form is valid exactly when no required field fails and there is a
      signature. */
  lemma ValidIff(st: FormState, fields: seq<FormField>)
    ensures ValidateForm(st, fields).0 <==>
      st.signature != "" && forall i :: 0 <= i < |fields| ==> !FieldFails(fields[i], st.formData)
  {
    var errors := ValidationErrors(fields, st.formData, st.signature);
    forall i | 0 <= i < |fields| && FieldFails(fields[i], st.formData)
      ensures fields[i].name in errors
    {
      assert FailsAt(fields, st.formData, i);
    }
    if errors != map[] {
      var k :| k in errors;
    }
  }

  /** What submitting hands on. */
  datatype Submitted = Submitted(formData: map<string, FieldValue>, signature: string)

  /** `handleSubmit`: validates; on success the form data, with the site
      entered in the form under `project_site`, goes to `onSubmit` with the
      signature. */
  function HandleSubmit(st: FormState, fields: seq<FormField>): (r: (FormState, Option<Submitted>))
    ensures r.0 == ValidateForm(st, fields).1
    ensures r.1.Some? <==> ValidateForm(st, fields).0
    ensures r.1.Some? ==>
      && r.1.value.signature == st.signature != ""
      && r.1.value.formData.Keys == st.formData.Keys + {"project_site"}
      && r.1.value.formData["project_site"] == Str(st.projectSite)
      && forall k :: k in st.formData && k != "project_site" ==> r.1.value.formData[k] == st.formData[k]
  {
    var (ok, validated) := ValidateForm(st, fields);
    ValidIff(st, fields);
    if ok then (validated, Some(Submitted(st.formData["project_site" := Str(st.projectSite)], st.signature)))
    else (validated, None)
  }

  /** `clearSignature`: with a canvas, the signature is emptied. */
  function ClearSignature(st: FormState, hasCanvas: bool): (r: FormState)
    ensures hasCanvas ==> r == st.(signature := "")
    ensures !hasCanvas ==> r == st
  {
    if hasCanvas then st.(signature := "") else st
  }

  /** After clearing the signature, validation fails and reports it. */
  lemma ClearedSignatureFailsValidation(st: FormState, fields: seq<FormField>)
    ensures var v := ValidateForm(ClearSignature(st, true), fields);
      !v.0 && v.1.errors["signature"] == SignatureMessage
  {
  }

  /** A required checklist field with an empty list fails, and an entry
      in it makes that field pass. */
  lemma ChecklistFieldNeedsAnItem(f: FormField, formData: map<string, FieldValue>, item: string)
    requires f.required && f.fieldType == "checklist"
    ensures FieldFails(f, formData[f.name := List([])])
    ensures !FieldFails(f, formData[f.name := List([item])])
  {
  }
}

=== FILE: document_labels.dfy ===
/**
 * The texts the document card and the document details page show for a
 * document's renewal period, the card's status badge, and the details
 * page's field-type labels.
 */
module DocumentLabels {
  import opened Wrappers
  import opened Text

  /** The periods both pages name with a fixed text. */
  predicate IsSpecialPeriod(n: int) {
    n == 1 || n == 7 || n == 30 || n == 90 || n == 365 || n == 1095
  }

  /** How a renewal period reads: not at all, one of the six named periods,
      or a number of days. */
  datatype Renewal = OneTime | Daily | Weekly | Monthly | Quarterly | Annual | EveryThreeYears
                   | EveryDays(days: int)

  /** The period a `renewal_period_days` value stands for; a missing or zero
      value is falsy and means no renewal. */
  function PeriodOf(renewalDays: Option<int>): (r: Renewal)
    ensures r.OneTime? <==> renewalDays.None? || renewalDays.value == 0
    ensures r.EveryDays? <==>
      renewalDays.Some? && renewalDays.value != 0 && !IsSpecialPeriod(renewalDays.value)
    ensures r.EveryDays? ==> r.days == renewalDays.value
  {
    if renewalDays.None? || renewalDays.value == 0 then OneTime
    else
      match renewalDays.value
      case 1 => Daily
      case 7 => Weekly
      case 30 => Monthly
      case 90 => Quarterly
      case 365 => Annual
      case 1095 => EveryThreeYears
      case n => EveryDays(n)
  }

  /** The card's `getRenewalText`: no text without a renewal period. */
  function CardRenewalText(renewalDays: Option<int>): (r: Option<string>)
    ensures r.None? <==> renewalDays.None? || renewalDays.value == 0
    ensures renewalDays.Some? && renewalDays.value != 0 && !IsSpecialPeriod(renewalDays.value) ==>
      r == Some("Every " + IntToString(renewalDays.value) + " days")
  {
    if renewalDays.None? || renewalDays.value == 0 then None
    else
      var n := renewalDays.value;
      if n == 1 then Some("Daily")
      else if n == 7 then Some("Weekly")
      else if n == 30 then Some("Monthly")
      else if n == 90 then Some("Quarterly")
      else if n == 365 then Some("Annually")
      else if n == 1095 then Some("Every 3 years")
      else Some("Every " + IntToString(n) + " days")
  }

  const OneTimeText: string := "One-time completion"

  /** The details page's `getRenewalText`: a one-time note without a
      renewal period. */
  function DetailsRenewalText(renewalDays: Option<int>): (r: string)
    ensures r == OneTimeText <==> renewalDays.None? || renewalDays.value == 0
    ensures renewalDays.Some? && renewalDays.value != 0 && !IsSpecialPeriod(renewalDays.value) ==>
      r == "Renewal every " + IntToString(renewalDays.value) + " days"
  {
    if renewalDays.None? || renewalDays.value == 0 then OneTimeText
    else
      var n := renewalDays.value;
      if n == 1 then "Daily renewal required"
      else if n == 7 then "Weekly renewal required"
      else if n == 30 then "Monthly renewal required"
      else if n == 90 then "Quarterly renewal required"
      else if n == 365 then "Annual renewal required"
      else if n == 1095 then "Renewal every 3 years"
      else
        var r := "Renewal every " + IntToString(n) + " days";
        assert r[0] != OneTimeText[0];
        r
  }

  /** The card text by period. */
  function CardText(p: Renewal): Option<string> {
    match p
    case OneTime => None
    case Daily => Some("Daily")
    case Weekly => Some("Weekly")
    case Monthly => Some("Monthly")
    case Quarterly => Some("Quarterly")
    case Annual => Some("Annually")
    case EveryThreeYears => Some("Every 3 years")
    case EveryDays(n) => Some("Every " + IntToString(n) + " days")
  }

  /** The card's text depends on the value only through its period. */
  lemma CardTextOfPeriod(renewalDays: Option<int>)
    ensures CardRenewalText(renewalDays) == CardText(PeriodOf(renewalDays))
  {
  }

  /** Different periods have different card texts. */
  lemma CardTextInjective(p: Renewal, q: Renewal)
    requires CardText(p) == CardText(q)
    ensures p == q
  {
    if CardText(p).Some? {
      var t := CardText(p).value;
      if p.EveryDays? && q.EveryDays? {
        var sp, sq := IntToString(p.days), IntToString(q.days);
        assert t[6..|t| - 5] == sp by { assert t == "Every " + sp + " days"; }
        assert t[6..|t| - 5] == sq by { assert t == "Every " + sq + " days"; }
        IntToStringInjective(p.days, q.days);
      } else if p.EveryDays? || q.EveryDays? {
        GenericCardTextIsNotFixed(if p.EveryDays? then p.days else q.days);
      } else {
        assert |t| == |CardText(q).value| && t[0] == CardText(q).value[0];
      }
    }
  }

  /** Two periods get the same card text exactly when they are the same
      period. */
  lemma CardTextIdentifiesPeriod(a: Option<int>, b: Option<int>)
    ensures CardRenewalText(a) == CardRenewalText(b) <==> PeriodOf(a) == PeriodOf(b)
  {
    CardTextOfPeriod(a);
    CardTextOfPeriod(b);
    if CardRenewalText(a) == CardRenewalText(b) {
      CardTextInjective(PeriodOf(a), PeriodOf(b));
    }
  }

  lemma GenericCardTextIsNotFixed(n: int)
    ensures var t := "Every " + IntToString(n) + " days";
      t != "Daily" && t != "Weekly" && t != "Monthly" && t != "Quarterly" && t != "Annually" &&
      t != "Every 3 years"
  {
    var t := "Every " + IntToString(n) + " days";
    assert t[0] == 'E' && t[|t| - 2] == 'y';
    assert "Every 3 years"[|"Every 3 years"| - 2] == 'r';
  }

  /** The details text by period. */
  function DetailsText(p: Renewal): string {
    match p
    case OneTime => OneTimeText
    case Daily => "Daily renewal required"
    case Weekly => "Weekly renewal required"
    case Monthly => "Monthly renewal required"
    case Quarterly => "Quarterly renewal required"
    case Annual => "Annual renewal required"
    case EveryThreeYears => "Renewal every 3 years"
    case EveryDays(n) => "Renewal every " + IntToString(n) + " days"
  }

  /** The details page's text depends on the value only through its period. */
  lemma DetailsTextOfPeriod(renewalDays: Option<int>)
    ensures DetailsRenewalText(renewalDays) == DetailsText(PeriodOf(renewalDays))
  {
  }

  /** Different periods have different details texts. */
  lemma DetailsTextInjective(p: Renewal, q: Renewal)
    requires DetailsText(p) == DetailsText(q)
    ensures p == q
  {
    var t := DetailsText(p);
    if p.EveryDays? && q.EveryDays? {
      var sp, sq := IntToString(p.days), IntToString(q.days);
      assert t[14..|t| - 5] == sp by { assert t == "Renewal every " + sp + " days"; }
      assert t[14..|t| - 5] == sq by { assert t == "Renewal every " + sq + " days"; }
      IntToStringInjective(p.days, q.days);
    } else if p.EveryDays? || q.EveryDays? {
      GenericDetailsTextIsNotFixed(if p.EveryDays? then p.days else q.days);
    } else {
      assert |t| == |DetailsText(q)| && t[0] == DetailsText(q)[0];
    }
  }

  /** Two periods get the same details text exactly when they are the same
      period. */
  lemma DetailsTextIdentifiesPeriod(a: Option<int>, b: Option<int>)
    ensures DetailsRenewalText(a) == DetailsRenewalText(b) <==> PeriodOf(a) == PeriodOf(b)
  {
    DetailsTextOfPeriod(a);
    DetailsTextOfPeriod(b);
    if DetailsRenewalText(a) == DetailsRenewalText(b) {
      DetailsTextInjective(PeriodOf(a), PeriodOf(b));
    }
  }

  lemma GenericDetailsTextIsNotFixed(n: int)
    ensures var t := "Renewal every " + IntToString(n) + " days";
      t != "Daily renewal required" && t != "Weekly renewal required" &&
      t != "Monthly renewal required" && t != "Quarterly renewal required" &&
      t != "Annual renewal required" && t != "Renewal every 3 years" && t != OneTimeText
  {
    var t := "Renewal every " + IntToString(n) + " days";
    assert t[0] == 'R' && t[|t| - 2] == 'y';
    assert "Renewal every 3 years"[|"Renewal every 3 years"| - 2] == 'r';
  }

  /** The card and the details page tell the same periods apart: two
      periods share a card text exactly when they share a details text. */
  lemma CardAndDetailsAgree(a: Option<int>, b: Option<int>)
    ensures CardRenewalText(a) == CardRenewalText(b) <==> DetailsRenewalText(a) == DetailsRenewalText(b)
    ensures CardRenewalText(a).None? <==> DetailsRenewalText(a) == OneTimeText
  {
    CardTextIdentifiesPeriod(a, b);
    DetailsTextIdentifiesPeriod(a, b);
  }

  /** The card's `getStatusBadge` label: none for a missing status or one it
      does not know; otherwise the status with a capital first letter. */
  function StatusBadge(completionStatus: Option<string>): (r: Option<string>)
    ensures r.Some? <==>
      completionStatus.Some? && completionStatus.value in {"completed", "pending", "expired"}
    ensures r.Some? ==> Lower(r.value) == completionStatus.value && 'A' <= r.value[0] <= 'Z'
  {
    if completionStatus.None? then None
    else
      match completionStatus.value
      case "completed" => (assert Lower("Completed") == "completed"; Some("Completed"))
      case "pending" => (assert Lower("Pending") == "pending"; Some("Pending"))
      case "expired" => (assert Lower("Expired") == "expired"; Some("Expired"))
      case _ => None
  }

  /** The field types the details page names. */
  const KnownFieldTypes: set<string> :=
    {"text", "textarea", "select", "date", "datetime", "number", "checklist"}

  /** `getFieldTypeLabel`: a name for each known type; any other type is
      shown as it is. */
  function FieldTypeLabel(fieldType: string): (r: string)
    ensures fieldType !in KnownFieldTypes ==> r == fieldType
    ensures fieldType in KnownFieldTypes ==> r != fieldType && r != "" && 'A' <= r[0] <= 'Z'
  {
    match fieldType
    case "text" => "Text Input"
    case "textarea" => "Long Text"
    case "select" => "Dropdown Selection"
    case "date" => "Date Picker"
    case "datetime" => "Date & Time"
    case "number" => "Number Input"
    case "checklist" => "Checklist"
    case _ => fieldType
  }

  /** Reads a label back as the type it names. */
  function FieldTypeOfLabel(shown: string): string {
    match shown
    case "Text Input" => "text"
    case "Long Text" => "textarea"
    case "Dropdown Selection" => "select"
    case "Date Picker" => "date"
    case "Date & Time" => "datetime"
    case "Number Input" => "number"
    case "Checklist" => "checklist"
    case _ => shown
  }

  /** Every known type can be read back from its label. */
  lemma FieldTypeLabelRoundTrip(fieldType: string)
    requires fieldType in KnownFieldTypes
    ensures FieldTypeOfLabel(FieldTypeLabel(fieldType)) == fieldType
  {
    match fieldType
    case "text" =>
    case "textarea" =>
    case "select" =>
    case "date" =>
    case "datetime" =>
    case "number" =>
    case "checklist" =>
    case _ =>
  }

  /** The known types get different labels. */
  lemma FieldTypeLabelsDistinct(a: string, b: string)
    requires a in KnownFieldTypes && b in KnownFieldTypes && a != b
    ensures FieldTypeLabel(a) != FieldTypeLabel(b)
  {
    FieldTypeLabelRoundTrip(a);
    FieldTypeLabelRoundTrip(b);
  }
}

=== FILE: document_library.dfy ===
/**
 * The document library: the category list, the document filters (category,
 * search, required, renewal bucket) and sorts, the equipment-checklist
 * search with its three groups, and the filter panel's buttons.
 *
 * `localeCompare` is a comparator parameter: for the title and category
 * sorts only the permutation is stated.
 */
module DocumentLibrary {
  import opened Wrappers
  import opened Text
  import opened Safety
  import Seqs
  import Toggles
  import AppLayout
  import EquipmentChecklist

  /** `categories`: the distinct non-empty categories, in `localeCompare`
      order. */
  function Categories(documents: seq<SafetyDocument>, localeCompare: (string, string) -> int): (r: seq<string>)
    ensures forall c :: c in r <==> c != "" && AppLayout.HasCategory(documents, c)
    ensures Seqs.NoDuplicates(r)
  {
    var all := seq(|documents|, i requires 0 <= i < |documents| => documents[i].category);
    var named := Seqs.Filter(all, (c: string) => c != "");
    Seqs.FilterMembers(all, (c: string) => c != "");
    assert forall c :: AppLayout.HasCategory(documents, c) ==> c in all by {
      forall c | AppLayout.HasCategory(documents, c)
        ensures c in all
      {
        var i :| 0 <= i < |documents| && documents[i].category == c;
        assert all[i] == c;
      }
    }
    Seqs.SortedDistinct(named, localeCompare)
  }

  /** Every listed category has at least one document, so no category pill
      shows a zero count. */
  lemma {:induction false} ListedCategoriesAreNonEmpty(documents: seq<SafetyDocument>, localeCompare: (string, string) -> int, c: string)
    requires c in Categories(documents, localeCompare)
    ensures AppLayout.CategoryCount(documents, c) >= 1
  {
    var i :| 0 <= i < |documents| && documents[i].category == c;
    CountPositive(documents, c, i);
  }

  lemma {:induction false} CountPositive(documents: seq<SafetyDocument>, c: string, i: nat)
    requires i < |documents| && documents[i].category == c
    ensures AppLayout.CategoryCount(documents, c) >= 1
  {
    if i > 0 {
      CountPositive(documents[1..], c, i - 1);
    }
  }

  // ---- Renewal buckets ----

  /** The renewal filter's options. */
  predicate Daily(d: Option<int>) { d == Some(1) }
  predicate Weekly(d: Option<int>) { d == Some(7) }
  predicate Monthly(d: Option<int>) { d.Some? && d.value != 0 && 7 < d.value <= 31 }
  predicate Annual(d: Option<int>) { d.Some? && d.value != 0 && d.value >= 365 }
  predicate NoRenewal(d: Option<int>) { d.None? || d.value == 0 }

  /** The bucket test for a renewal filter value; an unknown value filters
      nothing. */
  predicate InBucket(filter: string, d: Option<int>) {
    if filter == "daily" then Daily(d)
    else if filter == "weekly" then Weekly(d)
    else if filter == "monthly" then Monthly(d)
    else if filter == "annual" then Annual(d)
    else if filter == "none" then NoRenewal(d)
    else true
  }

  /** The buckets are pairwise disjoint, and periods 2 to 6 and 32 to 364
      (and negative ones) are in none of them. */
  lemma BucketsDisjoint(d: Option<int>)
    ensures !(Daily(d) && Weekly(d)) && !(Daily(d) && Monthly(d)) && !(Daily(d) && Annual(d))
    ensures !(Daily(d) && NoRenewal(d)) && !(Weekly(d) && Monthly(d)) && !(Weekly(d) && Annual(d))
    ensures !(Weekly(d) && NoRenewal(d)) && !(Monthly(d) && Annual(d))
    ensures !(Monthly(d) && NoRenewal(d)) && !(Annual(d) && NoRenewal(d))
    ensures d.Some? && (2 <= d.value <= 6 || 32 <= d.value <= 364 || d.value < 0) ==>
      !Daily(d) && !Weekly(d) && !Monthly(d) && !Annual(d) && !NoRenewal(d)
  {
  }

  /** Every other period is in exactly one bucket. */
  lemma BucketsCoverTheRest(d: Option<int>)
    requires !(d.Some? && (2 <= d.value <= 6 || 32 <= d.value <= 364 || d.value < 0))
    ensures Daily(d) || Weekly(d) || Monthly(d) || Annual(d) || NoRenewal(d)
  {
  }

  // ---- Filters ----

  /** The filter panel's state. */
  datatype Filters = Filters(required: Option<bool>, renewal: Option<string>)

  /** The category test; no category selected lets everything through. */
  predicate InCategory(selectedCategory: Option<string>, d: SafetyDocument) {
    !IsActive(selectedCategory) || d.category == selectedCategory.value
  }

  /** The search: an empty query matches everything; otherwise the title,
      description or category mentions it. */
  predicate MatchesQuery(query: string, d: SafetyDocument) {
    query == "" ||
      Contains(Lower(d.title), Lower(query)) || Contains(Lower(d.description), Lower(query)) ||
      Contains(Lower(d.category), Lower(query))
  }

  predicate MatchesRequired(filters: Filters, d: SafetyDocument) {
    filters.required.None? || d.isRequired == filters.required.value
  }

  predicate MatchesRenewal(filters: Filters, d: SafetyDocument) {
    !IsActive(filters.renewal) || InBucket(filters.renewal.value, d.renewalDays)
  }

  /** All four tests of `filteredDocuments`. */
  predicate DocMatches(selectedCategory: Option<string>, query: string, filters: Filters, d: SafetyDocument) {
    InCategory(selectedCategory, d) && MatchesQuery(query, d) && MatchesRequired(filters, d) &&
      MatchesRenewal(filters, d)
  }

  /** The sort selector. */
  datatype SortKey = ByTitle | ByCategoryThenTitle | ByRequired

  /** Required documents rank 0, optional ones 1. */
  function RequiredRank(d: SafetyDocument): int {
    if d.isRequired then 0 else 1
  }

  /** `(b.is_required ? 1 : 0) - (a.is_required ? 1 : 0)`. */
  function RequiredFirst(a: SafetyDocument, b: SafetyDocument): int {
    (if b.isRequired then 1 else 0) - (if a.isRequired then 1 else 0)
  }

  /** The category sort: by category, ties by title. */
  function CategoryThenTitle(localeCompare: (string, string) -> int, a: SafetyDocument, b: SafetyDocument): int {
    var c := localeCompare(a.category, b.category);
    if c != 0 then c else localeCompare(a.title, b.title)
  }

  function SortDocuments(filtered: seq<SafetyDocument>, key: SortKey, localeCompare: (string, string) -> int): (r: seq<SafetyDocument>)
    ensures multiset(r) == multiset(filtered)
    ensures key == ByRequired ==> Seqs.SortedByRank(r, RequiredRank)
  {
    match key
    case ByTitle => Seqs.SortBy(filtered, (a: SafetyDocument, b: SafetyDocument) => localeCompare(a.title, b.title))
    case ByCategoryThenTitle =>
      Seqs.SortBy(filtered, (a: SafetyDocument, b: SafetyDocument) => CategoryThenTitle(localeCompare, a, b))
    case ByRequired =>
      Seqs.SortByRankSorted(filtered, RequiredFirst, RequiredRank);
      Seqs.SortBy(filtered, RequiredFirst)
  }

  /** The four filters in sequence, one combined test. */
  function FilterDocuments(documents: seq<SafetyDocument>, selectedCategory: Option<string>, query: string,
                           filters: Filters): (r: seq<SafetyDocument>)
    ensures r == Seqs.Filter(documents, (d: SafetyDocument) => DocMatches(selectedCategory, query, filters, d))
  {
    var p1 := (d: SafetyDocument) => InCategory(selectedCategory, d);
    var p2 := (d: SafetyDocument) => MatchesQuery(query, d);
    var p3 := (d: SafetyDocument) => MatchesRequired(filters, d);
    var p4 := (d: SafetyDocument) => MatchesRenewal(filters, d);
    var p12 := (d: SafetyDocument) => p1(d) && p2(d);
    var p123 := (d: SafetyDocument) => p12(d) && p3(d);
    Seqs.FilterFilter(documents, p1, p2, p12);
    Seqs.FilterFilter(documents, p12, p3, p123);
    Seqs.FilterFilter(documents, p123, p4, (d: SafetyDocument) => DocMatches(selectedCategory, query, filters, d));
    Seqs.Filter(Seqs.Filter(Seqs.Filter(Seqs.Filter(documents, p1), p2), p3), p4)
  }

  /** `filteredDocuments`: exactly the matching documents, each as often as
      in the input, in the selected order. */
  function FilteredDocuments(documents: seq<SafetyDocument>, selectedCategory: Option<string>, query: string,
                             filters: Filters, key: SortKey, localeCompare: (string, string) -> int): (r: seq<SafetyDocument>)
    ensures forall d :: d in r <==> d in documents && DocMatches(selectedCategory, query, filters, d)
    ensures forall d :: multiset(r)[d] ==
                         (if DocMatches(selectedCategory, query, filters, d) then multiset(documents)[d] else 0)
    ensures key == ByRequired ==> Seqs.SortedByRank(r, RequiredRank)
  {
    var kept := FilterDocuments(documents, selectedCategory, query, filters);
    Seqs.FilterMembers(documents, (d: SafetyDocument) => DocMatches(selectedCategory, query, filters, d));
    Seqs.FilterMultiset(documents, (d: SafetyDocument) => DocMatches(selectedCategory, query, filters, d));
    var r := SortDocuments(kept, key, localeCompare);
    Seqs.PermutationMembers(r, kept);
    r
  }

  /** The required sort lists every required document before every
      optional one. */
  lemma RequiredSortPutsRequiredFirst(documents: seq<SafetyDocument>, selectedCategory: Option<string>,
                                      query: string, filters: Filters, localeCompare: (string, string) -> int,
                                      i: nat, j: nat)
    requires var r := FilteredDocuments(documents, selectedCategory, query, filters, ByRequired, localeCompare);
      i < |r| && j < |r| && r[i].isRequired && !r[j].isRequired
    ensures i < j
  {
    var r := FilteredDocuments(documents, selectedCategory, query, filters, ByRequired, localeCompare);
    Seqs.RankOrdersPositions(r, RequiredRank, i, j);
  }

  /** No category, no query and no filters keep every document. */
  lemma NoFiltersKeepAll(documents: seq<SafetyDocument>, key: SortKey, localeCompare: (string, string) -> int)
    ensures multiset(FilteredDocuments(documents, None, "", Filters(None, None), key, localeCompare)) ==
            multiset(documents)
  {
    Seqs.FilterAll(documents, (d: SafetyDocument) => DocMatches(None, "", Filters(None, None), d));
  }

  /** The "Required" and "Optional" buttons and the renewal options toggle
      their filter: pressing the active one clears it. */
  function PressRequired(f: Filters, option: bool): (r: Filters)
    ensures r.renewal == f.renewal
    ensures r.required == (if f.required == Some(option) then None else Some(option))
  {
    f.(required := Toggles.ToggleOption(f.required, option))
  }

  function PressRenewal(f: Filters, option: string): (r: Filters)
    ensures r.required == f.required
    ensures r.renewal == (if f.renewal == Some(option) then None else Some(option))
  {
    f.(renewal := Toggles.ToggleOption(f.renewal, option))
  }

  /** The renewal options offered. */
  const RenewalOptions: seq<string> := ["daily", "weekly", "monthly", "annual", "none"]

  /** Pressing a renewal option twice from no filter shows everything
      again; each offered option, once active, selects exactly its bucket. */
  lemma RenewalOptionRoundTrip(f: Filters, k: nat)
    requires k < |RenewalOptions| && f.renewal.None?
    ensures PressRenewal(PressRenewal(f, RenewalOptions[k]), RenewalOptions[k]) == f
    ensures var o := RenewalOptions[k];
      IsActive(PressRenewal(f, o).renewal) &&
      forall d :: InBucket(o, d) <==>
        (Daily(d) && o == "daily") || (Weekly(d) && o == "weekly") ||
        (Monthly(d) && o == "monthly") || (Annual(d) && o == "annual") || (NoRenewal(d) && o == "none")
  {
  }

  /** `hasActiveFilters`. */
  predicate HasActiveFilters(f: Filters, query: string) {
    f.required.Some? || f.renewal.Some? || query != ""
  }

  /** `clearFilters`: both filters and the query are cleared. */
  function ClearFilters(f: Filters): (r: (Filters, string))
    ensures !HasActiveFilters(r.0, r.1)
  {
    (Filters(None, None), "")
  }

  /** After clearing, with no category the library lists every document. */
  lemma ClearFiltersShowsAll(f: Filters, documents: seq<SafetyDocument>, key: SortKey,
                             localeCompare: (string, string) -> int)
    ensures var (g, q) := ClearFilters(f);
      multiset(FilteredDocuments(documents, None, q, g, key, localeCompare)) == multiset(documents)
  {
    NoFiltersKeepAll(documents, key, localeCompare);
  }

  // ---- Equipment checklists ----

  type EquipmentType = EquipmentChecklist.EquipmentType

  predicate EquipmentMatches(query: string, eq: EquipmentType) {
    Contains(Lower(eq.name), Lower(query)) || Contains(Lower(eq.description), Lower(query)) ||
      Contains(Lower(eq.standard), Lower(query))
  }

  /** `filteredEquipmentChecklists`: everything for an empty query, else the
      name, description or standard matches, in list order. */
  function FilteredEquipment(equipment: seq<EquipmentType>, query: string): (r: seq<EquipmentType>)
    ensures query == "" ==> r == equipment
    ensures query != "" ==> Seqs.IsSubsequence(r, equipment)
    ensures forall eq :: eq in r <==> eq in equipment && (query == "" || EquipmentMatches(query, eq))
  {
    if query == "" then equipment
    else
      var matches := (eq: EquipmentType) => EquipmentMatches(query, eq);
      Seqs.FilterSubsequence(equipment, matches);
      Seqs.FilterMembers(equipment, matches);
      Seqs.Filter(equipment, matches)
  }

  /** The equipment section is shown for the "Equipment" category, and on
      the unfiltered landing view. */
  predicate ShowEquipmentChecklists(selectedCategory: Option<string>, query: string) {
    selectedCategory == Some(AppLayout.EquipmentCategory) || (!IsActive(selectedCategory) && query == "")
  }

  /** The grouped equipment list is drawn only for the "Equipment"
      category, where the section is always shown. */
  lemma EquipmentCategoryShowsSection(query: string)
    ensures ShowEquipmentChecklists(Some(AppLayout.EquipmentCategory), query)
    ensures !ShowEquipmentChecklists(Some("Fall Protection"), query)
  {
  }

  const SwingStageId: string := "swing-stage"
  const ScissorLiftId: string := "scissor-lift"
  const BoomLiftId: string := "boom-lift"

  predicate InSwingGroup(eq: EquipmentType) { eq.id == SwingStageId }
  predicate InLiftGroup(eq: EquipmentType) { eq.id == ScissorLiftId || eq.id == BoomLiftId }
  predicate InOtherGroup(eq: EquipmentType) { eq.id !in [SwingStageId, ScissorLiftId, BoomLiftId] }

  /** The three equipment groups. */
  function Groups(list: seq<EquipmentType>): (r: (seq<EquipmentType>, seq<EquipmentType>, seq<EquipmentType>))
    ensures forall eq :: eq in r.0 <==> eq in list && InSwingGroup(eq)
    ensures forall eq :: eq in r.1 <==> eq in list && InLiftGroup(eq)
    ensures forall eq :: eq in r.2 <==> eq in list && InOtherGroup(eq)
  {
    (Seqs.Filter(list, InSwingGroup), Seqs.Filter(list, InLiftGroup), Seqs.Filter(list, InOtherGroup))
  }

  /** The groups partition the list: each entry is in exactly one group,
      and the group sizes add up to the list's length. */
  lemma GroupsPartition(list: seq<EquipmentType>)
    ensures forall eq :: eq in list ==>
      (if InSwingGroup(eq) then 1 else 0) + (if InLiftGroup(eq) then 1 else 0) +
      (if InOtherGroup(eq) then 1 else 0) == 1
    ensures var g := Groups(list); |g.0| + |g.1| + |g.2| == |list|
  {
    var named := (eq: EquipmentType) => InSwingGroup(eq) || InLiftGroup(eq);
    var any := (eq: EquipmentType) => named(eq) || InOtherGroup(eq);
    Seqs.CountDisjoint(list, InSwingGroup, InLiftGroup, named);
    Seqs.CountDisjoint(list, named, InOtherGroup, any);
    Seqs.FilterAll(list, any);
  }
}

=== FILE: equipment_checklist.dfy ===
/**
 * The equipment pre-use inspection form: a checklist session built from an
 * equipment definition, the ordered validator that gates submission, and the
 * submission record handed to the persistence callback.
 */
module EquipmentChecklist {
  import opened Wrappers
  import opened Text
  import opened Checklist

  /** An equipment definition from the equipment catalogue. */
  datatype EquipmentType = EquipmentType(id: string, name: string, description: string,
                                         standard: string, sections: seq<SectionDef>)

  /** The equipment-specific project fields of this form. */
  const DetailKeys: set<string> := {"equipmentId", "manufacturer", "modelNumber", "serialNumber", "hoursReading"}

  /** The form's state: the inspection session plus the success flag that the
      form shows after a submission went through. */
  datatype FormState = FormState(session: Session, submitSuccess: bool)

  /** `initializeSections`: one blank item state per definition item. */
  function InitialSections(equipment: EquipmentType): (r: seq<SectionState>)
    ensures |r| == |equipment.sections|
    ensures forall i :: 0 <= i < |r| ==>
      r[i].id == equipment.sections[i].id && |r[i].items| == |equipment.sections[i].items|
    ensures forall i, j :: 0 <= i < |r| && 0 <= j < |r[i].items| ==>
      r[i].items[j] == ItemState(equipment.sections[i].items[j].id, None, "")
  {
    InitializeSections(equipment.sections)
  }

  /** The state the form opens with, and the one `resetChecklist` returns to. */
  function InitialForm(equipment: EquipmentType, today: string, nowTime: string): (r: FormState)
    ensures !r.submitSuccess
    ensures r.session.approvedForUse == None && !r.session.deficienciesFound
    ensures Stats(r.session.sections).completed == 0
  {
    var sections := InitialSections(equipment);
    NoneAnsweredStats(sections);
    FormState(ResetSession(sections, today, nowTime, DetailKeys), false)
  }

  lemma NoneAnsweredStats(sections: seq<SectionState>)
    requires forall i, j :: 0 <= i < |sections| && 0 <= j < |sections[i].items| ==>
      sections[i].items[j].status == None
    ensures Stats(sections).completed == 0
  {
    var items := Flatten(sections);
    forall k | 0 <= k < |items|
      ensures !IsAnswered(items[k])
    {
      FlattenMembers(sections, items[k]);
    }
    CountNone(items);
  }

  lemma {:induction false} CountNone(items: seq<ItemState>)
    requires forall k :: 0 <= k < |items| ==> !IsAnswered(items[k])
    ensures Seqs.Count(items, IsAnswered) == 0
  {
    if items != [] {
      CountNone(items[1..]);
    }
  }

  /** `resetChecklist`: whatever the form held, it is back to its opening state. */
  function Reset(form: FormState, equipment: EquipmentType, today: string, nowTime: string): (r: FormState)
    ensures r == InitialForm(equipment, today, nowTime)
    ensures forall i, j :: 0 <= i < |r.session.sections| && 0 <= j < |r.session.sections[i].items| ==>
      r.session.sections[i].items[j].status == None && r.session.sections[i].items[j].notes == ""
    ensures r.session.correctionRequired == "" && r.session.additionalNotes == ""
  {
    FormState(ResetSession(InitialSections(equipment), today, nowTime, DetailKeys), false)
  }

  /** The validator's messages, in the order it checks them. */
  datatype ValidationError =
    | ProjectNameRequired
    | ProjectAddressRequired
    | InspectorNameRequired
    | ApprovalRequired
    | ItemsIncomplete(completed: nat, total: nat)

  /** `validateForm`: the first failing check, or `None` when all pass. */
  function ValidateForm(s: Session): (r: Option<ValidationError>)
    ensures r == None <==>
      !IsBlank(s.info.projectName) && !IsBlank(s.info.projectAddress) &&
      !IsBlank(s.info.inspectorName) && s.approvedForUse.Some? && AllAnswered(s.sections)
    ensures r == Some(ProjectNameRequired) <==> IsBlank(s.info.projectName)
    ensures r == Some(ProjectAddressRequired) <==>
      !IsBlank(s.info.projectName) && IsBlank(s.info.projectAddress)
    ensures r == Some(InspectorNameRequired) <==>
      !IsBlank(s.info.projectName) && !IsBlank(s.info.projectAddress) && IsBlank(s.info.inspectorName)
    ensures r == Some(ApprovalRequired) <==>
      !IsBlank(s.info.projectName) && !IsBlank(s.info.projectAddress) &&
      !IsBlank(s.info.inspectorName) && s.approvedForUse.None?
    ensures r.Some? && r.value.ItemsIncomplete? ==>
      && r.value.completed == Stats(s.sections).completed
      && r.value.total == Stats(s.sections).total
      && r.value.completed < r.value.total
  {
    var stats := Stats(s.sections);
    CompleteIffAllAnswered(s.sections);
    if IsBlank(s.info.projectName) then Some(ProjectNameRequired)
    else if IsBlank(s.info.projectAddress) then Some(ProjectAddressRequired)
    else if IsBlank(s.info.inspectorName) then Some(InspectorNameRequired)
    else if s.approvedForUse.None? then Some(ApprovalRequired)
    else if stats.completed < stats.total then Some(ItemsIncomplete(stats.completed, stats.total))
    else None
  }

  /** The record handed to `onSubmit`. */
  datatype Submission = Submission(
    equipmentType: string, equipmentName: string, projectInfo: ProjectInfo,
    sections: seq<SectionState>, additionalNotes: string, deficienciesFound: bool,
    correctionRequired: string, approvedForUse: Option<bool>)

  /** How the persistence callback behaves: absent, resolving, or throwing. */
  datatype Callback = NoCallback | Resolves | Throws

  datatype SubmitError = Invalid(reason: ValidationError) | CallbackFailed

  /** The form after `handleSubmit`, the records passed to `onSubmit` (zero
      or one) and the error the user is shown, if any. */
  datatype SubmitResult = SubmitResult(form: FormState, sent: seq<Submission>, error: Option<SubmitError>)

  /** The record `handleSubmit` builds: the equipment's id and name with
      every field of the form. */
  function RecordOf(s: Session, equipment: EquipmentType): Submission {
    Submission(equipment.id, equipment.name, s.info, s.sections, s.additionalNotes,
               s.deficienciesFound, s.correctionRequired, s.approvedForUse)
  }

  /** `handleSubmit`: an invalid form sends nothing and shows the first
      failing check; a valid one sends its record to the callback, if there
      is one, and shows success unless the callback throws. */
  function HandleSubmit(form: FormState, equipment: EquipmentType, callback: Callback): (r: SubmitResult)
    ensures ValidateForm(form.session).Some? ==>
      r.form == form && r.error == Some(Invalid(ValidateForm(form.session).value))
    ensures r.sent == (if ValidateForm(form.session).None? && callback != NoCallback
                       then [RecordOf(form.session, equipment)] else [])
    ensures r.form.session == form.session
    ensures r.form.submitSuccess <==> form.submitSuccess || (ValidateForm(form.session) == None && callback != Throws)
    ensures r.error == None <==> ValidateForm(form.session) == None && callback != Throws
  {
    var v := ValidateForm(form.session);
    if v.Some? then SubmitResult(form, [], Some(Invalid(v.value)))
    else Deliver(form, RecordOf(form.session, equipment), callback)
  }

  /** The `try`/`catch` around `onSubmit` once validation passed: the record
      goes to the callback if there is one, and success is shown unless the
      callback throws. */
  function Deliver(form: FormState, record: Submission, callback: Callback): (r: SubmitResult)
    ensures r.sent == (if callback == NoCallback then [] else [record])
    ensures r.form.session == form.session
    ensures r.form.submitSuccess <==> form.submitSuccess || callback != Throws
    ensures r.error == None <==> callback != Throws
  {
    match callback
    case NoCallback => SubmitResult(form.(submitSuccess := true), [], None)
    case Resolves => SubmitResult(form.(submitSuccess := true), [record], None)
    case Throws => SubmitResult(form, [record], Some(CallbackFailed))
  }

  /** Every record that reaches the callback describes a finished inspection:
      named project, address and inspector, an approval decision, and a status
      on every item. */
  lemma SubmittedRecordsComplete(form: FormState, equipment: EquipmentType, callback: Callback)
    ensures forall rec :: rec in HandleSubmit(form, equipment, callback).sent ==>
      !IsBlank(rec.projectInfo.projectName) && !IsBlank(rec.projectInfo.inspectorName) &&
      rec.approvedForUse.Some? && AllAnswered(rec.sections) &&
      Stats(rec.sections).completed == Stats(rec.sections).total
  {
    var r := HandleSubmit(form, equipment, callback);
    forall rec | rec in r.sent
      ensures !IsBlank(rec.projectInfo.projectName) && !IsBlank(rec.projectInfo.inspectorName) &&
        rec.approvedForUse.Some? && AllAnswered(rec.sections) &&
        Stats(rec.sections).completed == Stats(rec.sections).total
    {
      assert ValidateForm(form.session) == None;
      assert rec == RecordOf(form.session, equipment);
      CompleteIffAllAnswered(form.session.sections);
    }
  }

  /** A freshly opened or reset form never passes validation: at the least
      its project name is empty. */
  lemma ResetFormIsInvalid(equipment: EquipmentType, today: string, nowTime: string)
    ensures ValidateForm(InitialForm(equipment, today, nowTime).session) == Some(ProjectNameRequired)
  {
  }
}

=== FILE: my_submissions.dfy ===
/**
 * The "My Submissions" view: search, filter and sort over the employee's
 * document submissions and toolbox talks, the two statistics panels, the
 * test that recognises an equipment checklist, and the approval label of an
 * equipment row.
 *
 * `localeCompare` is a comparator parameter: for the category sort only the
 * permutation is stated.
 */
module MySubmissions {
  import opened Wrappers
  import opened Text
  import opened Safety
  import opened ToolboxTalk
  import Seqs
  import AppLayout
  import EquipmentChecklist

  /** The sort selector. */
  datatype SortKey = ByDate | ByStatus | ByCategory

  /** The document listed for an equipment type, whose checklist has no
      stored document. */
  function VirtualDocument(eq: EquipmentChecklist.EquipmentType): (r: SafetyDocument)
    ensures IsEquipmentChecklistId(r.id)
    ensures r.category == AppLayout.EquipmentCategory && r.isRequired && r.renewalDays == Some(1)
  {
    VirtualIdsAreEquipment(eq.id);
    SafetyDocument(AppLayout.VirtualDocId(eq.id), eq.name + " Pre-Use Inspection", eq.description,
                   AppLayout.EquipmentCategory, true, Some(1), [])
  }

  /** The stored documents followed by one virtual document per equipment
      type. */
  function AllDocuments(documents: seq<SafetyDocument>, equipment: seq<EquipmentChecklist.EquipmentType>): (r: seq<SafetyDocument>)
    ensures |r| == |documents| + |equipment|
    ensures r[..|documents|] == documents
    ensures forall k :: 0 <= k < |equipment| ==> r[|documents| + k] == VirtualDocument(equipment[k])
  {
    documents + seq(|equipment|, k requires 0 <= k < |equipment| => VirtualDocument(equipment[k]))
  }

  /** Position `i` holds the first document with that id. */
  predicate FirstWithId(documents: seq<SafetyDocument>, id: string, i: int) {
    0 <= i < |documents| && documents[i].id == id && forall j :: 0 <= j < i ==> documents[j].id != id
  }

  /** `allDocuments.find(d => d.id === submission.document_id)`. */
  function FindDocument(documents: seq<SafetyDocument>, id: string): (r: Option<SafetyDocument>)
    ensures r.Some? ==> r.value in documents && r.value.id == id
    ensures r.None? <==> forall i :: 0 <= i < |documents| ==> documents[i].id != id
    ensures r.Some? ==> exists i :: FirstWithId(documents, id, i) && documents[i] == r.value
  {
    if documents == [] then None
    else if documents[0].id == id then Some(documents[0])
    else
      var rest := FindDocument(documents[1..], id);
      if rest.Some? then
        var i :| FirstWithId(documents[1..], id, i) && documents[1..][i] == rest.value;
        assert documents[i + 1] == rest.value;
        assert forall j :: 1 <= j < i + 1 ==> documents[j] == documents[1..][j - 1];
        assert FirstWithId(documents, id, i + 1);
        rest
      else rest
  }

  /** `(doc?.title || '')` and `(doc?.category || '')`. */
  function TitleOf(doc: Option<SafetyDocument>): string {
    if doc.Some? then doc.value.title else ""
  }

  function CategoryOf(doc: Option<SafetyDocument>): string {
    if doc.Some? then doc.value.category else ""
  }

  /** `text.toLowerCase().includes(query.toLowerCase())`. */
  predicate Mentions(text: string, query: string) {
    Contains(Lower(text), Lower(query))
  }

  /** The search test of one submission: an empty query matches
      everything; otherwise the document title or category, the site or
      the notes mention it. */
  predicate MatchesSearch(documents: seq<SafetyDocument>, query: string, s: DocumentSubmission) {
    var doc := FindDocument(documents, s.documentId);
    query == "" ||
      Mentions(TitleOf(doc), query) || Mentions(CategoryOf(doc), query) ||
      Mentions(s.projectSite, query) || Mentions(s.notes, query)
  }

  /** The status filter; a missing or empty filter lets everything through. */
  predicate MatchesStatus(status: Option<string>, s: DocumentSubmission) {
    !IsActive(status) || s.status == status.value
  }

  /** The category filter compares the category of the submission's
      document, so a submission without a document never passes it. */
  predicate MatchesCategory(documents: seq<SafetyDocument>, category: Option<string>, s: DocumentSubmission) {
    var doc := FindDocument(documents, s.documentId);
    !IsActive(category) || (doc.Some? && doc.value.category == category.value)
  }

  /** All three tests at once. */
  predicate Matches(documents: seq<SafetyDocument>, query: string, status: Option<string>,
                    category: Option<string>, s: DocumentSubmission) {
    MatchesSearch(documents, query, s) && MatchesStatus(status, s) && MatchesCategory(documents, category, s)
  }

  /** The three successive filters of `filteredSubmissions`. */
  function FilterSubmissions(submissions: seq<DocumentSubmission>, documents: seq<SafetyDocument>,
                             query: string, status: Option<string>, category: Option<string>): (r: seq<DocumentSubmission>)
    ensures r == Seqs.Filter(submissions, (s: DocumentSubmission) => Matches(documents, query, status, category, s))
  {
    var searched := Seqs.Filter(submissions, (s: DocumentSubmission) => MatchesSearch(documents, query, s));
    var byStatus := Seqs.Filter(searched, (s: DocumentSubmission) => MatchesStatus(status, s));
    var both := (s: DocumentSubmission) => MatchesSearch(documents, query, s) && MatchesStatus(status, s);
    Seqs.FilterFilter(submissions, (s: DocumentSubmission) => MatchesSearch(documents, query, s),
                      (s: DocumentSubmission) => MatchesStatus(status, s), both);
    Seqs.FilterFilter(submissions, both, (s: DocumentSubmission) => MatchesCategory(documents, category, s),
                      (s: DocumentSubmission) => Matches(documents, query, status, category, s));
    Seqs.Filter(byStatus, (s: DocumentSubmission) => MatchesCategory(documents, category, s))
  }

  /** The status order `{submitted: 0, draft: 1, expired: 2}` read through
      `|| 3`: `0` is falsy, so "submitted" gets 3, like every unknown
      status. */
  function StatusRank(status: string): (r: int)
    ensures r == 1 <==> status == "draft"
    ensures r == 2 <==> status == "expired"
    ensures r == 3 <==> status != "draft" && status != "expired"
    ensures status == "submitted" ==> r == 3
  {
    if status == "draft" then 1 else if status == "expired" then 2 else 3
  }

  /** The newest first: `b.created_at - a.created_at`. */
  function NewestFirst(a: DocumentSubmission, b: DocumentSubmission): int {
    b.createdAt - a.createdAt
  }

  function ByStatusRank(a: DocumentSubmission, b: DocumentSubmission): int {
    StatusRank(a.status) - StatusRank(b.status)
  }

  /** The sort of `filteredSubmissions`; `localeCompare` orders the
      category sort. */
  function SortSubmissions(filtered: seq<DocumentSubmission>, key: SortKey, documents: seq<SafetyDocument>,
                           localeCompare: (string, string) -> int): (r: seq<DocumentSubmission>)
    ensures multiset(r) == multiset(filtered)
    ensures key == ByDate ==> Seqs.SortedByRank(r, (s: DocumentSubmission) => -s.createdAt)
    ensures key == ByStatus ==> Seqs.SortedByRank(r, (s: DocumentSubmission) => StatusRank(s.status))
  {
    match key
    case ByDate =>
      Seqs.SortByRankSorted(filtered, NewestFirst, (s: DocumentSubmission) => -s.createdAt);
      Seqs.SortBy(filtered, NewestFirst)
    case ByStatus =>
      Seqs.SortByRankSorted(filtered, ByStatusRank, (s: DocumentSubmission) => StatusRank(s.status));
      Seqs.SortBy(filtered, ByStatusRank)
    case ByCategory =>
      Seqs.SortBy(filtered, (a: DocumentSubmission, b: DocumentSubmission) =>
        localeCompare(CategoryOf(FindDocument(documents, a.documentId)),
                      CategoryOf(FindDocument(documents, b.documentId))))
  }

  /** `filteredSubmissions`: exactly the matching submissions, each as
      often as in the input, in the selected order. */
  function FilteredSubmissions(submissions: seq<DocumentSubmission>, documents: seq<SafetyDocument>,
                               query: string, status: Option<string>, category: Option<string>,
                               key: SortKey, localeCompare: (string, string) -> int): (r: seq<DocumentSubmission>)
    ensures forall s :: s in r <==> s in submissions && Matches(documents, query, status, category, s)
    ensures forall s :: multiset(r)[s] ==
                         (if Matches(documents, query, status, category, s) then multiset(submissions)[s] else 0)
    ensures key == ByDate ==> Seqs.SortedByRank(r, (s: DocumentSubmission) => -s.createdAt)
    ensures key == ByStatus ==> Seqs.SortedByRank(r, (s: DocumentSubmission) => StatusRank(s.status))
  {
    var kept := FilterSubmissions(submissions, documents, query, status, category);
    Seqs.FilterMembers(submissions, (s: DocumentSubmission) => Matches(documents, query, status, category, s));
    Seqs.FilterMultiset(submissions, (s: DocumentSubmission) => Matches(documents, query, status, category, s));
    var r := SortSubmissions(kept, key, documents, localeCompare);
    Seqs.PermutationMembers(r, kept);
    r
  }

  /** An empty query and no filters keep every submission. */
  lemma NoFiltersKeepAll(submissions: seq<DocumentSubmission>, documents: seq<SafetyDocument>,
                         key: SortKey, localeCompare: (string, string) -> int)
    ensures multiset(FilteredSubmissions(submissions, documents, "", None, None, key, localeCompare)) ==
            multiset(submissions)
  {
    var p := (s: DocumentSubmission) => Matches(documents, "", None, None, s);
    Seqs.FilterAll(submissions, p);
  }

  // ---- Toolbox talks ----

  /** The toolbox search: title, category, site or presenter. */
  predicate TalkMatches(query: string, status: Option<string>, t: TalkRecord) {
    && (query == "" ||
        Mentions(t.talk.title, query) || Mentions(t.talk.category, query) ||
        Mentions(OrEmpty(t.projectSite), query) || Mentions(t.presenterName, query))
    && (!IsActive(status) || StatusName(t.status) == status.value)
  }

  function NewestTalkFirst(a: TalkRecord, b: TalkRecord): int {
    b.createdAt - a.createdAt
  }

  /** `filteredToolboxTalks`: the matching talks, newest first. */
  function FilteredTalks(talks: seq<TalkRecord>, query: string, status: Option<string>): (r: seq<TalkRecord>)
    ensures forall t :: t in r <==> t in talks && TalkMatches(query, status, t)
    ensures forall t :: multiset(r)[t] == if TalkMatches(query, status, t) then multiset(talks)[t] else 0
    ensures Seqs.SortedByRank(r, (t: TalkRecord) => -t.createdAt)
  {
    var matches := (t: TalkRecord) => TalkMatches(query, status, t);
    var p := Seqs.Filter(talks, matches);
    Seqs.FilterMembers(talks, matches);
    Seqs.FilterMultiset(talks, matches);
    Seqs.SortByRankSorted(p, NewestTalkFirst, (t: TalkRecord) => -t.createdAt);
    var r := Seqs.SortBy(p, NewestTalkFirst);
    Seqs.PermutationMembers(r, p);
    r
  }

  /** An empty query and no status filter list every talk, newest first. */
  lemma NoTalkFiltersKeepAll(talks: seq<TalkRecord>)
    ensures multiset(FilteredTalks(talks, "", None)) == multiset(talks)
  {
    var r := FilteredTalks(talks, "", None);
    assert forall t :: multiset(r)[t] == multiset(talks)[t];
  }

  // ---- Statistics ----

  datatype SubmissionStats = SubmissionStats(total: nat, submitted: nat, drafts: nat, expiring: nat)

  /** `stats`. */
  function Stats(submissions: seq<DocumentSubmission>, now: int): (r: SubmissionStats)
    ensures r.total == |submissions|
    ensures r.submitted == Seqs.Count(submissions, (s: DocumentSubmission) => s.status == "submitted")
    ensures r.drafts == Seqs.Count(submissions, (s: DocumentSubmission) => s.status == "draft")
    ensures r.expiring == CountExpiring(submissions, now)
    ensures r.submitted + r.drafts <= r.total
  {
    Seqs.CountDisjoint(submissions, (s: DocumentSubmission) => s.status == "submitted",
                       (s: DocumentSubmission) => s.status == "draft",
                       (s: DocumentSubmission) => s.status == "submitted" || s.status == "draft");
    SubmissionStats(|submissions|,
                    Seqs.Count(submissions, (s: DocumentSubmission) => s.status == "submitted"),
                    Seqs.Count(submissions, (s: DocumentSubmission) => s.status == "draft"),
                    CountExpiring(submissions, now))
  }

  datatype ToolboxStats = ToolboxStats(total: nat, submitted: nat, pending: nat, completed: nat)

  predicate IsOpen(t: TalkRecord) {
    StatusName(t.status) == "pending" || StatusName(t.status) == "in_progress"
  }

  /** `toolboxStats`; "pending" counts both open statuses. */
  function TalkStats(talks: seq<TalkRecord>): (r: ToolboxStats)
    ensures r.total == |talks|
    ensures r.submitted == Seqs.Count(talks, (t: TalkRecord) => StatusName(t.status) == "submitted")
    ensures r.pending == Seqs.Count(talks, IsOpen)
    ensures r.completed == Seqs.Count(talks, (t: TalkRecord) => StatusName(t.status) == "completed")
  {
    ToolboxStats(|talks|,
                 Seqs.Count(talks, (t: TalkRecord) => StatusName(t.status) == "submitted"),
                 Seqs.Count(talks, IsOpen),
                 Seqs.Count(talks, (t: TalkRecord) => StatusName(t.status) == "completed"))
  }

  /** Every record holds one of the four statuses, so the three figures
      add up to the total. */
  lemma TalkStatsAddUp(talks: seq<TalkRecord>)
    ensures var r := TalkStats(talks); r.submitted + r.pending + r.completed == r.total
  {
    var sub := (t: TalkRecord) => StatusName(t.status) == "submitted";
    var comp := (t: TalkRecord) => StatusName(t.status) == "completed";
    var closed := (t: TalkRecord) => sub(t) || comp(t);
    var any := (t: TalkRecord) => closed(t) || IsOpen(t);
    forall t: TalkRecord
      ensures !(sub(t) && comp(t)) && !(closed(t) && IsOpen(t)) && any(t)
    {
      StatusNameInjective(t.status, Submitted);
      StatusNameInjective(t.status, Completed);
    }
    Seqs.CountDisjoint(talks, sub, comp, closed);
    Seqs.CountDisjoint(talks, closed, IsOpen, any);
    Seqs.FilterAll(talks, any);
  }

  /** "Sign" is offered on the open talks, "View" on the others. */
  function TalkAction(t: TalkRecord): (r: string)
    ensures r == "Sign" <==> t.status == Pending || t.status == InProgress
    ensures r == "View" <==> t.status == Completed || t.status == Submitted
  {
    if IsOpen(t) then "Sign" else "View"
  }

  // ---- Equipment rows ----

  /** `isEquipmentChecklist` on a document id. */
  predicate IsEquipmentChecklistId(documentId: string) {
    StartsWith(documentId, AppLayout.EquipmentPrefix)
  }

  /** Exactly the ids the shell and this view build for equipment types
      are recognised. */
  lemma VirtualIdsAreEquipment(equipmentId: string)
    ensures IsEquipmentChecklistId(AppLayout.VirtualDocId(equipmentId))
  {
  }

  lemma EquipmentIdsAreVirtual(documentId: string)
    requires IsEquipmentChecklistId(documentId)
    ensures documentId == AppLayout.VirtualDocId(documentId[|AppLayout.EquipmentPrefix|..])
  {
  }

  /** Every row the equipment submit inserts is recognised as an equipment
      checklist. */
  lemma EquipmentRowsRecognised(employee: Employee, data: EquipmentChecklist.Submission, now: int)
    ensures IsEquipmentChecklistId(AppLayout.EquipmentSubmitRow(Some(employee), data, now).value.documentId)
  {
    VirtualIdsAreEquipment(data.equipmentType);
  }

  /** The label test `notes?.includes('APPROVED')`. */
  predicate ShowsApproved(notes: string) {
    Contains(notes, "APPROVED")
  }

  /** "NOT APPROVED" includes "APPROVED": every equipment row the shell
      writes is labelled approved, whatever the inspector decided. */
  lemma EveryEquipmentRowShowsApproved(equipmentName: string, approvedForUse: Option<bool>)
    ensures ShowsApproved(AppLayout.ApprovalNote(equipmentName, approvedForUse))
  {
    var head := equipmentName + " Pre-Use Inspection - ";
    if approvedForUse == Some(true) {
      ContainsSuffix(head, "APPROVED");
    } else {
      assert AppLayout.ApprovalNote(equipmentName, approvedForUse) == (head + "NOT ") + "APPROVED";
      ContainsSuffix(head + "NOT ", "APPROVED");
    }
  }

  /** A rejected inspection is labelled approved. */
  lemma RejectedInspectionShownApproved()
    ensures ShowsApproved(AppLayout.ApprovalNote("Scissor Lift", Some(false)))
    ensures AppLayout.ApprovalNote("Scissor Lift", Some(false)) !=
            AppLayout.ApprovalNote("Scissor Lift", Some(true))
  {
    EveryEquipmentRowShowsApproved("Scissor Lift", Some(false));
  }

  /** The label as intended: the note ends with the approving verdict. */
  predicate ShowsApprovedIntended(notes: string) {
    EndsWith(notes, " - APPROVED")
  }

  /** The intended label reads back exactly the inspector's decision. */
  lemma IntendedLabelMatchesApproval(equipmentName: string, approvedForUse: Option<bool>)
    ensures ShowsApprovedIntended(AppLayout.ApprovalNote(equipmentName, approvedForUse)) <==>
            approvedForUse == Some(true)
  {
    var note := AppLayout.ApprovalNote(equipmentName, approvedForUse);
    var head := equipmentName + " Pre-Use Inspection";
    if approvedForUse == Some(true) {
      assert note == head + " - APPROVED";
    } else {
      var tail := " - NOT APPROVED";
      assert note == head + tail;
      assert note[|note| - 11] == tail[4] == 'O';
    }
  }

  // ---- Findings: the status order ----

  /** The status order as evidently intended: `?? 3`, so submissions come
      first, then drafts, then expired ones, then the rest. */
  function IntendedStatusRank(status: string): (r: int)
    ensures r == 0 <==> status == "submitted"
    ensures r == 1 <==> status == "draft"
    ensures r == 2 <==> status == "expired"
    ensures 0 <= r <= 3
  {
    if status == "submitted" then 0 else if status == "draft" then 1 else if status == "expired" then 2 else 3
  }

  function ByIntendedRank(a: DocumentSubmission, b: DocumentSubmission): int {
    IntendedStatusRank(a.status) - IntendedStatusRank(b.status)
  }

  /** As written, the status sort never puts a submitted entry before a
      draft or an expired one. */
  lemma SubmittedSortsLast(filtered: seq<DocumentSubmission>, documents: seq<SafetyDocument>,
                           localeCompare: (string, string) -> int, i: nat, j: nat)
    requires var r := SortSubmissions(filtered, ByStatus, documents, localeCompare);
      i < |r| && j < |r| && r[i].status == "submitted" && (r[j].status == "draft" || r[j].status == "expired")
    ensures j < i
  {
    var r := SortSubmissions(filtered, ByStatus, documents, localeCompare);
    assert StatusRank(r[i].status) == 3 && StatusRank(r[j].status) < 3;
  }

  /** With the intended order, the status sort lists every submitted entry
      before every draft and expired one. */
  lemma IntendedSortPutsSubmittedFirst(filtered: seq<DocumentSubmission>, i: nat, j: nat)
    requires var r := Seqs.SortBy(filtered, ByIntendedRank);
      i < |r| && j < |r| && r[i].status == "submitted" && (r[j].status == "draft" || r[j].status == "expired")
    ensures i < j
  {
    Seqs.SortByRankSorted(filtered, ByIntendedRank, (s: DocumentSubmission) => IntendedStatusRank(s.status));
    var r := Seqs.SortBy(filtered, ByIntendedRank);
    assert IntendedStatusRank(r[i].status) == 0 && IntendedStatusRank(r[j].status) > 0;
  }
}

=== FILE: safety.dfy ===
/**
 * The application's records (documents, submissions, employees, form values)
 * and the "expiring soon" rule that the submissions list, the team view and
 * the dashboard all apply.
 *
 * Instants are integer milliseconds since the epoch. Optional text fields
 * hold `""` when absent: every consumer reads them through `|| ''` or
 * `filter(Boolean)`, which treat `undefined` and `''` alike.
 */
module Safety {
  import opened Wrappers
  import Seqs

  /** A value entered into a generic form field. */
  datatype FieldValue =
    | Absent
    | Str(s: string)
    | Num(n: int)
    | Flag(b: bool)
    | List(items: seq<string>)

  /** JavaScript truthiness of a form value (`NaN` is not modelled). */
  predicate Truthy(v: FieldValue) {
    match v
    case Absent => false
    case Str(s) => s != ""
    case Num(n) => n != 0
    case Flag(b) => b
    case List(_) => true
  }

  /** A field of a document's form definition. */
  datatype FormField = FormField(name: string, caption: string, fieldType: string, required: bool,
                                 options: seq<string>)

  /** A safety document (form template). `renewalDays == None` is a missing
      renewal period. */
  datatype SafetyDocument = SafetyDocument(
    id: string, title: string, description: string, category: string,
    isRequired: bool, renewalDays: Option<int>, formFields: seq<FormField>)

  /** A filled-in document. */
  datatype DocumentSubmission = DocumentSubmission(
    id: string, documentId: string, employeeId: string, formData: map<string, FieldValue>,
    signature: string, status: string, submittedAt: Option<int>, expiresAt: Option<int>,
    projectSite: string, notes: string, createdAt: int)

  datatype Employee = Employee(id: string, name: string, email: string, role: string, department: string)

  /** Milliseconds in a day. */
  const DayMs: int := 1000 * 60 * 60 * 24

  /** `Math.ceil(ms / DayMs)`. */
  function CeilDays(ms: int): (r: int)
    ensures (r - 1) * DayMs < ms <= r * DayMs
  {
    -((-ms) / DayMs)
  }

  /** The number of required documents, which the dashboard and the team
      view both set against submitted counts. */
  function RequiredCount(documents: seq<SafetyDocument>): (n: nat)
    ensures n <= |documents|
  {
    Seqs.Count(documents, (d: SafetyDocument) => d.isRequired)
  }

  /** The dashboard's, team view's and submission list's test: the
      submission has an expiry whose whole-day distance from `now`, rounded
      up, is between 1 and 7. */
  predicate ExpiringSoon(s: DocumentSubmission, now: int) {
    s.expiresAt.Some? && 0 < CeilDays(s.expiresAt.value - now) <= 7
  }

  /** The day-rounded test is the plain window "later than now, at most seven
      days away". */
  lemma ExpiringSoonWindow(s: DocumentSubmission, now: int)
    ensures ExpiringSoon(s, now) <==>
      s.expiresAt.Some? && now < s.expiresAt.value <= now + 7 * DayMs
  {
    if s.expiresAt.Some? {
      var d := s.expiresAt.value - now;
      var r := CeilDays(d);
      if 0 < r <= 7 {
        assert d <= r * DayMs <= 7 * DayMs;
      }
      if 0 < d <= 7 * DayMs {
        assert (r - 1) * DayMs < 7 * DayMs;
        assert r - 1 < 7;
      }
    }
  }

  /** The number of expiring submissions. */
  function CountExpiring(subs: seq<DocumentSubmission>, now: int): (n: nat)
    ensures n <= |subs|
    ensures n == 0 <==> forall i :: 0 <= i < |subs| ==> !ExpiringSoon(subs[i], now)
  {
    Seqs.CountZero(subs, (s: DocumentSubmission) => ExpiringSoon(s, now));
    Seqs.Count(subs, (s: DocumentSubmission) => ExpiringSoon(s, now))
  }
}

=== FILE: seqs.dfy ===
/**
 * Array operations the components use over immutable lists: `filter`,
 * counting through `filter(...).length`, `new Set(...)` de-duplication,
 * a stable `sort` driven by a comparator, and `slice(0, n)`.
 */
module Seqs {

  /** `xs` can be obtained from `ys` by deleting elements, keeping order. */
  ghost predicate IsSubsequence<T>(xs: seq<T>, ys: seq<T>)
    decreases |ys|
  {
    if xs == [] then true
    else if ys == [] then false
    else if xs[0] == ys[0] then IsSubsequence(xs[1..], ys[1..])
    else IsSubsequence(xs, ys[1..])
  }

  /** `Array.prototype.filter`. */
  function Filter<T>(s: seq<T>, keep: T -> bool): (r: seq<T>)
    ensures |r| <= |s|
    ensures forall i :: 0 <= i < |r| ==> r[i] in s && keep(r[i])
    ensures forall i :: 0 <= i < |s| && keep(s[i]) ==> s[i] in r
  {
    if s == [] then []
    else if keep(s[0]) then [s[0]] + Filter(s[1..], keep)
    else Filter(s[1..], keep)
  }

  /** Filtering deletes elements and keeps the order of the rest. */
  lemma {:induction false} FilterSubsequence<T>(s: seq<T>, keep: T -> bool)
    ensures IsSubsequence(Filter(s, keep), s)
  {
    if s != [] {
      FilterSubsequence(s[1..], keep);
      var rest := Filter(s[1..], keep);
      if keep(s[0]) {
        assert ([s[0]] + rest)[1..] == rest;
      } else if rest != [] {
        SubsequenceSkip(rest, s);
      }
    }
  }

  /** A subsequence of the tail is a subsequence of the whole list. */
  lemma {:induction false} SubsequenceSkip<T>(xs: seq<T>, ys: seq<T>)
    requires ys != [] && IsSubsequence(xs, ys[1..])
    ensures IsSubsequence(xs, ys)
    decreases |ys|, 0
  {
    if xs != [] && xs[0] == ys[0] {
      SubsequenceDropHead(xs, ys[1..]);
    }
  }

  /** Dropping the first element keeps a subsequence. */
  lemma {:induction false} SubsequenceDropHead<T>(xs: seq<T>, zs: seq<T>)
    requires xs != [] && IsSubsequence(xs, zs)
    ensures IsSubsequence(xs[1..], zs)
    decreases |zs|, 1
  {
    if xs[0] == zs[0] {
      SubsequenceSkip(xs[1..], zs);
    } else {
      SubsequenceDropHead(xs, zs[1..]);
      SubsequenceSkip(xs[1..], zs);
    }
  }

  /** Filtering keeps every passing element exactly as often as it occurs,
      and no other element. */
  lemma {:induction false} FilterMultiset<T>(s: seq<T>, keep: T -> bool)
    ensures forall x :: multiset(Filter(s, keep))[x] == if keep(x) then multiset(s)[x] else 0
    ensures multiset(Filter(s, keep)) <= multiset(s)
  {
    if s != [] {
      FilterMultiset(s[1..], keep);
      var rest := Filter(s[1..], keep);
      assert s == [s[0]] + s[1..];
      assert multiset(s) == multiset{s[0]} + multiset(s[1..]);
      if keep(s[0]) {
        assert Filter(s, keep) == [s[0]] + rest;
        assert multiset([s[0]] + rest) == multiset{s[0]} + multiset(rest);
      } else {
        assert Filter(s, keep) == rest;
      }
    }
  }

  /** An element is kept exactly when it occurs and passes. */
  lemma FilterMembers<T>(s: seq<T>, keep: T -> bool)
    ensures forall x :: x in Filter(s, keep) <==> x in s && keep(x)
  {
    var r := Filter(s, keep);
    forall x | x in r
      ensures x in s && keep(x)
    {
      var i :| 0 <= i < |r| && r[i] == x;
    }
    forall x | x in s && keep(x)
      ensures x in r
    {
      var i :| 0 <= i < |s| && s[i] == x;
    }
  }

  /** Permutations have the same elements. */
  lemma PermutationMembers<T>(a: seq<T>, b: seq<T>)
    requires multiset(a) == multiset(b)
    ensures forall x :: x in a <==> x in b
  {
    forall x
      ensures x in a <==> x in b
    {
      assert x in a <==> x in multiset(a);
      assert x in b <==> x in multiset(b);
    }
  }

  /** Filtering keeps every element that passes, so a predicate that always
      holds keeps the whole list. */
  lemma {:induction false} FilterAll<T>(s: seq<T>, keep: T -> bool)
    requires forall x :: x in s ==> keep(x)
    ensures Filter(s, keep) == s
  {
    if s != [] {
      FilterAll(s[1..], keep);
    }
  }

  /** Two successive filters are one filter by the conjunction. */
  lemma {:induction false} FilterFilter<T>(s: seq<T>, p: T -> bool, q: T -> bool, both: T -> bool)
    requires forall x :: both(x) == (p(x) && q(x))
    ensures Filter(Filter(s, p), q) == Filter(s, both)
  {
    if s != [] {
      FilterFilter(s[1..], p, q, both);
      if p(s[0]) {
        assert Filter(s, p)[1..] == Filter(s[1..], p);
      }
    }
  }

  /** Filters by pointwise-equal predicates agree. */
  lemma {:induction false} FilterExt<T>(s: seq<T>, p: T -> bool, q: T -> bool)
    requires forall x :: x in s ==> p(x) == q(x)
    ensures Filter(s, p) == Filter(s, q)
  {
    if s != [] {
      FilterExt(s[1..], p, q);
    }
  }

  /** Filtering distributes over concatenation. */
  lemma {:induction false} FilterConcat<T>(a: seq<T>, b: seq<T>, keep: T -> bool)
    ensures Filter(a + b, keep) == Filter(a, keep) + Filter(b, keep)
  {
    if a == [] {
      assert a + b == b;
    } else {
      assert (a + b)[1..] == a[1..] + b;
      FilterConcat(a[1..], b, keep);
    }
  }

  /** `xs.filter(keep).length`. */
  function Count<T>(s: seq<T>, keep: T -> bool): (n: nat)
    ensures n <= |s|
  {
    |Filter(s, keep)|
  }

  /** Nothing is counted exactly when no element passes. */
  lemma CountZero<T>(s: seq<T>, keep: T -> bool)
    ensures Count(s, keep) == 0 <==> forall i :: 0 <= i < |s| ==> !keep(s[i])
  {
    var r := Filter(s, keep);
    assert r != [] ==> r[0] in s && keep(r[0]);
  }

  /** Counting distributes over concatenation. */
  lemma CountConcat<T>(a: seq<T>, b: seq<T>, keep: T -> bool)
    ensures Count(a + b, keep) == Count(a, keep) + Count(b, keep)
  {
    FilterConcat(a, b, keep);
  }

  /** Elements kept by disjoint predicates are counted apart, so the counts
      add up to the count by the disjunction. */
  lemma {:induction false} CountDisjoint<T>(s: seq<T>, p: T -> bool, q: T -> bool, either: T -> bool)
    requires forall x :: !(p(x) && q(x))
    requires forall x :: either(x) == (p(x) || q(x))
    ensures Count(s, p) + Count(s, q) == Count(s, either)
  {
    if s != [] {
      CountDisjoint(s[1..], p, q, either);
    }
  }

  /** No element occurs twice. */
  predicate NoDuplicates<T(==)>(s: seq<T>) {
    forall i, j :: 0 <= i < j < |s| ==> s[i] != s[j]
  }

  /** The distinct elements of `s` in order of first occurrence, as
      `Array.from(new Set(s))` yields them. */
  function Distinct<T(==,!new)>(s: seq<T>): (r: seq<T>)
    ensures forall x :: x in r <==> x in s
    ensures NoDuplicates(r)
  {
    DistinctFrom(s, [])
  }

  function DistinctFrom<T(==,!new)>(s: seq<T>, seen: seq<T>): (r: seq<T>)
    requires NoDuplicates(seen)
    ensures forall x :: x in r <==> x in seen || x in s
    ensures NoDuplicates(r)
    ensures |seen| <= |r|
    ensures r[..|seen|] == seen
  {
    if s == [] then seen
    else if s[0] in seen then DistinctFrom(s[1..], seen)
    else DistinctFrom(s[1..], seen + [s[0]])
  }

  /** In a list without duplicates every element occurs at most once. */
  lemma {:induction false} NoDuplicatesCount<T>(s: seq<T>, x: T)
    requires NoDuplicates(s)
    ensures multiset(s)[x] <= 1
  {
    if s != [] {
      assert s == [s[0]] + s[1..];
      assert NoDuplicates(s[1..]) by {
        forall i, j | 0 <= i < j < |s[1..]|
          ensures s[1..][i] != s[1..][j]
        {
          assert s[1..][i] == s[i + 1] && s[1..][j] == s[j + 1];
        }
      }
      NoDuplicatesCount(s[1..], x);
      if x == s[0] {
        assert x !in s[1..];
      }
    }
  }

  /** A permutation of a duplicate-free list is duplicate-free. */
  lemma PermutationKeepsDistinct<T>(s: seq<T>, r: seq<T>)
    requires multiset(r) == multiset(s) && NoDuplicates(s)
    ensures NoDuplicates(r)
  {
    forall i, j | 0 <= i < j < |r|
      ensures r[i] != r[j]
    {
      if r[i] == r[j] {
        assert r == r[..j] + r[j..];
        assert r[i] in r[..j] && r[j] in r[j..];
        assert multiset(r)[r[i]] == multiset(r[..j])[r[i]] + multiset(r[j..])[r[i]];
        NoDuplicatesCount(s, r[i]);
        assert false;
      }
    }
  }

  /** Inserts `x` before the first element that the comparator puts after it. */
  function Insert<T>(x: T, s: seq<T>, cmp: (T, T) -> int): (r: seq<T>)
    ensures multiset(r) == multiset(s) + multiset{x}
    ensures |r| == |s| + 1
  {
    if s == [] then [x]
    else if cmp(x, s[0]) <= 0 then [x] + s
    else
      assert s == [s[0]] + s[1..];
      [s[0]] + Insert(x, s[1..], cmp)
  }

  /** A stable sort with a JavaScript-style comparator (negative: first
      argument first). The result is a permutation of the input. */
  function SortBy<T>(s: seq<T>, cmp: (T, T) -> int): (r: seq<T>)
    ensures multiset(r) == multiset(s)
    ensures |r| == |s|
  {
    if s == [] then []
    else
      assert s == [s[0]] + s[1..];
      Insert(s[0], SortBy(s[1..], cmp), cmp)
  }

  /** `Array.from(new Set(s)).sort(cmp)`: each element once, in comparator
      order. */
  function SortedDistinct<T(==,!new)>(s: seq<T>, cmp: (T, T) -> int): (r: seq<T>)
    ensures forall x :: x in r <==> x in s
    ensures NoDuplicates(r)
  {
    var d := Distinct(s);
    var r := SortBy(d, cmp);
    PermutationKeepsDistinct(d, r);
    assert forall x :: x in r <==> x in multiset(d);
    r
  }

  /** `s` is ordered by `rank`, smallest first. */
  ghost predicate SortedByRank<T>(s: seq<T>, rank: T -> int) {
    forall i, j :: 0 <= i < j < |s| ==> rank(s[i]) <= rank(s[j])
  }

  /** In a list ordered by rank, an element left out of a prefix (or kept
      there fewer times than it occurs) ranks no lower than the prefix's
      last element. */
  lemma PrefixHoldsLowestRanks<T>(s: seq<T>, rank: T -> int, k: nat, x: T)
    requires SortedByRank(s, rank)
    requires k <= |s| && multiset(s[..k])[x] < multiset(s)[x]
    ensures 0 < k ==> rank(s[k - 1]) <= rank(x)
  {
    assert s == s[..k] + s[k..];
    assert multiset(s) == multiset(s[..k]) + multiset(s[k..]);
    assert x in multiset(s[k..]);
    var j :| 0 <= j < |s[k..]| && s[k..][j] == x;
    assert s[k + j] == x;
  }

  /** In a list ordered by rank, a smaller rank comes first. */
  lemma RankOrdersPositions<T>(s: seq<T>, rank: T -> int, i: nat, j: nat)
    requires SortedByRank(s, rank)
    requires i < |s| && j < |s| && rank(s[i]) < rank(s[j])
    ensures i < j
  {
  }

  lemma {:induction false} InsertSorted<T>(x: T, s: seq<T>, cmp: (T, T) -> int, rank: T -> int)
    requires forall a, b :: cmp(a, b) == rank(a) - rank(b)
    requires SortedByRank(s, rank)
    ensures SortedByRank(Insert(x, s, cmp), rank)
  {
    if s == [] {
    } else if cmp(x, s[0]) <= 0 {
      ConsSorted(x, s, rank);
    } else {
      var rest := s[1..];
      assert SortedByRank(rest, rank) by {
        forall i, j | 0 <= i < j < |rest|
          ensures rank(rest[i]) <= rank(rest[j])
        {
          assert rest[i] == s[i + 1] && rest[j] == s[j + 1];
        }
      }
      InsertSorted(x, rest, cmp, rank);
      var tail := Insert(x, rest, cmp);
      forall k | 0 <= k < |tail|
        ensures rank(s[0]) <= rank(tail[k])
      {
        assert tail[k] in multiset(rest) + multiset{x};
        if tail[k] != x {
          assert tail[k] in multiset(rest);
          var j :| 0 <= j < |rest| && rest[j] == tail[k];
          assert rest[j] == s[j + 1];
        }
      }
      ConsSorted(s[0], tail, rank);
    }
  }

  /** A head ranked no higher than every later element keeps the order. */
  lemma ConsSorted<T>(h: T, t: seq<T>, rank: T -> int)
    requires SortedByRank(t, rank)
    requires t != [] ==> rank(h) <= rank(t[0])
    ensures SortedByRank([h] + t, rank)
  {
    var s := [h] + t;
    forall i, j | 0 <= i < j < |s|
      ensures rank(s[i]) <= rank(s[j])
    {
      assert s[j] == t[j - 1];
      if i == 0 {
        assert rank(t[0]) <= rank(t[j - 1]) || j == 1;
      } else {
        assert s[i] == t[i - 1];
      }
    }
  }

  /** When the comparator subtracts ranks, as `(a, b) => a.t - b.t` does,
      the sort orders by rank. */
  lemma {:induction false} SortByRankSorted<T>(s: seq<T>, cmp: (T, T) -> int, rank: T -> int)
    requires forall a, b :: cmp(a, b) == rank(a) - rank(b)
    ensures SortedByRank(SortBy(s, cmp), rank)
  {
    if s != [] {
      SortByRankSorted(s[1..], cmp, rank);
      InsertSorted(s[0], SortBy(s[1..], cmp), cmp, rank);
    }
  }

  /** `s.slice(0, n)`. */
  function Take<T>(s: seq<T>, n: nat): (r: seq<T>)
    ensures |r| == if n < |s| then n else |s|
    ensures r == s[..|r|]
  {
    if n < |s| then s[..n] else s
  }
}

=== FILE: swing_stage.dfy ===
/**
 * The swing-stage (suspended scaffold) pre-use checklist: a fixed definition
 * of ten sections and seventy-seven items, the same status and notes
 * reducers as the equipment form, and the reset button. The form has no
 * validator and no submission.
 */
module SwingStage {
  import opened Wrappers
  import opened Checklist

  /** The swing-stage specific project fields. */
  const DetailKeys: set<string> := {"swingStageId", "manufacturer", "modelNumber", "maxCapacity", "lastInspectionDate"}

  /** The part of the definition a session is built from: a section's id
      and the ids of its items. */
  datatype SectionLayout = SectionLayout(id: string, itemIds: seq<string>)

  /** The part the form only displays: a section's title and the texts of
      its items. */
  datatype SectionLabels = SectionLabels(title: string, texts: seq<string>)

  /** The sections in the order the form lists them. */
  const Layout: seq<SectionLayout> := [
    SectionLayout("pre-use", PreUseIds),
    SectionLayout("rigging", RiggingIds),
    SectionLayout("platform", PlatformIds),
    SectionLayout("guardrails", GuardrailsIds),
    SectionLayout("hoisting", HoistingIds),
    SectionLayout("electrical", ElectricalIds),
    SectionLayout("ppe", PpeIds),
    SectionLayout("weather", WeatherIds),
    SectionLayout("site", SiteIds),
    SectionLayout("operational", OperationalIds)
  ]

  const PreUseIds: seq<string> := ["pre-1", "pre-2", "pre-3", "pre-4", "pre-5", "pre-6", "pre-7", "pre-8"]
  const RiggingIds: seq<string> := ["rig-1", "rig-2", "rig-3", "rig-4", "rig-5", "rig-6", "rig-7", "rig-8", "rig-9", "rig-10"]
  const PlatformIds: seq<string> := ["plat-1", "plat-2", "plat-3", "plat-4", "plat-5", "plat-6", "plat-7"]
  const GuardrailsIds: seq<string> := ["guard-1", "guard-2", "guard-3", "guard-4", "guard-5", "guard-6", "guard-7", "guard-8"]
  const HoistingIds: seq<string> := ["hoist-1", "hoist-2", "hoist-3", "hoist-4", "hoist-5", "hoist-6", "hoist-7", "hoist-8", "hoist-9"]
  const ElectricalIds: seq<string> := ["elec-1", "elec-2", "elec-3", "elec-4", "elec-5", "elec-6", "elec-7"]
  const PpeIds: seq<string> := ["ppe-1", "ppe-2", "ppe-3", "ppe-4", "ppe-5", "ppe-6", "ppe-7", "ppe-8"]
  const WeatherIds: seq<string> := ["weath-1", "weath-2", "weath-3", "weath-4", "weath-5", "weath-6"]
  const SiteIds: seq<string> := ["site-1", "site-2", "site-3", "site-4", "site-5", "site-6", "site-7"]
  const OperationalIds: seq<string> := ["op-1", "op-2", "op-3", "op-4", "op-5", "op-6", "op-7"]

  /** Titles and item texts, position by position with `Layout`. */
  const Labels: seq<SectionLabels> :=
    [PreUseLabels, RiggingLabels, PlatformLabels, GuardrailsLabels, HoistingLabels,
     ElectricalLabels, PpeLabels, WeatherLabels, SiteLabels, OperationalLabels]

  const PreUseLabels: SectionLabels := SectionLabels("1. Pre-Use Documentation & Qualifications", [
    "Valid swing stage operator certification on file",
    "Fall protection training completed and documented",
    "Equipment inspection log reviewed",
    "Manufacturer's operating manual available on site",
    "Engineering drawings/specifications available (if required)",
    "Rescue plan documented and communicated",
    "Workers briefed on emergency procedures",
    "Site-specific hazard assessment completed"
  ])

  const RiggingLabels: SectionLabels := SectionLabels("2. Rigging & Suspension System", [
    "Roof rigging/outriggers properly installed and secured",
    "Counterweights adequate and properly secured",
    "Parapet clamps/tie-backs properly installed",
    "Roof anchors inspected and certified",
    "Wire ropes free of kinks, bird caging, or broken strands",
    "Wire rope clips properly installed (U-bolt on dead end)",
    "Thimbles installed at all connection points",
    "Secondary/safety wire ropes in place",
    "All shackles, hooks, and hardware in good condition",
    "Load capacity clearly marked and not exceeded"
  ])

  const PlatformLabels: SectionLabels := SectionLabels("3. Platform/Deck Inspection", [
    "Platform deck in good condition (no cracks, holes, rot)",
    "Platform level and properly aligned",
    "All platform sections securely connected",
    "Stirrups/hangers properly attached to platform",
    "No excessive debris or materials on platform",
    "Platform width adequate for work being performed",
    "End gates/access points secure"
  ])

  const GuardrailsLabels: SectionLabels := SectionLabels("4. Guardrails & Fall Protection", [
    "Top rail at 1.0m - 1.1m (39\" - 42\") height",
    "Mid rail installed at approximately half height",
    "Toeboards minimum 100mm (4\") height installed",
    "All guardrail connections secure",
    "Guardrails on all open sides of platform",
    "Independent lifelines properly installed",
    "Lifeline anchors rated for fall arrest loads",
    "Rope grabs/fall arresters functioning properly"
  ])

  const HoistingLabels: SectionLabels := SectionLabels("5. Hoisting Equipment", [
    "Hoists securely mounted to stirrups",
    "Hoist motors in good working condition",
    "Primary brake functioning properly",
    "Secondary/emergency brake functioning",
    "Upper and lower limit switches operational",
    "Control switches clearly labeled and functional",
    "Emergency stop button accessible and working",
    "Hoist rated capacity clearly marked",
    "Hoists synchronized for level operation"
  ])

  const ElectricalLabels: SectionLabels := SectionLabels("6. Electrical Systems", [
    "Power supply adequate for equipment load",
    "GFCI protection in place",
    "Power cables in good condition (no cuts, fraying)",
    "Cables properly secured and protected",
    "Electrical connections weatherproof",
    "Minimum clearance from power lines maintained",
    "Control pendant in good condition"
  ])

  const PpeLabels: SectionLabels := SectionLabels("7. Personal Protective Equipment", [
    "CSA-approved full body harness worn",
    "Harness inspected and in good condition",
    "Shock-absorbing lanyard or SRL connected",
    "Lanyard connected to independent lifeline",
    "Hard hat worn at all times",
    "Safety footwear worn",
    "High-visibility vest worn",
    "Additional PPE as required (gloves, eye protection)"
  ])

  const WeatherLabels: SectionLabels := SectionLabels("8. Weather & Environmental Conditions", [
    "Wind speed within safe operating limits (typically <40 km/h)",
    "No lightning or electrical storms in area",
    "Visibility adequate for safe operation",
    "Platform not icy or slippery",
    "No heavy rain or snow affecting operation",
    "Temperature within equipment operating range"
  ])

  const SiteLabels: SectionLabels := SectionLabels("9. Site Conditions & Hazards", [
    "Area below platform barricaded/controlled",
    "Warning signs posted at ground level",
    "No obstructions in travel path",
    "Building features/projections identified",
    "Communication system in place",
    "Spotter/ground person assigned if required",
    "Emergency access route identified"
  ])

  const OperationalLabels: SectionLabels := SectionLabels("10. Operational Test", [
    "Platform raised and lowered through full range",
    "Platform remains level during operation",
    "Brakes tested and holding properly",
    "Limit switches tested and functioning",
    "Emergency stop tested",
    "No unusual sounds or vibrations",
    "Manual descent procedure verified"
  ])

  /** Number of items in each section, in order. */
  const SectionSizes: seq<nat> := [8, 10, 7, 8, 9, 7, 8, 6, 7, 7]

  /** The definition has the published shape: ten sections with the listed
      number of items each. */
  lemma LayoutShape()
    ensures |Layout| == |SectionSizes|
    ensures forall i :: 0 <= i < |Layout| ==> |Layout[i].itemIds| == SectionSizes[i]
  {
  }

  /** Every item of a section has a text: the labels line up with the
      layout, section by section (one lemma per section, so that each proof
      sees only that section's texts). */
  lemma PreUseLabelled()
    ensures |PreUseLabels.texts| == |PreUseIds|
  {
  }

  lemma RiggingLabelled()
    ensures |RiggingLabels.texts| == |RiggingIds|
  {
  }

  lemma PlatformLabelled()
    ensures |PlatformLabels.texts| == |PlatformIds|
  {
  }

  lemma GuardrailsLabelled()
    ensures |GuardrailsLabels.texts| == |GuardrailsIds|
  {
  }

  lemma HoistingLabelled()
    ensures |HoistingLabels.texts| == |HoistingIds|
  {
  }

  lemma ElectricalLabelled()
    ensures |ElectricalLabels.texts| == |ElectricalIds|
  {
  }

  lemma PpeLabelled()
    ensures |PpeLabels.texts| == |PpeIds|
  {
  }

  lemma WeatherLabelled()
    ensures |WeatherLabels.texts| == |WeatherIds|
  {
  }

  lemma SiteLabelled()
    ensures |SiteLabels.texts| == |SiteIds|
  {
  }

  lemma OperationalLabelled()
    ensures |OperationalLabels.texts| == |OperationalIds|
  {
  }

  /** The section ids are pairwise different. */
  lemma LayoutSectionIdsDistinct()
    ensures forall i, k :: 0 <= i < k < |Layout| ==> Layout[i].id != Layout[k].id
  {
  }

  /** No two items of a section share an id. */
  predicate DistinctIds(ids: seq<string>) {
    forall j, l :: 0 <= j < l < |ids| ==> ids[j] != ids[l]
  }

  lemma PreUseIdsDistinct()
    ensures DistinctIds(PreUseIds)
    ensures TaggedWith(PreUseIds, "pr")
  {
  }

  lemma RiggingIdsDistinct()
    ensures DistinctIds(RiggingIds)
    ensures TaggedWith(RiggingIds, "ri")
  {
  }

  lemma PlatformIdsDistinct()
    ensures DistinctIds(PlatformIds)
    ensures TaggedWith(PlatformIds, "pl")
  {
  }

  lemma GuardrailsIdsDistinct()
    ensures DistinctIds(GuardrailsIds)
    ensures TaggedWith(GuardrailsIds, "gu")
  {
  }

  lemma HoistingIdsDistinct()
    ensures DistinctIds(HoistingIds)
    ensures TaggedWith(HoistingIds, "ho")
  {
  }

  lemma ElectricalIdsDistinct()
    ensures DistinctIds(ElectricalIds)
    ensures TaggedWith(ElectricalIds, "el")
  {
  }

  lemma PpeIdsDistinct()
    ensures DistinctIds(PpeIds)
    ensures TaggedWith(PpeIds, "pp")
  {
  }

  lemma WeatherIdsDistinct()
    ensures DistinctIds(WeatherIds)
    ensures TaggedWith(WeatherIds, "we")
  {
  }

  lemma SiteIdsDistinct()
    ensures DistinctIds(SiteIds)
    ensures TaggedWith(SiteIds, "si")
  {
  }

  lemma OperationalIdsDistinct()
    ensures DistinctIds(OperationalIds)
    ensures TaggedWith(OperationalIds, "op")
  {
  }

  /** Within each section the item ids are pairwise different. */
  lemma LayoutItemIdsDistinct()
    ensures forall i :: 0 <= i < |Layout| ==> DistinctIds(Layout[i].itemIds)
  {
    PreUseIdsDistinct();
    RiggingIdsDistinct();
    PlatformIdsDistinct();
    GuardrailsIdsDistinct();
    HoistingIdsDistinct();
    ElectricalIdsDistinct();
    PpeIdsDistinct();
    WeatherIdsDistinct();
    SiteIdsDistinct();
    OperationalIdsDistinct();
  }

  /** The first two letters of every item id name its section. */
  const Tags: seq<string> := ["pr", "ri", "pl", "gu", "ho", "el", "pp", "we", "si", "op"]

  /** Every id of the list starts with `tag`. */
  predicate TaggedWith(ids: seq<string>, tag: string) {
    forall j :: 0 <= j < |ids| ==> |ids[j]| >= 2 && ids[j][..2] == tag
  }

  /** Each section's item ids start with that section's tag, and the tags
      differ from section to section. */
  lemma LayoutTagged()
    ensures |Tags| == |Layout|
    ensures forall i :: 0 <= i < |Layout| ==> TaggedWith(Layout[i].itemIds, Tags[i])
    ensures forall i, k :: 0 <= i < k < |Tags| ==> Tags[i] != Tags[k]
  {
    PreUseIdsDistinct();
    RiggingIdsDistinct();
    PlatformIdsDistinct();
    GuardrailsIdsDistinct();
    HoistingIdsDistinct();
    ElectricalIdsDistinct();
    PpeIdsDistinct();
    WeatherIdsDistinct();
    SiteIdsDistinct();
    OperationalIdsDistinct();
  }

  /** No two items of the whole checklist share an id: within a section the
      ids differ, and across sections their tags do. */
  lemma LayoutItemIdsUnique()
    ensures forall i, k, a, b ::
      0 <= i < |Layout| && 0 <= k < |Layout| &&
      0 <= a < |Layout[i].itemIds| && 0 <= b < |Layout[k].itemIds| && (i != k || a != b) ==>
      Layout[i].itemIds[a] != Layout[k].itemIds[b]
  {
    LayoutTagged();
    LayoutItemIdsDistinct();
    forall i, k, a, b |
      0 <= i < |Layout| && 0 <= k < |Layout| &&
      0 <= a < |Layout[i].itemIds| && 0 <= b < |Layout[k].itemIds| && (i != k || a != b)
      ensures Layout[i].itemIds[a] != Layout[k].itemIds[b]
    {
      if i == k {
        assert DistinctIds(Layout[i].itemIds);
      } else {
        assert Layout[i].itemIds[a][..2] == Tags[i] && Layout[k].itemIds[b][..2] == Tags[k];
      }
    }
  }

  /** `initialSections`: one section per layout entry and one item per item
      id, in order, every item unanswered and without notes; the ids are
      unique. */
  function InitialSections(): (r: seq<SectionState>)
    ensures |r| == |Layout| == 10
    ensures forall i :: 0 <= i < |r| ==>
      r[i].id == Layout[i].id && |r[i].items| == |Layout[i].itemIds|
    ensures forall i, j :: 0 <= i < |r| && 0 <= j < |r[i].items| ==>
      r[i].items[j] == ItemState(Layout[i].itemIds[j], None, "")
    ensures UniqueIds(r)
  {
    LayoutShape();
    LayoutSectionIdsDistinct();
    LayoutItemIdsDistinct();
    seq(|Layout|, i requires 0 <= i < |Layout| =>
      SectionState(Layout[i].id, seq(|Layout[i].itemIds|, j requires 0 <= j < |Layout[i].itemIds| =>
        ItemState(Layout[i].itemIds[j], None, ""))))
  }

  /** The checklist has seventy-seven items in total. */
  lemma InitialTotal()
    ensures Stats(InitialSections()).total == 77
  {
    InitialItemCount();
  }

  lemma InitialItemCount()
    ensures |Flatten(InitialSections())| == 77
  {
    LayoutShape();
    FlattenLength(InitialSections(), SectionSizes);
    assert SizeSum(SectionSizes) == 77;
  }

  /** What the user can do on the form. */
  datatype Action =
    | Press(sectionId: string, itemId: string, pressed: Status)
    | EditNotes(sectionId: string, itemId: string, notes: string)
    | SetApproval(approved: Option<bool>)
    | SetDeficiencies(found: bool)
    | ResetForm(today: string, nowTime: string)

  /** The form state after one action. */
  function Apply(s: Session, a: Action): (r: Session)
    ensures a.Press? ==> r == s.(sections := SetStatus(s.sections, a.sectionId, a.itemId, a.pressed))
    ensures a.EditNotes? ==> r == s.(sections := SetNotes(s.sections, a.sectionId, a.itemId, a.notes))
    ensures a.ResetForm? ==>
      r.sections == InitialSections() && r.approvedForUse == None &&
      r.info == BlankProjectInfo(a.today, a.nowTime, DetailKeys)
    ensures SameShape(r.sections, s.sections) || r.sections == InitialSections()
  {
    match a
    case Press(sid, iid, p) => s.(sections := SetStatus(s.sections, sid, iid, p))
    case EditNotes(sid, iid, n) => s.(sections := SetNotes(s.sections, sid, iid, n))
    case SetApproval(v) => s.(approvedForUse := v)
    case SetDeficiencies(f) => s.(deficienciesFound := f)
    case ResetForm(today, nowTime) => ResetSession(InitialSections(), today, nowTime, DetailKeys)
  }

  /** The state after a sequence of actions, oldest first. */
  function Run(s: Session, trace: seq<Action>): Session
    decreases |trace|
  {
    if trace == [] then s else Run(Apply(s, trace[0]), trace[1..])
  }

  /** The form as it opens. */
  function Opened(today: string, nowTime: string): (r: Session)
    ensures r.sections == InitialSections()
  {
    ResetSession(InitialSections(), today, nowTime, DetailKeys)
  }

  /** No sequence of actions changes the list of sections and items: the
      reducers only touch statuses and notes, and reset restores the
      definition. */
  lemma {:induction false} RunKeepsShape(s: Session, trace: seq<Action>)
    requires SameShape(s.sections, InitialSections())
    ensures SameShape(Run(s, trace).sections, InitialSections())
    decreases |trace|
  {
    if trace != [] {
      RunKeepsShape(Apply(s, trace[0]), trace[1..]);
    }
  }

  /** Whatever the user does, the progress bar reads "n of 77", the
      percentage is a number between 0 and 100 (never `NaN`), the remaining
      count is not negative, and ids stay unique so every press reaches one
      item. */
  lemma ProgressAlwaysDefined(today: string, nowTime: string, trace: seq<Action>)
    ensures var st := Stats(Run(Opened(today, nowTime), trace).sections);
      && st.total == 77
      && st.completed <= st.total
      && st.percentage.Some? && 0 <= st.percentage.value <= 100
    ensures UniqueIds(Run(Opened(today, nowTime), trace).sections)
  {
    var final := Run(Opened(today, nowTime), trace).sections;
    RunKeepsShape(Opened(today, nowTime), trace);
    TotalDependsOnShape(final, InitialSections());
    InitialTotal();
    UniqueIdsShape(final, InitialSections());
  }

  /** Reset returns to the state the form opened with, whatever came before. */
  lemma ResetRestoresOpened(today: string, nowTime: string, before: seq<Action>, after: seq<Action>)
    ensures Run(Opened(today, nowTime), before + [ResetForm(today, nowTime)] + after)
         == Run(Opened(today, nowTime), after)
  {
    RunConcat(Opened(today, nowTime), before, [ResetForm(today, nowTime)] + after);
    assert before + [ResetForm(today, nowTime)] + after == before + ([ResetForm(today, nowTime)] + after);
  }

  lemma {:induction false} RunConcat(s: Session, a: seq<Action>, b: seq<Action>)
    ensures Run(s, a + b) == Run(Run(s, a), b)
    decreases |a|
  {
    if a == [] {
      assert a + b == b;
    } else {
      assert (a + b)[1..] == a[1..] + b;
      RunConcat(Apply(s, a[0]), a[1..], b);
    }
  }
}

=== FILE: team_management.dfy ===
/**
 * The team view: the role and department filter lists, the employee search
 * and filters, and each employee's document figures.
 *
 * `localeCompare` is a comparator parameter; the lists' order is not stated.
 */
module TeamManagement {
  import opened Wrappers
  import opened Text
  import opened Safety
  import Seqs

  /** The employees' values of one field, in list order. */
  function FieldValues(employees: seq<Employee>, field: Employee -> string): (r: seq<string>)
    ensures |r| == |employees|
    ensures forall i :: 0 <= i < |r| ==> r[i] == field(employees[i])
  {
    seq(|employees|, i requires 0 <= i < |employees| => field(employees[i]))
  }

  /** Some employee has that value in the field. */
  predicate HasValue(employees: seq<Employee>, field: Employee -> string, v: string) {
    exists i :: 0 <= i < |employees| && field(employees[i]) == v
  }

  /** `Array.from(new Set(values.filter(Boolean))).sort(localeCompare)`. */
  function DistinctValues(employees: seq<Employee>, field: Employee -> string,
                          localeCompare: (string, string) -> int): (r: seq<string>)
    ensures forall v :: v in r <==> v != "" && HasValue(employees, field, v)
    ensures Seqs.NoDuplicates(r)
  {
    var all := FieldValues(employees, field);
    assert forall v :: HasValue(employees, field, v) ==> v in all by {
      forall v | HasValue(employees, field, v)
        ensures v in all
      {
        var i :| 0 <= i < |employees| && field(employees[i]) == v;
        assert all[i] == v;
      }
    }
    Seqs.SortedDistinct(Seqs.Filter(all, (v: string) => v != ""), localeCompare)
  }

  /** `roles`: the distinct non-empty roles. */
  function Roles(employees: seq<Employee>, localeCompare: (string, string) -> int): (r: seq<string>)
    ensures forall v :: v in r <==> v != "" && HasValue(employees, (e: Employee) => e.role, v)
    ensures Seqs.NoDuplicates(r)
  {
    DistinctValues(employees, (e: Employee) => e.role, localeCompare)
  }

  /** `departments`: the distinct non-empty departments. */
  function Departments(employees: seq<Employee>, localeCompare: (string, string) -> int): (r: seq<string>)
    ensures forall v :: v in r <==> v != "" && HasValue(employees, (e: Employee) => e.department, v)
    ensures Seqs.NoDuplicates(r)
  {
    DistinctValues(employees, (e: Employee) => e.department, localeCompare)
  }

  /** The search: an empty query matches everyone; otherwise the name, email
      or department mentions it. */
  predicate MatchesQuery(query: string, e: Employee) {
    query == "" ||
      Contains(Lower(e.name), Lower(query)) || Contains(Lower(e.email), Lower(query)) ||
      Contains(Lower(e.department), Lower(query))
  }

  predicate MatchesRole(role: Option<string>, e: Employee) {
    !IsActive(role) || e.role == role.value
  }

  predicate MatchesDepartment(department: Option<string>, e: Employee) {
    !IsActive(department) || e.department == department.value
  }

  predicate EmployeeMatches(query: string, role: Option<string>, department: Option<string>, e: Employee) {
    MatchesQuery(query, e) && MatchesRole(role, e) && MatchesDepartment(department, e)
  }

  /** `filteredEmployees`: the three successive filters keep, in list order,
      exactly the employees that pass all three tests. */
  function FilteredEmployees(employees: seq<Employee>, query: string, role: Option<string>,
                             department: Option<string>): (r: seq<Employee>)
    ensures r == Seqs.Filter(employees, (e: Employee) => EmployeeMatches(query, role, department, e))
    ensures Seqs.IsSubsequence(r, employees)
    ensures forall e :: e in r <==> e in employees && EmployeeMatches(query, role, department, e)
  {
    var p1 := (e: Employee) => MatchesQuery(query, e);
    var p2 := (e: Employee) => MatchesRole(role, e);
    var p3 := (e: Employee) => MatchesDepartment(department, e);
    var p12 := (e: Employee) => p1(e) && p2(e);
    Seqs.FilterFilter(employees, p1, p2, p12);
    var all := (e: Employee) => EmployeeMatches(query, role, department, e);
    Seqs.FilterFilter(employees, p12, p3, all);
    Seqs.FilterSubsequence(employees, all);
    Seqs.FilterMembers(employees, all);
    Seqs.Filter(Seqs.Filter(Seqs.Filter(employees, p1), p2), p3)
  }

  /** No query and no filters list everyone. */
  lemma NoFiltersKeepAll(employees: seq<Employee>)
    ensures FilteredEmployees(employees, "", None, None) == employees
  {
    Seqs.FilterAll(employees, (e: Employee) => EmployeeMatches("", None, None, e));
  }

  /** One employee's figures. */
  datatype EmployeeStats = EmployeeStats(completed: nat, pending: nat, expiring: nat)

  /** `getEmployeeStats`: the employee's submitted submissions, the required
      documents not covered by them (never below zero), and the employee's
      submissions expiring within a week. */
  function Stats(employeeId: string, submissions: seq<DocumentSubmission>, documents: seq<SafetyDocument>,
                 now: int): (r: EmployeeStats)
    ensures var own := Seqs.Filter(submissions, (s: DocumentSubmission) => s.employeeId == employeeId);
      && r.completed == Seqs.Count(own, (s: DocumentSubmission) => s.status == "submitted")
      && r.expiring == CountExpiring(own, now)
    ensures r.pending == 0 <==> RequiredCount(documents) <= r.completed
    ensures r.pending > 0 ==> r.pending + r.completed == RequiredCount(documents)
  {
    var own := Seqs.Filter(submissions, (s: DocumentSubmission) => s.employeeId == employeeId);
    var completed := Seqs.Count(own, (s: DocumentSubmission) => s.status == "submitted");
    var pending := RequiredCount(documents) - completed;
    EmployeeStats(completed, if pending > 0 then pending else 0, CountExpiring(own, now))
  }

  /** The count does not look at which document was submitted: submitting
      one required document as often as there are required documents clears
      "pending" while the others were never filled in. */
  lemma RepeatsClearPending(employeeId: string, doc: SafetyDocument, documents: seq<SafetyDocument>,
                            submissions: seq<DocumentSubmission>, now: int)
    requires |submissions| == RequiredCount(documents)
    requires forall i :: 0 <= i < |submissions| ==>
      submissions[i].employeeId == employeeId && submissions[i].status == "submitted" &&
      submissions[i].documentId == doc.id
    ensures Stats(employeeId, submissions, documents, now).pending == 0
  {
    Seqs.FilterAll(submissions, (s: DocumentSubmission) => s.employeeId == employeeId);
    Seqs.FilterAll(submissions, (s: DocumentSubmission) => s.status == "submitted");
  }
}

=== FILE: text.dfy ===
/**
 * String helpers shared by the components: ASCII lower-casing, whitespace
 * trimming, substring search and integer formatting. Strings are sequences
 * of characters; case folding and whitespace are restricted to ASCII.
 */
module Text {

  /** JavaScript's `toLowerCase` restricted to ASCII letters. */
  function LowerChar(c: char): (r: char)
    ensures 'A' <= c <= 'Z' ==> r as int == c as int + 32
    ensures !('A' <= c <= 'Z') ==> r == c
    ensures !('A' <= r <= 'Z')
  {
    if 'A' <= c <= 'Z' then (c as int + 32) as char else c
  }

  function Lower(s: string): (r: string)
    ensures |r| == |s|
    ensures forall i :: 0 <= i < |s| ==> r[i] == LowerChar(s[i])
  {
    seq(|s|, i requires 0 <= i < |s| => LowerChar(s[i]))
  }

  /** Lower-casing twice is lower-casing once. */
  lemma LowerIdempotent(s: string)
    ensures Lower(Lower(s)) == Lower(s)
  {
  }

  /** The characters `trim` removes (the ASCII part of the JavaScript set). */
  predicate IsWhitespace(c: char) {
    c == ' ' || c == '\t' || c == '\n' || c == '\r' || c == '\U{B}' || c == '\U{C}'
  }

  function TrimStart(s: string): (r: string)
    ensures |r| <= |s|
    ensures r == s[|s| - |r|..]
    ensures r != [] ==> !IsWhitespace(r[0])
    ensures forall i :: 0 <= i < |s| - |r| ==> IsWhitespace(s[i])
  {
    if s != [] && IsWhitespace(s[0]) then TrimStart(s[1..]) else s
  }

  function TrimEnd(s: string): (r: string)
    ensures |r| <= |s|
    ensures r == s[..|r|]
    ensures r != [] ==> !IsWhitespace(r[|r| - 1])
    ensures forall i :: |r| <= i < |s| ==> IsWhitespace(s[i])
  {
    if s != [] && IsWhitespace(s[|s| - 1]) then TrimEnd(s[..|s| - 1]) else s
  }

  /** JavaScript's `String.prototype.trim`. */
  function Trim(s: string): string {
    TrimEnd(TrimStart(s))
  }

  /** `!s.trim()`: the string is empty after trimming. */
  predicate IsBlank(s: string) {
    Trim(s) == []
  }

  /** A string is blank exactly when every character is whitespace. */
  lemma {:induction false} BlankIffAllWhitespace(s: string)
    ensures IsBlank(s) <==> forall i :: 0 <= i < |s| ==> IsWhitespace(s[i])
  {
    var t := TrimStart(s);
    if forall i :: 0 <= i < |s| ==> IsWhitespace(s[i]) {
      assert t == [];
    } else {
      var k :| 0 <= k < |s| && !IsWhitespace(s[k]);
      assert k >= |s| - |t|;
      assert t != [];
      assert !IsWhitespace(t[0]);
    }
  }

  /** Trimming removes whitespace only at the ends: the result is a slice. */
  lemma TrimIsSlice(s: string)
    ensures exists i, j :: 0 <= i <= j <= |s| && Trim(s) == s[i..j]
  {
    var t := TrimStart(s);
    var i := |s| - |t|;
    var e := TrimEnd(t);
    assert e == t[..|e|];
    assert e == s[i..i + |e|];
  }

  function StartsWith(s: string, prefix: string): (r: bool)
    ensures r <==> |prefix| <= |s| && s[..|prefix|] == prefix
  {
    |prefix| <= |s| && s[..|prefix|] == prefix
  }

  /** JavaScript's `s.endsWith(suffix)`. */
  predicate EndsWith(s: string, suffix: string) {
    |suffix| <= |s| && s[|s| - |suffix|..] == suffix
  }

  /** A string ends with exactly the strings it can be split off from. */
  lemma EndsWithIff(s: string, suffix: string)
    ensures EndsWith(s, suffix) <==> exists prefix :: s == prefix + suffix
  {
    if EndsWith(s, suffix) {
      assert s == s[..|s| - |suffix|] + suffix;
    }
    if exists prefix :: s == prefix + suffix {
      var prefix :| s == prefix + suffix;
      assert s[|prefix|..] == suffix;
    }
  }

  /** JavaScript's `haystack.includes(needle)`. */
  function Contains(haystack: string, needle: string): bool
    decreases |haystack|
  {
    StartsWith(haystack, needle) || (haystack != [] && Contains(haystack[1..], needle))
  }

  /** The needle occurs in the haystack starting at position `i`. */
  predicate OccursAt(haystack: string, needle: string, i: int) {
    0 <= i <= |haystack| - |needle| && haystack[i..i + |needle|] == needle
  }

  /** `includes` holds exactly when the needle occurs at some position. */
  lemma {:induction false} ContainsIffOccurs(haystack: string, needle: string)
    ensures Contains(haystack, needle) <==> exists i :: OccursAt(haystack, needle, i)
    decreases |haystack|
  {
    if StartsWith(haystack, needle) {
      assert OccursAt(haystack, needle, 0);
    } else if haystack == [] {
    } else {
      ContainsIffOccurs(haystack[1..], needle);
      var tail := haystack[1..];
      if exists i :: OccursAt(tail, needle, i) {
        var i :| OccursAt(tail, needle, i);
        assert haystack[i + 1..i + 1 + |needle|] == tail[i..i + |needle|];
        assert OccursAt(haystack, needle, i + 1);
      }
      if exists i :: OccursAt(haystack, needle, i) {
        var i :| OccursAt(haystack, needle, i);
        if i != 0 {
          assert tail[i - 1..i - 1 + |needle|] == haystack[i..i + |needle|];
          assert OccursAt(tail, needle, i - 1);
        }
      }
    }
  }

  /** Every string includes the empty string. */
  lemma ContainsEmpty(haystack: string)
    ensures Contains(haystack, "")
  {
  }

  /** A string includes everything it ends with. */
  lemma {:induction false} ContainsSuffix(prefix: string, suffix: string)
    ensures Contains(prefix + suffix, suffix)
    decreases |prefix|
  {
    if prefix == [] {
      assert prefix + suffix == suffix;
    } else {
      assert (prefix + suffix)[1..] == prefix[1..] + suffix;
      ContainsSuffix(prefix[1..], suffix);
    }
  }

  function DigitChar(d: nat): (r: char)
    requires d < 10
    ensures '0' <= r <= '9'
  {
    (48 + d) as char
  }

  function DigitValue(c: char): (r: nat)
    requires '0' <= c <= '9'
    ensures r < 10
  {
    (c as int - 48) as nat
  }

  /** Decimal digits of a natural number, without leading zeros. */
  function NatToString(n: nat): (r: string)
    ensures r != []
    ensures forall i :: 0 <= i < |r| ==> '0' <= r[i] <= '9'
    decreases n
  {
    if n < 10 then [DigitChar(n)] else NatToString(n / 10) + [DigitChar(n % 10)]
  }

  /** JavaScript's number-to-string conversion for integers. */
  function IntToString(n: int): string {
    if n < 0 then "-" + NatToString(-n) else NatToString(n)
  }

  /** Reads a string of decimal digits back to its value. */
  function ParseDigits(s: string): nat
    requires forall i :: 0 <= i < |s| ==> '0' <= s[i] <= '9'
  {
    if s == [] then 0 else ParseDigits(s[..|s| - 1]) * 10 + DigitValue(s[|s| - 1])
  }

  /** Formatting a natural number and reading it back gives the number. */
  lemma {:induction false} NatToStringRoundTrip(n: nat)
    ensures ParseDigits(NatToString(n)) == n
    decreases n
  {
    if n >= 10 {
      var s := NatToString(n);
      var p := NatToString(n / 10);
      assert s[..|s| - 1] == p;
      NatToStringRoundTrip(n / 10);
    }
  }

  /** Different numbers are formatted differently. */
  lemma NatToStringInjective(m: nat, n: nat)
    requires NatToString(m) == NatToString(n)
    ensures m == n
  {
    NatToStringRoundTrip(m);
    NatToStringRoundTrip(n);
  }

  /** Different integers are formatted differently. */
  lemma IntToStringInjective(m: int, n: int)
    requires IntToString(m) == IntToString(n)
    ensures m == n
  {
    assert IntToString(m)[0] == '-' <==> m < 0;
    assert IntToString(n)[0] == '-' <==> n < 0;
    if m < 0 {
      assert NatToString(-m) == IntToString(m)[1..];
      NatToStringInjective(-m, -n);
    } else {
      NatToStringInjective(m, n);
    }
  }
}

=== FILE: toggles.dfy ===
/**
 * Two small toggles the views share: the collapsible-section map of the
 * toolbox-talk views, and the "press again to clear" filter buttons.
 */
module Toggles {
  import opened Wrappers

  /** `{...prev, [key]: !prev[key]}`: a missing key reads as `undefined`,
      whose negation is `true`. */
  function FlipKey(m: map<string, bool>, key: string): (r: map<string, bool>)
    ensures r.Keys == m.Keys + {key}
    ensures key in m ==> r[key] == !m[key]
    ensures key !in m ==> r[key]
    ensures forall k :: k in m && k != key ==> r[k] == m[k]
  {
    m[key := !(key in m && m[key])]
  }

  /** Flipping a present key twice restores the map. */
  lemma FlipKeyTwice(m: map<string, bool>, key: string)
    requires key in m
    ensures FlipKey(FlipKey(m, key), key) == m
  {
  }

  /** The sections both toolbox-talk views start with, all expanded. */
  const TalkSections: set<string> :=
    {"introduction", "hazards", "procedures", "ppe", "dosdonts", "questions",
     "emergency", "takeaways", "regulation"}

  function InitialExpanded(): (r: map<string, bool>)
    ensures r.Keys == TalkSections
    ensures forall k :: k in r ==> r[k]
  {
    map k | k in TalkSections :: true
  }

  /** `setFilter(filter === option ? null : option)`. */
  function ToggleOption<T(==)>(current: Option<T>, option: T): (r: Option<T>)
    ensures r == None <==> current == Some(option)
    ensures r != None ==> r == Some(option)
  {
    if current == Some(option) then None else Some(option)
  }

  /** Pressing the same filter button twice from "no filter" returns to "no
      filter"; pressing another button switches straight to it. */
  lemma ToggleOptionTwice<T>(current: Option<T>, a: T, b: T)
    ensures current == None ==> ToggleOption(ToggleOption(current, a), a) == None
    ensures a != b ==> ToggleOption(ToggleOption(current, a), b) == Some(b)
  {
  }
}

=== FILE: toolbox_generator.dfy ===
/**
 * The toolbox-talk generator's local logic: the send dialog's guard and its
 * disabled button, team-member selection, and the bounded history of
 * generated talks and topics. The generation call itself is a remote
 * function and is not part of this model.
 */
module ToolboxGenerator {
  import opened Wrappers
  import opened Text
  import opened Safety
  import opened ToolboxTalk
  import Seqs

  /** What pressing "Send to Team" does. */
  datatype SendOutcome =
    | Ignored
    | NoMembersAlert
    | NoPresenterAlert
    | Sent(talk: Talk, employeeIds: seq<string>, projectSite: string, presenterName: string)

  /** `handleSendToTeam`: silently ignored without a talk or a callback; an
      empty selection is reported before a blank presenter; otherwise the
      callback receives the talk, the selection, the site and the presenter
      as typed. */
  function HandleSendToTeam(talk: Option<Talk>, hasCallback: bool, selection: seq<string>,
                            projectSite: string, presenterName: string): (r: SendOutcome)
    ensures r == Ignored <==> talk.None? || !hasCallback
    ensures r == NoMembersAlert <==> talk.Some? && hasCallback && selection == []
    ensures r == NoPresenterAlert <==>
      talk.Some? && hasCallback && selection != [] && IsBlank(presenterName)
    ensures r.Sent? <==> talk.Some? && hasCallback && selection != [] && !IsBlank(presenterName)
    ensures r.Sent? ==> r == Sent(talk.value, selection, projectSite, presenterName)
  {
    if talk.None? || !hasCallback then Ignored
    else if selection == [] then NoMembersAlert
    else if IsBlank(presenterName) then NoPresenterAlert
    else Sent(talk.value, selection, projectSite, presenterName)
  }

  /** The send button's `disabled` condition. */
  predicate SendDisabled(selection: seq<string>, presenterName: string) {
    selection == [] || IsBlank(presenterName)
  }

  /** With a talk and a callback, the button is enabled exactly when the
      handler sends. */
  lemma SendButtonMatchesHandler(talk: Talk, selection: seq<string>, projectSite: string, presenterName: string)
    ensures !SendDisabled(selection, presenterName) <==>
      HandleSendToTeam(Some(talk), true, selection, projectSite, presenterName).Sent?
  {
  }

  /** The dialog fields after the post-send timer: the selection and the
      site are cleared, the presenter is kept. */
  datatype SendDialog = SendDialog(selection: seq<string>, projectSite: string, presenterName: string,
                                   open: bool, sendSuccess: bool)

  function AfterSendTimer(d: SendDialog): (r: SendDialog)
    ensures r.selection == [] && r.projectSite == "" && !r.open && !r.sendSuccess
    ensures r.presenterName == d.presenterName
  {
    SendDialog([], "", d.presenterName, false, false)
  }

  /** `toggleEmployeeSelection`: removes every occurrence of a selected id,
      appends an unselected one. */
  function ToggleEmployee(selection: seq<string>, employeeId: string): (r: seq<string>)
    ensures employeeId in r <==> employeeId !in selection
    ensures forall x :: x != employeeId ==> (x in r <==> x in selection)
    ensures Seqs.NoDuplicates(selection) ==> Seqs.NoDuplicates(r)
    ensures employeeId !in selection ==> r == selection + [employeeId]
    ensures employeeId in selection ==> Seqs.IsSubsequence(r, selection)
  {
    if employeeId in selection then
      RemoveAll(selection, employeeId);
      Seqs.FilterSubsequence(selection, (x: string) => x != employeeId);
      Seqs.Filter(selection, (x: string) => x != employeeId)
    else selection + [employeeId]
  }

  /** Facts about removing every occurrence of an id. */
  lemma RemoveAll(selection: seq<string>, employeeId: string)
    ensures var r := Seqs.Filter(selection, (x: string) => x != employeeId);
      && employeeId !in r
      && (forall x :: x != employeeId ==> (x in r <==> x in selection))
      && (Seqs.NoDuplicates(selection) ==> Seqs.NoDuplicates(r))
  {
    var r := Seqs.Filter(selection, (x: string) => x != employeeId);
    forall x | x != employeeId && x in selection
      ensures x in r
    {
      var i :| 0 <= i < |selection| && selection[i] == x;
    }
    if Seqs.NoDuplicates(selection) {
      FilterKeepsDistinct(selection, (x: string) => x != employeeId);
    }
  }

  lemma {:induction false} FilterKeepsDistinct(s: seq<string>, keep: string -> bool)
    requires Seqs.NoDuplicates(s)
    ensures Seqs.NoDuplicates(Seqs.Filter(s, keep))
  {
    if s != [] {
      FilterKeepsDistinct(s[1..], keep);
      var rest := Seqs.Filter(s[1..], keep);
      if keep(s[0]) {
        assert s[0] !in s[1..];
        assert forall i :: 0 <= i < |rest| ==> rest[i] in s[1..];
        assert Seqs.Filter(s, keep) == [s[0]] + rest;
      }
    }
  }

  /** Toggling the same id twice restores the set of selected ids. */
  lemma ToggleEmployeeTwice(selection: seq<string>, employeeId: string)
    ensures forall x :: x in ToggleEmployee(ToggleEmployee(selection, employeeId), employeeId) <==> x in selection
  {
  }

  /** The ids of the listed employees, in list order. */
  function EmployeeIds(employees: seq<Employee>): (r: seq<string>)
    ensures |r| == |employees|
    ensures forall i :: 0 <= i < |r| ==> r[i] == employees[i].id
  {
    seq(|employees|, i requires 0 <= i < |employees| => employees[i].id)
  }

  /** `selectAllEmployees`: clears the selection when it is as long as the
      employee list, otherwise selects every employee in list order. */
  function SelectAll(selection: seq<string>, employees: seq<Employee>): (r: seq<string>)
    ensures |selection| == |employees| ==> r == []
    ensures |selection| != |employees| ==> r == EmployeeIds(employees)
  {
    if |selection| == |employees| then [] else EmployeeIds(employees)
  }

  /** Pressing the button twice from a partial selection selects everyone
      and then clears. */
  lemma SelectAllTwice(selection: seq<string>, employees: seq<Employee>)
    requires |selection| != |employees|
    ensures SelectAll(SelectAll(selection, employees), employees) == []
  {
  }

  /** The label of that button compares lengths only, so a selection of the
      right length but the wrong ids reads "Deselect All". */
  function SelectAllLabel(selection: seq<string>, employees: seq<Employee>): (r: string)
    ensures r == "Deselect All" <==> |selection| == |employees|
    ensures r == "Select All" <==> |selection| != |employees|
  {
    if |selection| == |employees| then "Deselect All" else "Select All"
  }

  /** The number of saved talks kept. */
  const HistoryLimit: nat := 50

  /** The number of previous topics sent with the next request. */
  const TopicLimit: nat := 30

  /** `[talk, ...savedTalks].slice(0, 50)`. */
  function SaveHistory(talk: Talk, saved: seq<Talk>): (r: seq<Talk>)
    ensures 1 <= |r| <= HistoryLimit
    ensures |r| == if |saved| + 1 < HistoryLimit then |saved| + 1 else HistoryLimit
    ensures r[0] == talk
    ensures r[1..] == saved[..|r| - 1]
  {
    Seqs.Take([talk] + saved, HistoryLimit)
  }

  /** `[...previousTopics, title].slice(-30)`: the last thirty entries. */
  function UpdateTopics(previous: seq<string>, title: string): (r: seq<string>)
    ensures 1 <= |r| <= TopicLimit
    ensures |r| == if |previous| + 1 < TopicLimit then |previous| + 1 else TopicLimit
    ensures r[|r| - 1] == title
    ensures r[..|r| - 1] == previous[|previous| - (|r| - 1)..]
  {
    var all := previous + [title];
    var r := if |all| <= TopicLimit then all else all[|all| - TopicLimit..];
    assert r[..|r| - 1] == previous[|previous| - (|r| - 1)..];
    r
  }

  /** Saving a history that is already full drops exactly its oldest talk. */
  lemma SaveHistoryDropsOldest(talk: Talk, saved: seq<Talk>)
    requires |saved| == HistoryLimit
    ensures SaveHistory(talk, saved) == [talk] + saved[..HistoryLimit - 1]
  {
  }
}

=== FILE: toolbox_signature.dfy ===
/**
 * The toolbox-talk signature view: which buttons it offers, the status
 * banner, one row per assignee, and the signature modal's guard. The view is
 * the only gate in front of the sign and submit handlers, so this module
 * also states what the gate plus the handlers guarantee and, with concrete
 * boards, where they do not.
 */
module ToolboxSignature {
  import opened Wrappers
  import opened Text
  import opened Safety
  import opened ToolboxTalk
  import Seqs

  /** `signatures.some(s => s.employee_id === id)`. */
  predicate SignedBy(t: TalkRecord, employeeId: string) {
    exists i :: 0 <= i < |t.signatures| && t.signatures[i].employeeId == employeeId
  }

  /** `hasCurrentUserSigned`. */
  function HasCurrentUserSigned(t: TalkRecord, current: Option<Employee>): (r: bool)
    ensures current.None? ==> !r
    ensures current.Some? ==> (r <==> SignedBy(t, current.value.id))
  {
    current.Some? && SignedBy(t, current.value.id)
  }

  /** `allSigned`: as many signatures as assignees, and at least one
      assignee. It compares counts only, not who signed. */
  predicate AllSigned(t: TalkRecord) {
    |t.signatures| == |t.assignees| && |t.assignees| > 0
  }

  /** A talk assigned to nobody is never "all signed". */
  lemma EmptyAssignmentNeverAllSigned(t: TalkRecord)
    requires t.assignees == []
    ensures !AllSigned(t)
  {
  }

  /** The header's "Sign Attendance" button: a current employee who has not
      signed. Neither assignment nor status is consulted. */
  predicate ShowSignButton(t: TalkRecord, current: Option<Employee>) {
    current.Some? && !HasCurrentUserSigned(t, current)
  }

  /** The header's "Submit Toolbox Talk" button. */
  predicate ShowSubmitButton(t: TalkRecord) {
    AllSigned(t) && t.status != Submitted
  }

  /** The status banner, in order of precedence. `remaining` is
      `totalAssigned - signedCount` and can be negative. */
  datatype Banner = SubmittedBanner | ReadyBanner | Awaiting(remaining: int)

  function BannerFor(t: TalkRecord): (r: Banner)
    ensures r == SubmittedBanner <==> t.status == Submitted
    ensures r == ReadyBanner <==> t.status != Submitted && AllSigned(t)
    ensures r.Awaiting? <==> t.status != Submitted && !AllSigned(t)
    ensures r.Awaiting? ==> r.remaining == |t.assignees| - |t.signatures|
  {
    if t.status == Submitted then SubmittedBanner
    else if AllSigned(t) then ReadyBanner
    else Awaiting(|t.assignees| - |t.signatures|)
  }

  /** Position `i` holds the employee's first signature. */
  predicate FirstSignatureOf(sigs: seq<Signature>, employeeId: string, i: int) {
    0 <= i < |sigs| && sigs[i].employeeId == employeeId && forall k :: 0 <= k < i ==> sigs[k].employeeId != employeeId
  }

  /** `signatures.find(s => s.employee_id === id)`: the employee's first
      signature, so a repeated signer shows the name and date of the first. */
  function FindSignature(sigs: seq<Signature>, employeeId: string): (r: Option<Signature>)
    ensures r.Some? ==> r.value in sigs && r.value.employeeId == employeeId
    ensures r.None? <==> forall i :: 0 <= i < |sigs| ==> sigs[i].employeeId != employeeId
    ensures r.Some? ==> exists i :: FirstSignatureOf(sigs, employeeId, i) && sigs[i] == r.value
  {
    if sigs == [] then None
    else if sigs[0].employeeId == employeeId then
      assert FirstSignatureOf(sigs, employeeId, 0);
      Some(sigs[0])
    else
      var rest := FindSignature(sigs[1..], employeeId);
      if rest.Some? then
        var i :| FirstSignatureOf(sigs[1..], employeeId, i) && sigs[1..][i] == rest.value;
        assert forall k :: 1 <= k < i + 1 ==> sigs[k] == sigs[1..][k - 1];
        assert FirstSignatureOf(sigs, employeeId, i + 1);
        rest
      else rest
  }

  /** One line of the attendance list. */
  datatype Row = Row(employeeId: string, signature: Option<Signature>, isCurrentUser: bool, showSignNow: bool)

  /** The attendance list: one row per assignee, in assignment order. */
  function Rows(t: TalkRecord, current: Option<Employee>): (r: seq<Row>)
    ensures |r| == |t.assignees|
    ensures forall i :: 0 <= i < |r| ==>
      && r[i].employeeId == t.assignees[i]
      && (r[i].signature.Some? <==> SignedBy(t, t.assignees[i]))
      && (r[i].isCurrentUser <==> current.Some? && current.value.id == t.assignees[i])
      && (r[i].showSignNow <==> r[i].isCurrentUser && r[i].signature.None?)
  {
    seq(|t.assignees|, i requires 0 <= i < |t.assignees| =>
      var sig := FindSignature(t.signatures, t.assignees[i]);
      var mine := current.Some? && current.value.id == t.assignees[i];
      Row(t.assignees[i], sig, mine, mine && sig.None?))
  }

  /** A row's "Sign Now" appears only where the header button does too, and
      only for an assigned employee. */
  lemma SignNowImpliesHeaderButton(t: TalkRecord, current: Option<Employee>, i: nat)
    requires i < |Rows(t, current)| && Rows(t, current)[i].showSignNow
    ensures ShowSignButton(t, current)
    ensures current.value.id in t.assignees
  {
  }

  /** What the modal's confirm action does. */
  datatype ModalOutcome = ModalOutcome(signed: seq<string>, open: bool, typedName: string)

  /** `handleSignSubmit`: with a canvas and a printed name that is not blank,
      the drawing is passed to `onSign` once and the modal closes and clears;
      otherwise nothing happens. `drawing` is the canvas's data URL. */
  function HandleSignSubmit(hasCanvas: bool, typedName: string, drawing: string): (r: ModalOutcome)
    ensures |r.signed| <= 1
    ensures r.signed == [drawing] <==> hasCanvas && !IsBlank(typedName)
    ensures r.signed == [] ==> r == ModalOutcome([], true, typedName)
    ensures r.signed != [] ==> !r.open && r.typedName == ""
  {
    if !hasCanvas || IsBlank(typedName) then ModalOutcome([], true, typedName)
    else ModalOutcome([drawing], false, "")
  }

  /** The confirm button is disabled exactly when the handler would refuse a
      name. */
  predicate ConfirmDisabled(typedName: string) {
    IsBlank(typedName)
  }

  lemma ConfirmMatchesHandler(typedName: string, drawing: string)
    ensures !ConfirmDisabled(typedName) <==> HandleSignSubmit(true, typedName, drawing).signed != []
    ensures ConfirmDisabled(typedName) <==> (forall i :: 0 <= i < |typedName| ==> IsWhitespace(typedName[i]))
  {
    BlankIffAllWhitespace(typedName);
  }

  /** The user's sign action: the handler runs only behind the header button
      (a row's "Sign Now" implies it). */
  function GatedSign(b: Board, payload: string, now: int): (r: Board)
    ensures b.selected.Some? && ShowSignButton(b.selected.value, b.employee) ==> r == Sign(b, payload, now)
    ensures !(b.selected.Some? && ShowSignButton(b.selected.value, b.employee)) ==> r == b
  {
    if b.selected.Some? && ShowSignButton(b.selected.value, b.employee) then Sign(b, payload, now) else b
  }

  /** The user's submit action, behind the submit button. */
  function GatedSubmit(b: Board, now: int): (r: Board)
    ensures b.selected.Some? && ShowSubmitButton(b.selected.value) ==> r == Submit(b, now)
    ensures !(b.selected.Some? && ShowSubmitButton(b.selected.value)) ==> r == b
  {
    if b.selected.Some? && ShowSubmitButton(b.selected.value) then Submit(b, now) else b
  }

  /** Signer ids are pairwise different. */
  predicate DistinctSigners(t: TalkRecord) {
    forall i, j :: 0 <= i < j < |t.signatures| ==> t.signatures[i].employeeId != t.signatures[j].employeeId
  }

  /** What the gate does guarantee: nobody signs the open record twice. */
  lemma GatedSignKeepsSignersDistinct(b: Board, payload: string, now: int)
    requires b.selected.Some? && DistinctSigners(b.selected.value)
    ensures GatedSign(b, payload, now).selected.Some?
    ensures DistinctSigners(GatedSign(b, payload, now).selected.value)
  {
    var r := GatedSign(b, payload, now);
    if b.selected.Some? && ShowSignButton(b.selected.value, b.employee) {
      var before := b.selected.value;
      var after := r.selected.value;
      var n := |before.signatures|;
      forall i, j | 0 <= i < j < |after.signatures|
        ensures after.signatures[i].employeeId != after.signatures[j].employeeId
      {
        if j == n {
          assert after.signatures[i] == before.signatures[i];
          assert after.signatures[j].employeeId == b.employee.value.id;
        } else {
          assert after.signatures[i] == before.signatures[i];
          assert after.signatures[j] == before.signatures[j];
        }
      }
    }
  }

  /** What the gate does guarantee: a submitted talk had as many signatures
      as assignees when it was submitted. */
  lemma GatedSubmitNeedsAllSigned(b: Board, now: int)
    requires b.selected.Some? && b.selected.value.status != Submitted
    requires GatedSubmit(b, now).selected.value.status == Submitted
    ensures AllSigned(b.selected.value)
    ensures GatedSubmit(b, now).selected.value.signatures == b.selected.value.signatures
  {
  }

  // ---- Where handler plus gate fall short ----

  /** A talk with one assignee `"a"`, sent by `"c"`. */
  function SampleTalk(): TalkRecord {
    TalkRecord("t1", "k1", Talk("Ladders", "Access", ""), "c", ["a"], [], Pending,
               None, "Pat", 0, 0, None, None)
  }

  /** The board of the creator, who is not assigned but is shown the talk. */
  function CreatorBoard(): Board {
    var c := Employee("c", "Casey", "", "", "");
    Board([SampleTalk()], Some(SampleTalk()), Some(c))
  }

  /** The sender, who is not assigned, is offered the sign button; signing
      marks the talk completed, the banner says every member signed and
      submit is offered, yet the only assignee's row shows no signature. */
  lemma UnassignedCreatorCompletesTalk()
    ensures SampleTalk() in EmployeeTalks(CreatorBoard().records, CreatorBoard().employee)
    ensures ShowSignButton(CreatorBoard().selected.value, CreatorBoard().employee)
    ensures var t := GatedSign(CreatorBoard(), "ink", 1).selected.value;
      && t.status == Completed
      && BannerFor(t) == ReadyBanner
      && ShowSubmitButton(t)
      && Rows(t, None)[0].signature.None?
  {
    var b := CreatorBoard();
    assert Involves(b.records[0], "c");
    var t := GatedSign(b, "ink", 1).selected.value;
    assert t.signatures == [Signature("c", "Casey", "ink", 1)];
    assert "a" != "c";
    assert !SignedBy(t, "a");
  }

  /** After the creator, the assignee signs too: the handler's `>=` keeps
      the status `completed`, but the view's `===` no longer sees every
      member signed, so submit is never offered again. */
  lemma CompletedButNotSubmittable()
    ensures var b1 := GatedSign(CreatorBoard(), "ink", 1);
      var b2 := GatedSign(b1.(employee := Some(Employee("a", "Alex", "", "", ""))), "ink", 2);
      && b2.selected.value.status == Completed
      && |b2.selected.value.signatures| == 2
      && !AllSigned(b2.selected.value)
      && !ShowSubmitButton(b2.selected.value)
  {
    var b1 := GatedSign(CreatorBoard(), "ink", 1);
    var t1 := b1.selected.value;
    assert t1.signatures == [Signature("c", "Casey", "ink", 1)];
    var a := Employee("a", "Alex", "", "", "");
    assert "a" != "c";
    assert !SignedBy(t1, "a");
    assert ShowSignButton(t1, Some(a));
  }

  /** Once a record holds more signatures than assignees, no sign or submit
      ever makes it "all signed" again: signatures only grow and assignees
      never change. */
  lemma OverSignedStaysUnsubmittable(b: Board, payload: string, now: int)
    requires b.selected.Some?
    requires |b.selected.value.signatures| > |b.selected.value.assignees|
    ensures |GatedSign(b, payload, now).selected.value.signatures| >
            |GatedSign(b, payload, now).selected.value.assignees|
    ensures !AllSigned(GatedSign(b, payload, now).selected.value)
    ensures GatedSubmit(b, now) == b
  {
  }

  /** The sign button ignores the status, and the handler recomputes it: an
      unsigned employee can sign a submitted talk, which then leaves the
      submitted state. */
  lemma SignReopensSubmitted(b: Board, payload: string, now: int)
    requires b.selected.Some? && b.selected.value.status == Submitted
    requires b.employee.Some? && !SignedBy(b.selected.value, b.employee.value.id)
    ensures ShowSignButton(b.selected.value, b.employee)
    ensures GatedSign(b, payload, now).selected.value.status != Submitted
  {
  }
}

=== FILE: toolbox_talk.dfy ===
/**
 * The toolbox-talk records and the application-level handlers that create,
 * sign and submit them, exactly as written: the handlers check only that a
 * record (and, for signing, an employee) is selected. Assignment, duplicate
 * signers and the submitted state are not checked here; the signature view
 * decides which buttons to offer.
 */
module ToolboxTalk {
  import opened Wrappers
  import opened Safety
  import Seqs

  /** A generated talk; only the title and category are read by the logic. */
  datatype Talk = Talk(title: string, category: string, content: string)

  datatype TalkStatus = Pending | InProgress | Completed | Submitted

  /** The status strings stored in the record and matched by the filters. */
  function StatusName(st: TalkStatus): (r: string)
    ensures r in {"pending", "in_progress", "completed", "submitted"}
  {
    match st
    case Pending => "pending"
    case InProgress => "in_progress"
    case Completed => "completed"
    case Submitted => "submitted"
  }

  /** Different statuses have different names. */
  lemma StatusNameInjective(a: TalkStatus, b: TalkStatus)
    ensures StatusName(a) == StatusName(b) <==> a == b
  {
  }

  datatype Signature = Signature(employeeId: string, employeeName: string, payload: string, signedAt: int)

  /** A talk sent to a team, with the signatures collected so far.
      `projectSite == None` is the `undefined` stored for an empty site. */
  datatype TalkRecord = TalkRecord(
    id: string, talkId: string, talk: Talk, createdBy: string, assignees: seq<string>,
    signatures: seq<Signature>, status: TalkStatus, projectSite: Option<string>,
    presenterName: string, conductedAt: int, createdAt: int,
    updatedAt: Option<int>, submittedAt: Option<int>)

  /** The part of the application state the handlers read and write: the
      stored records, the record open in the signature view, and the
      employee acting. */
  datatype Board = Board(records: seq<TalkRecord>, selected: Option<TalkRecord>, employee: Option<Employee>)

  /** `selectedEmployee?.id || ''`. */
  function ActingId(employee: Option<Employee>): (r: string)
    ensures employee.Some? ==> r == employee.value.id
    ensures employee.None? ==> r == ""
  {
    if employee.Some? then employee.value.id else ""
  }

  /** `handleSendToolboxTalkToTeam`: a new pending record, without signatures,
      assigned to the given ids as given (duplicates kept), placed first.
      `newId`, `newTalkId` and `now` stand for the generated ids and clock. */
  function Send(b: Board, talk: Talk, employeeIds: seq<string>, projectSite: string,
                presenterName: string, newId: string, newTalkId: string, now: int): (r: Board)
    ensures |r.records| == |b.records| + 1
    ensures r.records[1..] == b.records
    ensures var rec := r.records[0];
      && rec.id == newId && rec.talkId == newTalkId && rec.talk == talk
      && rec.status == Pending && rec.signatures == []
      && rec.assignees == employeeIds
      && rec.createdBy == ActingId(b.employee)
      && (rec.projectSite == None <==> projectSite == "")
      && (rec.projectSite.Some? ==> rec.projectSite.value == projectSite)
      && rec.presenterName == presenterName
      && rec.conductedAt == now && rec.createdAt == now
      && rec.updatedAt == None && rec.submittedAt == None
    ensures r.selected == b.selected && r.employee == b.employee
  {
    var rec := TalkRecord(newId, newTalkId, talk, ActingId(b.employee), employeeIds, [], Pending,
                          if projectSite == "" then None else Some(projectSite),
                          presenterName, now, now, None, None);
    b.(records := [rec] + b.records)
  }

  /** `records.map(s => s.id === id ? rec : s)`. */
  function ReplaceById(records: seq<TalkRecord>, id: string, rec: TalkRecord): (r: seq<TalkRecord>)
    ensures |r| == |records|
    ensures forall i :: 0 <= i < |r| && records[i].id != id ==> r[i] == records[i]
    ensures forall i :: 0 <= i < |r| && records[i].id == id ==> r[i] == rec
  {
    seq(|records|, i requires 0 <= i < |records| => if records[i].id == id then rec else records[i])
  }

  /** Replacing by an id no record has changes nothing; replacing with a
      record of the same id keeps every id in place. */
  lemma ReplaceByIdIds(records: seq<TalkRecord>, id: string, rec: TalkRecord)
    ensures (forall i :: 0 <= i < |records| ==> records[i].id != id) ==>
      ReplaceById(records, id, rec) == records
    ensures rec.id == id ==>
      forall i :: 0 <= i < |records| ==> ReplaceById(records, id, rec)[i].id == records[i].id
  {
  }

  /** The status the sign handler stores: `completed` once the number of
      signatures reaches the number of assignees, whatever came before. */
  function StatusAfterSign(signatureCount: nat, assignedCount: nat): (r: TalkStatus)
    ensures r == Completed <==> signatureCount >= assignedCount
    ensures r == InProgress <==> signatureCount < assignedCount
  {
    if signatureCount >= assignedCount then Completed else InProgress
  }

  /** `handleSignToolboxTalk`: without a selected record or employee nothing
      happens; otherwise one signature of the acting employee is appended,
      the status is recomputed from the counts, and the stored record with
      that id and the selection are both replaced. */
  function Sign(b: Board, payload: string, now: int): (r: Board)
    ensures b.selected.None? || b.employee.None? ==> r == b
    ensures b.selected.Some? && b.employee.Some? ==>
      var before := b.selected.value;
      var e := b.employee.value;
      && r.selected.Some?
      && var after := r.selected.value;
      && after.signatures == before.signatures + [Signature(e.id, e.name, payload, now)]
      && after.status == StatusAfterSign(|after.signatures|, |after.assignees|)
      && after == before.(signatures := after.signatures, status := after.status, updatedAt := Some(now))
      && r.records == ReplaceById(b.records, before.id, after)
      && r.employee == b.employee
  {
    if b.selected.None? || b.employee.None? then b
    else
      var before := b.selected.value;
      var e := b.employee.value;
      var sigs := before.signatures + [Signature(e.id, e.name, payload, now)];
      var after := before.(signatures := sigs,
                           status := StatusAfterSign(|before.signatures| + 1, |before.assignees|),
                           updatedAt := Some(now));
      Board(ReplaceById(b.records, before.id, after), Some(after), b.employee)
  }

  /** `handleSubmitToolboxTalk`: without a selection nothing happens;
      otherwise the status becomes `submitted`, with no check that every
      assignee signed; only the status and the two timestamps change. */
  function Submit(b: Board, now: int): (r: Board)
    ensures b.selected.None? ==> r == b
    ensures b.selected.Some? ==>
      var before := b.selected.value;
      && r.selected.Some?
      && var after := r.selected.value;
      && after.status == Submitted && after.submittedAt == Some(now)
      && after.signatures == before.signatures && after.assignees == before.assignees
      && after == before.(status := Submitted, submittedAt := Some(now), updatedAt := Some(now))
      && r.records == ReplaceById(b.records, before.id, after)
      && r.employee == b.employee
  {
    if b.selected.None? then b
    else
      var before := b.selected.value;
      var after := before.(status := Submitted, submittedAt := Some(now), updatedAt := Some(now));
      Board(ReplaceById(b.records, before.id, after), Some(after), b.employee)
  }

  /** The stored list and the open record agree: the selection is the stored
      record with its id. */
  predicate InSync(b: Board) {
    b.selected.Some? ==>
      forall i :: 0 <= i < |b.records| && b.records[i].id == b.selected.value.id ==>
        b.records[i] == b.selected.value
  }

  /** Signing and submitting keep the list and the open record in sync. */
  lemma HandlersKeepInSync(b: Board, payload: string, now: int)
    ensures InSync(Sign(b, payload, now)) || !InSync(b)
    ensures InSync(Submit(b, now)) || !InSync(b)
  {
  }

  /** Signing never removes or reorders signatures and never touches the
      assignees or the list length. */
  lemma SignOnlyGrows(b: Board, payload: string, now: int)
    requires b.selected.Some?
    ensures var r := Sign(b, payload, now);
      && r.selected.Some?
      && |r.selected.value.signatures| >= |b.selected.value.signatures|
      && r.selected.value.signatures[..|b.selected.value.signatures|] == b.selected.value.signatures
      && r.selected.value.assignees == b.selected.value.assignees
      && |r.records| == |b.records|
  {
  }

  /** A record is listed for the employee assigned to it or to the one who sent it. */
  predicate Involves(t: TalkRecord, employeeId: string) {
    employeeId in t.assignees || t.createdBy == employeeId
  }

  /** `getEmployeeToolboxTalkSubmissions`: the records that involve the
      acting employee, in stored order; nothing without an employee. */
  function EmployeeTalks(records: seq<TalkRecord>, employee: Option<Employee>): (r: seq<TalkRecord>)
    ensures employee.None? ==> r == []
    ensures employee.Some? ==>
      && Seqs.IsSubsequence(r, records)
      && (forall i :: 0 <= i < |r| ==> Involves(r[i], employee.value.id))
      && (forall i :: 0 <= i < |records| && Involves(records[i], employee.value.id) ==> records[i] in r)
  {
    if employee.None? then []
    else
      var involved := (t: TalkRecord) => Involves(t, employee.value.id);
      Seqs.FilterSubsequence(records, involved);
      Seqs.Filter(records, involved)
  }
}

=== FILE: toolbox_workflow.dfy ===
/**
 * The toolbox-talk lifecycle with the checks the handlers leave to the view
 * made explicit: only an assignee who has not signed may sign, a submitted
 * talk is sealed, a talk is completed exactly when every assignee has signed,
 * and only a completed talk may be submitted. Each refusal carries its
 * reason. The invariant these operations keep is what the view's counts
 * (`allSigned`, the banner) take for granted.
 */
module ToolboxWorkflow {
  import opened Wrappers
  import opened Safety
  import opened ToolboxTalk
  import opened ToolboxSignature

  datatype SignError = NothingSelected | NoEmployee | Sealed | NotAssigned | AlreadySigned

  datatype SubmitError = NoSelection | AlreadySubmitted | NotComplete

  /** Every assignee has signed, and there is at least one assignee. */
  predicate EverySigned(t: TalkRecord) {
    |t.assignees| > 0 && forall a :: a in t.assignees ==> SignedBy(t, a)
  }

  /** The lifecycle invariant: signers are distinct assignees, a pending
      talk has no signatures, an in-progress talk has some, and a talk is
      completed or submitted exactly when every assignee has signed. */
  predicate Valid(t: TalkRecord) {
    && (forall i :: 0 <= i < |t.signatures| ==> t.signatures[i].employeeId in t.assignees)
    && DistinctSigners(t)
    && (t.status == Pending ==> t.signatures == [])
    && (t.status == InProgress ==> t.signatures != [])
    && ((t.status == Completed || t.status == Submitted) <==> EverySigned(t))
  }

  /** A freshly sent talk satisfies the invariant. */
  lemma SendEstablishesValid(b: Board, talk: Talk, employeeIds: seq<string>, projectSite: string,
                             presenterName: string, newId: string, newTalkId: string, now: int)
    ensures Valid(Send(b, talk, employeeIds, projectSite, presenterName, newId, newTalkId, now).records[0])
  {
    var t := Send(b, talk, employeeIds, projectSite, presenterName, newId, newTalkId, now).records[0];
    if |t.assignees| > 0 {
      assert t.assignees[0] in t.assignees && !SignedBy(t, t.assignees[0]);
    }
  }

  /** Signing with every check: refuses without a record or employee, on a
      submitted talk, for someone not assigned, and for a second signature;
      otherwise appends the signature and marks the talk completed exactly
      when every assignee has now signed. */
  function SignChecked(b: Board, payload: string, now: int): (r: Result<Board, SignError>)
    ensures b.selected.None? ==> r == Failure(NothingSelected)
    ensures b.selected.Some? && b.employee.None? ==> r == Failure(NoEmployee)
    ensures r.Success? ==>
      && b.selected.Some? && b.employee.Some?
      && b.selected.value.status != Submitted
      && b.employee.value.id in b.selected.value.assignees
      && !SignedBy(b.selected.value, b.employee.value.id)
      && r.value.selected.Some?
      && var before := b.selected.value;
      && var after := r.value.selected.value;
      && after.signatures == before.signatures + [Signature(b.employee.value.id, b.employee.value.name, payload, now)]
      && (after.status == Completed <==> EverySigned(after))
      && (after.status == InProgress <==> !EverySigned(after))
      && after == before.(signatures := after.signatures, status := after.status, updatedAt := Some(now))
      && r.value.records == ReplaceById(b.records, before.id, after)
      && r.value.employee == b.employee
    ensures r.Success? <==>
      && b.selected.Some? && b.employee.Some?
      && b.selected.value.status != Submitted
      && b.employee.value.id in b.selected.value.assignees
      && !SignedBy(b.selected.value, b.employee.value.id)
    ensures b.selected.Some? && b.employee.Some? && b.selected.value.status == Submitted ==>
      r == Failure(Sealed)
    ensures (b.selected.Some? && b.employee.Some? && b.selected.value.status != Submitted &&
             b.employee.value.id !in b.selected.value.assignees) ==> r == Failure(NotAssigned)
    ensures (b.selected.Some? && b.employee.Some? && b.selected.value.status != Submitted &&
             b.employee.value.id in b.selected.value.assignees &&
             SignedBy(b.selected.value, b.employee.value.id)) ==> r == Failure(AlreadySigned)
  {
    if b.selected.None? then Failure(NothingSelected)
    else if b.employee.None? then Failure(NoEmployee)
    else
      var before := b.selected.value;
      var e := b.employee.value;
      if before.status == Submitted then Failure(Sealed)
      else if e.id !in before.assignees then Failure(NotAssigned)
      else if SignedBy(before, e.id) then Failure(AlreadySigned)
      else
        var signed := before.(signatures := before.signatures + [Signature(e.id, e.name, payload, now)],
                              updatedAt := Some(now));
        var after := signed.(status := if EverySigned(signed) then Completed else InProgress);
        Success(Board(ReplaceById(b.records, before.id, after), Some(after), b.employee))
  }

  /** An accepted checked sign stores what the handler stores, signatures,
      timestamp and record replacement alike, except that the status comes
      from "every assignee signed" rather than from comparing counts. */
  lemma SignCheckedIsHandlerUpToStatus(b: Board, payload: string, now: int)
    requires SignChecked(b, payload, now).Success?
    ensures var after := SignChecked(b, payload, now).value.selected.value;
      && Sign(b, payload, now).selected.Some?
      && after == Sign(b, payload, now).selected.value.(status := after.status)
  {
  }

  /** Submitting with every check; an accepted submit is exactly the
      handler's own update. */
  function SubmitChecked(b: Board, now: int): (r: Result<Board, SubmitError>)
    ensures b.selected.None? ==> r == Failure(NoSelection)
    ensures r.Success? <==> b.selected.Some? && b.selected.value.status == Completed
    ensures r.Success? ==> r.value == Submit(b, now)
    ensures b.selected.Some? && b.selected.value.status == Submitted ==> r == Failure(AlreadySubmitted)
  {
    if b.selected.None? then Failure(NoSelection)
    else if b.selected.value.status == Submitted then Failure(AlreadySubmitted)
    else if b.selected.value.status != Completed then Failure(NotComplete)
    else Success(Submit(b, now))
  }

  /** Checked signing keeps the invariant. */
  lemma SignCheckedKeepsValid(b: Board, payload: string, now: int)
    requires b.selected.Some? && Valid(b.selected.value)
    requires SignChecked(b, payload, now).Success?
    ensures Valid(SignChecked(b, payload, now).value.selected.value)
  {
    var before := b.selected.value;
    var e := b.employee.value;
    var after := SignChecked(b, payload, now).value.selected.value;
    var n := |before.signatures|;
    assert after.signatures[n].employeeId == e.id;
    forall i | 0 <= i < |after.signatures|
      ensures after.signatures[i].employeeId in after.assignees
    {
      if i < n {
        assert after.signatures[i] == before.signatures[i];
      }
    }
    forall i, j | 0 <= i < j < |after.signatures|
      ensures after.signatures[i].employeeId != after.signatures[j].employeeId
    {
      assert after.signatures[i] == before.signatures[i];
      if j < n {
        assert after.signatures[j] == before.signatures[j];
      }
    }
  }

  /** Checked submitting keeps the invariant. */
  lemma SubmitCheckedKeepsValid(b: Board, now: int)
    requires b.selected.Some? && Valid(b.selected.value)
    requires SubmitChecked(b, now).Success?
    ensures Valid(SubmitChecked(b, now).value.selected.value)
  {
    var before := b.selected.value;
    var after := SubmitChecked(b, now).value.selected.value;
    forall a | a in after.assignees
      ensures SignedBy(after, a) == SignedBy(before, a)
    {
    }
  }

  /** Under the invariant a completed talk can always be submitted, and a
      submitted one can never be signed again. */
  lemma CompletedIsSubmittableSubmittedIsSealed(b: Board, payload: string, now: int)
    requires b.selected.Some? && Valid(b.selected.value)
    ensures b.selected.value.status == Completed ==> SubmitChecked(b, now).Success?
    ensures b.selected.value.status == Submitted ==> SignChecked(b, payload, now).Failure?
  {
  }

  /** Under the invariant, the view's count-based `allSigned` agrees with
      the lifecycle: a completed talk shows every row signed. */
  lemma CompletedShowsEveryRowSigned(t: TalkRecord, current: Option<Employee>)
    requires Valid(t) && t.status == Completed
    ensures forall i :: 0 <= i < |Rows(t, current)| ==> Rows(t, current)[i].signature.Some?
  {
    var rows := Rows(t, current);
    forall i | 0 <= i < |rows|
      ensures rows[i].signature.Some?
    {
      assert t.assignees[i] in t.assignees;
    }
  }

  /** The creator of the sample talk, who is not assigned, is refused. */
  lemma CheckedRefusesUnassignedCreator()
    ensures SignChecked(CreatorBoard(), "ink", 1) == Failure(NotAssigned)
  {
    assert "c" !in SampleTalk().assignees;
  }
}

=== FILE: training_records.dfy ===
/**
 * The per-employee certification store: expiry classification, adding and
 * deleting certifications, lookup, the per-employee status counts and the
 * employee search. Dates are instants in milliseconds; a date input left
 * empty is `None`. The store lives in browser storage, which is not part of
 * this model: the operations return the new list of records.
 */
module TrainingRecords {
  import opened Wrappers
  import opened Text
  import opened Safety
  import Seqs

  datatype CertStatus = Valid | ExpiringSoon | Expired

  datatype Certification = Certification(id: string, name: string, certType: string, issueDate: int,
                                         expiryDate: int, status: CertStatus, imageUrl: Option<string>)

  datatype EmployeeRecord = EmployeeRecord(employeeId: string, certifications: seq<Certification>)

  /** The "expiring soon" horizon: thirty days. */
  const SoonMs: int := 30 * DayMs

  /** `getCertificationStatus`: expired before now, expiring soon within
      thirty days, valid otherwise. */
  function Classify(expiry: int, now: int): (r: CertStatus)
    ensures r == Expired <==> expiry < now
    ensures r == ExpiringSoon <==> now <= expiry < now + SoonMs
    ensures r == Valid <==> now + SoonMs <= expiry
  {
    if expiry < now then Expired else if expiry < now + SoonMs then ExpiringSoon else Valid
  }

  /** A later expiry never gets a worse status. */
  lemma ClassifyMonotone(e1: int, e2: int, now: int)
    requires e1 <= e2
    ensures Classify(e1, now) == Valid ==> Classify(e2, now) == Valid
    ensures Classify(e2, now) == Expired ==> Classify(e1, now) == Expired
  {
  }

  /** Position `i` holds the employee's first record. */
  predicate FirstRecordOf(records: seq<EmployeeRecord>, employeeId: string, i: int) {
    0 <= i < |records| && records[i].employeeId == employeeId &&
      forall j :: 0 <= j < i ==> records[j].employeeId != employeeId
  }

  /** `record?.certifications || []` for the first record of the employee. */
  function EmployeeCertifications(records: seq<EmployeeRecord>, employeeId: string): (r: seq<Certification>)
    ensures (forall i :: 0 <= i < |records| ==> records[i].employeeId != employeeId) ==> r == []
    ensures forall i :: FirstRecordOf(records, employeeId, i) ==> r == records[i].certifications
  {
    if records == [] then []
    else if records[0].employeeId == employeeId then records[0].certifications
    else
      var r := EmployeeCertifications(records[1..], employeeId);
      assert forall i :: 1 <= i < |records| ==> records[i] == records[1..][i - 1];
      r
  }

  /** At most one record per employee. */
  predicate OnePerEmployee(records: seq<EmployeeRecord>) {
    forall i, j :: 0 <= i < j < |records| ==> records[i].employeeId != records[j].employeeId
  }

  /** The add dialog's fields. */
  datatype Draft = Draft(name: string, certType: string, issueDate: Option<int>, expiryDate: Option<int>)

  /** The certification types offered, with their labels. */
  const CertificationTypes: seq<(string, string)> := [
    ("whmis", "WHMIS"), ("fall_protection", "Fall Protection"), ("first_aid", "First Aid/CPR"),
    ("confined_space", "Confined Space"), ("forklift", "Forklift Operator"), ("crane", "Crane Operator"),
    ("scaffold", "Scaffold Safety"), ("electrical", "Electrical Safety"), ("other", "Other")]

  /** The add handler's guard: an employee and every required field. */
  predicate CanAdd(selected: Option<Employee>, draft: Draft) {
    selected.Some? && draft.name != "" && draft.issueDate.Some? && draft.expiryDate.Some?
  }

  /** `handleAddCertification`: refused (`None`) without an employee or a
      required field; otherwise the certification, classified against
      `now`, is appended to every record of the employee, or a new record is
      appended when there is none. */
  function AddCertification(records: seq<EmployeeRecord>, selected: Option<Employee>, draft: Draft,
                            newId: string, image: Option<string>, now: int): (r: Option<seq<EmployeeRecord>>)
    ensures r.Some? <==> CanAdd(selected, draft)
    ensures r.Some? ==> var cert := NewCertification(draft, newId, image, now);
      var id := selected.value.id;
      if exists i :: 0 <= i < |records| && records[i].employeeId == id then
        && |r.value| == |records|
        && forall i :: 0 <= i < |records| ==>
             r.value[i] == if records[i].employeeId == id
                           then records[i].(certifications := records[i].certifications + [cert])
                           else records[i]
      else r.value == records + [EmployeeRecord(id, [cert])]
  {
    if !CanAdd(selected, draft) then None
    else
      var cert := NewCertification(draft, newId, image, now);
      var id := selected.value.id;
      if exists i :: 0 <= i < |records| && records[i].employeeId == id then
        Some(seq(|records|, i requires 0 <= i < |records| =>
          if records[i].employeeId == id
          then records[i].(certifications := records[i].certifications + [cert])
          else records[i]))
      else Some(records + [EmployeeRecord(id, [cert])])
  }

  /** The certification the add handler builds. The guard has already
      required a name, so the type-label fallback never applies. */
  function NewCertification(draft: Draft, newId: string, image: Option<string>, now: int): (c: Certification)
    requires draft.issueDate.Some? && draft.expiryDate.Some?
    ensures c.name == draft.name && c.certType == draft.certType
    ensures c.issueDate == draft.issueDate.value && c.expiryDate == draft.expiryDate.value
    ensures c.status == Classify(draft.expiryDate.value, now)
  {
    Certification(newId, draft.name, draft.certType, draft.issueDate.value, draft.expiryDate.value,
                  Classify(draft.expiryDate.value, now), image)
  }

  /** Adding keeps one record per employee, and the employee's list gains
      exactly the new certification at its end. */
  lemma AddKeepsOnePerEmployee(records: seq<EmployeeRecord>, selected: Option<Employee>, draft: Draft,
                               newId: string, image: Option<string>, now: int)
    requires OnePerEmployee(records) && CanAdd(selected, draft)
    ensures var r := AddCertification(records, selected, draft, newId, image, now).value;
      && OnePerEmployee(r)
      && EmployeeCertifications(r, selected.value.id) ==
         EmployeeCertifications(records, selected.value.id) + [NewCertification(draft, newId, image, now)]
  {
    var r := AddCertification(records, selected, draft, newId, image, now).value;
    var id := selected.value.id;
    if exists i :: 0 <= i < |records| && records[i].employeeId == id {
      var i :| 0 <= i < |records| && records[i].employeeId == id;
      assert r[i].employeeId == id;
    } else {
      assert r[|records|].employeeId == id;
      assert forall j :: 0 <= j < |records| ==> r[j] == records[j];
    }
  }

  /** The status a certification is shown with is the one computed when it
      was added. */
  lemma StatusFixedAtAdd(draft: Draft, newId: string, image: Option<string>, addedAt: int, later: int)
    requires draft.issueDate.Some? && draft.expiryDate.Some?
    requires later >= addedAt + SoonMs && draft.expiryDate.value == addedAt + SoonMs
    ensures NewCertification(draft, newId, image, addedAt).status == Valid
    ensures later > addedAt + SoonMs ==> Classify(draft.expiryDate.value, later) == Expired
  {
  }

  /** The employee's record without the certification. */
  function Without(rec: EmployeeRecord, employeeId: string, certId: string): (r: EmployeeRecord)
    ensures r.employeeId == rec.employeeId
    ensures rec.employeeId != employeeId ==> r == rec
    ensures rec.employeeId == employeeId ==>
      r.certifications == Seqs.Filter(rec.certifications, (c: Certification) => c.id != certId)
  {
    if rec.employeeId == employeeId
    then rec.(certifications := Seqs.Filter(rec.certifications, (c: Certification) => c.id != certId))
    else rec
  }

  /** `handleDeleteCertification`: unconfirmed, nothing changes; otherwise
      the certification leaves the employee's records and every record left
      empty is dropped. */
  function DeleteCertification(records: seq<EmployeeRecord>, employeeId: string, certId: string,
                               confirmed: bool): (r: seq<EmployeeRecord>)
    ensures !confirmed ==> r == records
    ensures confirmed ==> forall i :: 0 <= i < |r| ==> r[i].certifications != []
    ensures confirmed ==> forall i, k ::
      (0 <= i < |r| && r[i].employeeId == employeeId && 0 <= k < |r[i].certifications|) ==>
      r[i].certifications[k].id != certId
    ensures confirmed ==> forall i ::
      (0 <= i < |records| && records[i].employeeId != employeeId && records[i].certifications != []) ==>
      records[i] in r
    ensures confirmed ==> forall i :: 0 <= i < |r| ==> r[i].employeeId != employeeId ==> r[i] in records
    ensures confirmed ==> forall x :: x in r <==>
      x.certifications != [] && exists i :: 0 <= i < |records| && x == Without(records[i], employeeId, certId)
  {
    if !confirmed then records
    else
      PrunedFacts(records, employeeId, certId);
      Pruned(records, employeeId, certId)
  }

  /** The confirmed delete: the certification leaves every record of the
      employee, then the empty records are dropped. */
  function Pruned(records: seq<EmployeeRecord>, employeeId: string, certId: string): seq<EmployeeRecord> {
    var mapped := seq(|records|, i requires 0 <= i < |records| => Without(records[i], employeeId, certId));
    Seqs.Filter(mapped, (rec: EmployeeRecord) => |rec.certifications| > 0)
  }

  /** What the confirmed delete keeps: exactly the non-empty records with
      the certification taken out, which leaves every other certification of
      the employee and every other employee's record in place. */
  lemma PrunedFacts(records: seq<EmployeeRecord>, employeeId: string, certId: string)
    ensures var r := Pruned(records, employeeId, certId);
      && (forall i :: 0 <= i < |r| ==> r[i].certifications != [])
      && (forall i, k ::
            (0 <= i < |r| && r[i].employeeId == employeeId && 0 <= k < |r[i].certifications|) ==>
            r[i].certifications[k].id != certId)
      && (forall i ::
            (0 <= i < |records| && records[i].employeeId != employeeId && records[i].certifications != []) ==>
            records[i] in r)
      && (forall i :: 0 <= i < |r| ==> r[i].employeeId != employeeId ==> r[i] in records)
      && (forall x :: x in r <==>
            x.certifications != [] && exists i :: 0 <= i < |records| && x == Without(records[i], employeeId, certId))
  {
    var mapped := seq(|records|, i requires 0 <= i < |records| => Without(records[i], employeeId, certId));
    var r := Seqs.Filter(mapped, (rec: EmployeeRecord) => |rec.certifications| > 0);
    assert r == Pruned(records, employeeId, certId);
    PrunedMembers(records, employeeId, certId);
    assert forall i :: 0 <= i < |records| && records[i].employeeId != employeeId ==> mapped[i] == records[i];
    forall i | 0 <= i < |r| && r[i].employeeId != employeeId
      ensures r[i] in records
    {
      var j :| 0 <= j < |mapped| && mapped[j] == r[i];
    }
    forall i, k | 0 <= i < |r| && r[i].employeeId == employeeId && 0 <= k < |r[i].certifications|
      ensures r[i].certifications[k].id != certId
    {
      var j :| 0 <= j < |mapped| && mapped[j] == r[i];
      var kept := r[i].certifications;
      assert kept == Seqs.Filter(records[j].certifications, (c: Certification) => c.id != certId);
    }
  }

  lemma PrunedMembers(records: seq<EmployeeRecord>, employeeId: string, certId: string)
    ensures forall x :: x in Pruned(records, employeeId, certId) <==>
      x.certifications != [] && exists i :: 0 <= i < |records| && x == Without(records[i], employeeId, certId)
  {
    var mapped := seq(|records|, i requires 0 <= i < |records| => Without(records[i], employeeId, certId));
    assert Pruned(records, employeeId, certId) == Seqs.Filter(mapped, (rec: EmployeeRecord) => |rec.certifications| > 0);
    Seqs.FilterMembers(mapped, (rec: EmployeeRecord) => |rec.certifications| > 0);
    forall x: EmployeeRecord | x.certifications != [] && exists i :: 0 <= i < |records| && x == Without(records[i], employeeId, certId)
      ensures x in mapped
    {
      var i :| 0 <= i < |records| && x == Without(records[i], employeeId, certId);
      assert mapped[i] == x;
    }
  }

  /** Deleting keeps one record per employee. */
  lemma DeleteKeepsOnePerEmployee(records: seq<EmployeeRecord>, employeeId: string, certId: string)
    requires OnePerEmployee(records)
    ensures OnePerEmployee(DeleteCertification(records, employeeId, certId, true))
  {
    var mapped := seq(|records|, i requires 0 <= i < |records| => Without(records[i], employeeId, certId));
    KeptIdsDistinct(mapped, (rec: EmployeeRecord) => |rec.certifications| > 0);
  }

  lemma {:induction false} KeptIdsDistinct(s: seq<EmployeeRecord>, keep: EmployeeRecord -> bool)
    requires OnePerEmployee(s)
    ensures OnePerEmployee(Seqs.Filter(s, keep))
  {
    if s != [] {
      var tail := s[1..];
      forall i, j | 0 <= i < j < |tail|
        ensures tail[i].employeeId != tail[j].employeeId
      {
        assert tail[i] == s[i + 1] && tail[j] == s[j + 1];
      }
      KeptIdsDistinct(tail, keep);
      var rest := Seqs.Filter(tail, keep);
      if keep(s[0]) {
        forall k | 0 <= k < |rest|
          ensures rest[k].employeeId != s[0].employeeId
        {
          var j :| 0 <= j < |tail| && tail[j] == rest[k];
          assert s[j + 1] == rest[k];
        }
        assert Seqs.Filter(s, keep) == [s[0]] + rest;
        ConsOnePerEmployee(s[0], rest);
      }
    }
  }

  lemma ConsOnePerEmployee(head: EmployeeRecord, rest: seq<EmployeeRecord>)
    requires OnePerEmployee(rest)
    requires forall k :: 0 <= k < |rest| ==> rest[k].employeeId != head.employeeId
    ensures OnePerEmployee([head] + rest)
  {
    var s := [head] + rest;
    forall i, j | 0 <= i < j < |s|
      ensures s[i].employeeId != s[j].employeeId
    {
      assert s[j] == rest[j - 1];
      if i > 0 {
        assert s[i] == rest[i - 1];
      }
    }
  }

  /** The per-employee counts shown on the card. */
  datatype StatusCounts = StatusCounts(valid: nat, expiring: nat, expired: nat)

  function CountStatuses(certs: seq<Certification>): (r: StatusCounts)
    ensures r.valid + r.expiring + r.expired == |certs|
    ensures r.valid == Seqs.Count(certs, (c: Certification) => c.status == Valid)
    ensures r.expiring == Seqs.Count(certs, (c: Certification) => c.status == ExpiringSoon)
    ensures r.expired == Seqs.Count(certs, (c: Certification) => c.status == Expired)
  {
    var v := (c: Certification) => c.status == Valid;
    var s := (c: Certification) => c.status == ExpiringSoon;
    var e := (c: Certification) => c.status == Expired;
    var vs := (c: Certification) => v(c) || s(c);
    var all := (c: Certification) => vs(c) || e(c);
    Seqs.CountDisjoint(certs, v, s, vs);
    Seqs.CountDisjoint(certs, vs, e, all);
    Seqs.FilterAll(certs, all);
    StatusCounts(Seqs.Count(certs, v), Seqs.Count(certs, s), Seqs.Count(certs, e))
  }

  /** The status labels. */
  function StatusLabel(s: CertStatus): (r: string)
    ensures r in {"Valid", "Expiring Soon", "Expired"}
  {
    match s
    case Valid => "Valid"
    case ExpiringSoon => "Expiring Soon"
    case Expired => "Expired"
  }

  lemma StatusLabelInjective(a: CertStatus, b: CertStatus)
    requires StatusLabel(a) == StatusLabel(b)
    ensures a == b
  {
  }

  /** `filteredEmployees`: name or role mentions the query; an empty query
      keeps everyone. */
  function FilteredEmployees(employees: seq<Employee>, query: string): (r: seq<Employee>)
    ensures Seqs.IsSubsequence(r, employees)
    ensures forall e :: e in r <==> e in employees && MentionsEmployee(query, e)
    ensures query == "" ==> r == employees
  {
    var mentions := (e: Employee) => MentionsEmployee(query, e);
    EmptyQueryKeepsAll(employees, query);
    Seqs.FilterSubsequence(employees, mentions);
    Seqs.FilterMembers(employees, mentions);
    Seqs.Filter(employees, mentions)
  }

  /** The employee search: name or role mentions the query. */
  predicate MentionsEmployee(query: string, e: Employee) {
    Contains(Lower(e.name), Lower(query)) || Contains(Lower(e.role), Lower(query))
  }

  lemma EmptyQueryKeepsAll(employees: seq<Employee>, query: string)
    ensures query == "" ==> Seqs.Filter(employees, (e: Employee) => MentionsEmployee(query, e)) == employees
  {
    if query == "" {
      forall e: Employee
        ensures MentionsEmployee(query, e)
      {
        ContainsEmpty(Lower(e.name));
      }
      Seqs.FilterAll(employees, (e: Employee) => MentionsEmployee(query, e));
    }
  }
}

=== FILE: wrappers.dfy ===
/** Optional values: JavaScript's `null`/`undefined` next to a present value. */
module Wrappers {

  datatype Option<+T> = None | Some(value: T) {

    /** `x ?? d` for an optional value. */
    function GetOr(default: T): T {
      match this
      case Some(v) => v
      case None => default
    }
  }

  /** `s || ''`: a missing string reads as the empty string. */
  function OrEmpty(s: Option<string>): (r: string)
    ensures s.Some? ==> r == s.value
    ensures s.None? ==> r == ""
  {
    s.GetOr("")
  }

  /** A JavaScript filter value such as `filterStatus`: active when it is
      neither `null` nor the empty string. */
  predicate IsActive(f: Option<string>) {
    f.Some? && f.value != ""
  }

  /** The outcome of an operation that can be refused with a reason. */
  datatype Result<+T, +E> = Success(value: T) | Failure(error: E)
}
